=== FILE: README.md ===
# ViduUI client core in Dafny

This project models the core of ViduUI, a Gradio front end for the Vidu generation API. It covers:

- the Python client `ViduClient`, with its per-model duration tables and its eight submission methods (image, reference, start-end and text to video; upscaling; lip sync; text and timing to audio);
- task queries, cancellation and `wait_for_completion`;
- the creation accessors and the download helpers, and the `ViduTask` wrapper;
- the error-code table with its retry and suggestion logic;
- the utilities behind the screens (movement labels, duration choices, voice look-ups);
- the `.env` reader and `validate_config`;
- for each of the eight screens, its `create_*_task` function: the screen's own checks, the client call it makes, and the poll loop that turns the task's states into a report.

Everything outside the process is an oracle:

- **The network.** Each request gets one optional decoded answer. `None` stands for any transport, HTTP or JSON failure.
- **The clock.** The waiting loop reads a trace of steps, each holding the elapsed time and the query answer.
- **The file system.** A file control holds nothing, or a file together with what reading or saving it produced.
- **`json.loads`.** It is a decoded value, or `None` when the text is not JSON.

Modules follow the program's structure:

- `Wrappers`: `Option` and `Result`.
- `Text`: the Python `str` operations the code relies on: `strip`, `split`, `int()` and `str()`.
- `Protocol`: JSON values, decoded replies, request bodies keyed by field.
- `ErrorCodes`: `error_codes.py`.
- `Dispatch`: `_make_request` and what a client call raises.
- `Durations`: the model enum, the four duration tables and their validators.
- `Submissions`: the eight submission methods.
- `Tasks`: queries, waiting and the accessors.
- `Download`: file naming and the download helpers.
- `Config`: `config.py`.
- `Utils`: `utils.py`.
- `Shaping`: what the screens share in preparing a call.
- `Tracking`: the screens' poll loop and reports.
- One module per screen.

## Model

| member | source | states |
|---|---|---|
| Text.TrimStart | image_to_video_module.py:64 | the result is a suffix of the input; only whitespace was dropped, and the result does not start with whitespace |
| Text.TrimEnd | image_to_video_module.py:64 | the result is a prefix of the input; only whitespace was dropped, and the result does not end with whitespace |
| Text.Strip | image_to_video_module.py:64 | `str.strip()` never lengthens a string and leaves no whitespace at either end |
| Text.StripSlice | image_to_video_module.py:64 | `str.strip()` is a slice of its input with only whitespace before and after it; with the clean ends this fixes the result |
| Text.BlankIffAllSpace | image_to_video_module.py:64 | `not s.strip()` holds exactly when every character is whitespace |
| Text.StripClean | config.py:87-92 | a string with no whitespace at either end is left unchanged by strip |
| Text.StripIdempotent | config.py:87-92 | stripping an already stripped key or value changes nothing |
| Text.StripKeepsOut | config.py:87-92 | stripping never introduces a character that was not there |
| Text.BeforeFirst | vidu_client.py:1134-1136 | `split(c)[0]` is the longest prefix free of `c`, and it stops just before the first `c` |
| Text.AfterFirst | config.py:89 | `split('=', 1)`: the text before the first `=`, then `=`, then the result, rebuild the line |
| Text.AfterLast | vidu_client.py:1140-1141 | `split(c)[-1]` is the longest suffix free of `c`, and it starts just after the last `c` |
| Text.BeforeFirstAbsent | vidu_client.py:1135-1136 | a URL with no `?` is left whole |
| Text.AfterLastSplit | vidu_client.py:1141 | the text after the last `.` of `p.q` is `q` when `q` holds no dot |
| Text.AfterLastNested | vidu_client.py:1140-1141 | cutting at the last `/` and then at the last `.` is cutting at the last `.`, when a dot follows the last slash |
| Text.NatToString | vidu_client.py:1126 | `str(i)` of a non-negative int is a non-empty run of decimal digits |
| Text.ParseNat | image_to_video_module.py:65 | a digit string has a value exactly when it is non-empty and all digits |
| Text.ParseNatToString | vidu_client.py:1126 | reading back the digits `str(i)` writes gives `i` |
| Text.ParseInt | image_to_video_module.py:65 | `int(s)` fails on a blank string, reads the stripped digits of an unsigned numeral, negates the digits after a `-`, keeps those after a `+`, and fails on any other first character |
| Text.ParseIntToString | image_to_video_module.py:65 | `int(str(n)) == n` for every non-negative `n` |
| Text.ParseIntNegative | image_to_video_module.py:65 | a leading minus negates the value `int()` reads |
| Text.IntToString | utils.py:36 | `int()` reads `str(i)` back as `i`, for every int |
| Text.ParseIntPadded | image_to_video_module.py:65 | `int()` ignores blanks around the digits |
| Protocol.Number | vidu_client.py:869-873 | a JSON value takes part in a numeric comparison exactly when it is a bool, an int or a float |
| Protocol.Length | vidu_client.py:876 | `len()` is defined exactly on strings, lists and objects |
| Protocol.WireBody | vidu_client.py:338-363 | every field of a body appears under its wire key with its value, and every wire key comes from some field |
| Protocol.WireKeysDistinct | vidu_client.py:338-363 | no two request fields share a wire key, so no field overwrites another |
| Protocol.Strs | vidu_client.py:340 | the images list is sent element by element as JSON strings |
| ErrorCodes.WireRoundTrip | error_codes.py:10-74 | every error code is read back from its wire string |
| ErrorCodes.FromWireSound | error_codes.py:10-74 | any code read from a string has that string as its wire value, so the enum has no duplicate values |
| ErrorCodes.GetErrorMessage | error_codes.py:225-235 | a known code gets its table message; any other string gets the unknown-code text followed by the code |
| ErrorCodes.MessageIsNotFallback | error_codes.py:105-169 | no table message looks like the unknown-code fallback |
| ErrorCodes.UnknownMessageIffUnknownCode | error_codes.py:225-235 | the fallback message appears exactly for strings that are not codes, and it names the string |
| ErrorCodes.MessageOfKnownCode | error_codes.py:225-235 | the message of a code's wire string is that code's table message |
| ErrorCodes.GetHttpStatusCode | error_codes.py:238-248 | the success code and unknown strings get 500; every result is one of the statuses the table uses |
| ErrorCodes.StatusIsCategory | error_codes.py:170-222 | every code other than success has as its status the number its first three digits spell |
| ErrorCodes.CreateError | error_codes.py:251-263 | the error carries the code string and its message; `details or {}` keeps the details only when they are truthy |
| ErrorCodes.HandleApiResponse | error_codes.py:266-279 | a body raises exactly when it carries an error code other than "0"; the error names that code with its message, and `{}` as details when the body has none |
| ErrorCodes.IsRetryableError | error_codes.py:282-301 | a retryable code has status 429 or 500, and a string that is not a code is never retryable |
| ErrorCodes.RetryableWireCodes | error_codes.py:282-301 | the retryable codes are exactly the listed wire strings |
| ErrorCodes.RetryableIffTransientStatus | error_codes.py:282-301 | a known code is retryable exactly when its status is 429 or 500 |
| ErrorCodes.BaseDelay | error_codes.py:315-325 | the backoff base is at least one second for every string |
| ErrorCodes.BaseDelayMarksRetryable | error_codes.py:282-325 | a code starts backing off above one second exactly when it is retryable |
| ErrorCodes.Pow2 | error_codes.py:327 | the backoff factor `2 ** (attempt - 1)` is at least one |
| ErrorCodes.Pow2Monotone | error_codes.py:327 | the backoff factor never shrinks as the attempt grows |
| ErrorCodes.GetRetryDelay | error_codes.py:304-327 | the delay lies between one second and the 300 s cap, and the first attempt waits the code's base delay |
| ErrorCodes.RetryDelayDoubles | error_codes.py:325-327 | each next attempt waits twice the previous delay while that stays under 300 s, and 300 s from then on |
| ErrorCodes.RetryDelayScales | error_codes.py:325-327 | `k` attempts later the delay is the earlier delay times `2 ** k`, capped at 300 s |
| ErrorCodes.RetryDelayMonotone | error_codes.py:304-327 | a later attempt never waits less |
| ErrorCodes.RetryDelaySaturates | error_codes.py:304-327 | from the tenth attempt on, every code waits the 300 s cap |
| ErrorCodes.GetSuggestedAction | error_codes.py:330-358 | codes with a listed suggestion get it and every other string gets the generic advice |
| ErrorCodes.SpecificSuggestionCodes | error_codes.py:330-358 | the codes with a specific suggestion are exactly the listed ones |
| ErrorCodes.HintIsNeverGeneric | error_codes.py:330-358 | no specific suggestion equals the generic advice |
| ErrorCodes.HandleViduError | error_codes.py:361-372 | the module-level helper's error carries the given code, that code's message, and the details when truthy or `{}` otherwise |
| ErrorCodes.IsRetryable | error_codes.py:375-385 | the module-level helper is true exactly for the wire codes 500, 500001-500004, 429 and 429001, that is, for a known code other than success exactly when its status is 429 or 500 |
| ErrorCodes.GetErrorSuggestion | error_codes.py:388-398 | the module-level helper gives a code's mapped hint, the generic hint for an unknown string, and a hint other than the generic one exactly for a mapped code |
| ErrorCodes.RateLimitHitScenario | error_codes.py:266-327 | a body with the rate-limit-hit code raises an error that is retryable, first after 30 s |
| Dispatch.MakeRequest | vidu_client.py:120-163 | a missing answer is a transport failure; a body is handed back unchanged exactly when the envelope check raises nothing, and otherwise the envelope's error is raised |
| Dispatch.AcceptedBodyIsClean | vidu_client.py:150-153 | a returned body carries no error code or the success code |
| Dispatch.RaisedErrorNamesBodyCode | vidu_client.py:150-153 | a raised API error names the body's own non-zero code, its table message and its details |
| Dispatch.Call | vidu_client.py:324-365 | a submission whose local checks fail sends nothing and raises their error; otherwise exactly the prepared request goes out |
| Dispatch.RefusalIgnoresNetwork | vidu_client.py:324-335 | a refused submission sends nothing and ends the same whatever the network would answer |
| Durations.ParseModel | vidu_client.py:19-24 | a string names a model exactly when it is that model's wire name |
| Durations.ParseModelRoundTrip | vidu_client.py:19-24 | every model is read back from its wire name |
| Durations.ValidateDuration | vidu_client.py:165-283 | an unknown model name is refused even with no duration; no duration means the model's default; a given duration is accepted unchanged exactly when the operation's table lists it; a model missing from the table fails the lookup with `KeyError` |
| Durations.DefaultIsWhitelisted | vidu_client.py:67-102 | where a table lists a model, it lists the model's default duration |
| Durations.DefaultListedFirst | vidu_client.py:67-102 | each table entry starts with the model's default duration |
| Durations.ListedDurationAccepted | vidu_client.py:165-283 | a listed duration is accepted as it is |
| Durations.ValidateIdempotent | vidu_client.py:165-283 | validating an accepted duration again returns it unchanged |
| Durations.TextToVideoLookupGap | vidu_client.py:91-96 | for vidu2.0 and viduq1-classic, text-to-video returns the default when no duration is given, but any stated duration fails the lookup |
| Durations.TextMatchesImageWhereListed | vidu_client.py:67-96 | for viduq1 and vidu1.5 the text-to-video check decides as the image-to-video one does |
| Durations.AcceptedDurations | vidu_client.py:67-102 | every accepted duration is 4, 5 or 8 seconds |
| Durations.ReferenceNarrowsImage | vidu_client.py:67-82 | reference-to-video accepts a subset of what image-to-video accepts, missing exactly vidu2.0 at 8 s |
| Durations.StartEndMatchesImage | vidu_client.py:67-90 | start-end-to-video decides every duration as image-to-video does |
| Submissions.ExtraFields | vidu_client.py:347-363 | each optional setting is in the body exactly when it is given, under its own key, with its value |
| Submissions.FramesBody | vidu_client.py:337-363 | model, images, validated duration and given settings are sent; the prompt is sent exactly when given; nothing else is |
| Submissions.ReferenceBody | vidu_client.py:424-451 | as for frames, but the prompt is always sent and the aspect ratio exactly when given |
| Submissions.TextVideoBody | vidu_client.py:592-619 | the body holds model, style, prompt and duration, no images, the aspect ratio exactly when given and with the given text, and the given settings |
| Submissions.ImageToVideoRequest | vidu_client.py:285-365 | exactly one image, a prompt of at most 1500 characters when one is given, and a payload of at most 1048576, in that order of refusal; then the duration check; the accepted call posts to `/ent/v2/img2video` |
| Submissions.ReferenceToVideoRequest | vidu_client.py:367-453 | one to seven images, a non-blank prompt of at most 1500 characters, the payload limit and the reference duration table decide acceptance; a call that passes every other check fails with the duration check's own error; the call posts to `/ent/v2/reference2video` |
| Submissions.StartEndToVideoRequest | vidu_client.py:455-535 | exactly two images, then the image-to-video checks (an over-long payload refused) with the start-end table; a call that passes every other check fails with the duration check's own error; the call posts to `/ent/v2/start-end2video` |
| Submissions.TextToVideoRequest | vidu_client.py:537-621 | a non-blank prompt of at most 1500 characters, the style general or anime, the payload limit and the text-to-video table decide acceptance; a call that passes every other check fails with the duration check's own error; the call posts to `/ent/v2/text2video` |
| Submissions.UpscaleProRequest | vidu_client.py:623-676 | a non-empty video URL or creation id is required, a given resolution must be 1080p, 2K, 4K or 8K, and an over-long payload is then refused with its own error; an accepted call posts the upscale body |
| Submissions.UpscaleBody | vidu_client.py:657-674 | each source and the resolution are sent, with their values, exactly when non-empty; payload and callback exactly when given, with their values; no other key |
| Submissions.LipSyncFault | vidu_client.py:711-729 | a call is fine exactly when it has a video URL, an audio URL or a text, a given text of 4 to 2000 characters, speed in [0.5, 1.5], volume in [0, 10] and the payload limit; the first failing check names the fault, in that order |
| Submissions.LipSyncTexts | vidu_client.py:732-758 | audio URL, text, character id and language are sent, with their values, exactly when non-empty |
| Submissions.LipSyncSettings | vidu_client.py:732-758 | speed, volume, payload and callback are sent, with their values, exactly when given |
| Submissions.LipSyncBody | vidu_client.py:732-758 | the body carries the video URL and each optional field, with its value, under the rule that applies to it, and no key outside the lip-sync fields |
| Submissions.LipSyncParts | vidu_client.py:732-758 | the body is the video URL joined with the text part and the settings part, each key carried over with its value |
| Submissions.LipSyncRequest | vidu_client.py:678-760 | the call is refused exactly when a lip-sync check fails, with that check's reason; otherwise it posts the lip-sync body |
| Submissions.AudioBody | vidu_client.py:804-819 | model and main field always; duration, seed, payload and callback exactly when given, each carrying the given value; nothing else |
| Submissions.TextToAudioRequest | vidu_client.py:762-821 | refused for a blank prompt, a prompt over 1500 characters, a given duration outside [2, 10] and an over-long payload, each with its own error in that order; otherwise the call posts to `/ent/v2/text2audio` |
| Submissions.TimeBound | vidu_client.py:868 | `duration or 10.0`: a given non-zero duration, and ten seconds both when none is given and when the given one is zero |
| Submissions.CheckEvent | vidu_client.py:858-877 | a fault found in one event names that event's position, unless a comparison or `len` raises `TypeError`; a non-object is refused first |
| Submissions.CheckEventIffWellTimed | vidu_client.py:858-877 | an event passes exactly when it is an object with numeric `from < to` inside [0, bound] and a prompt of at most 1500 |
| Submissions.FirstEventFault | vidu_client.py:858-877 | no fault exactly when every event passes; otherwise the fault of the first failing event, numbered from 1 |
| Submissions.EventsCheckedOneByOne | vidu_client.py:858-877 | a list passes exactly when each event is well timed on its own |
| Submissions.TimingToAudioRequest | vidu_client.py:823-900 | refused for an empty list, a given duration outside [2, 10], the first event not well timed against `duration or 10.0`, and an over-long payload, each with its own error in that order; otherwise the call posts the timing body |
| Submissions.TimeBoundOfCheckedDuration | vidu_client.py:854-869 | after the range check the bound is the given duration, or ten seconds, and lies in [2, 10] |
| Submissions.OverlappingEventsAccepted | vidu_client.py:858-877 | overlapping events are accepted, since no two events are compared |
| Tasks.SuccessIsCompleted | vidu_client.py:1282-1290 | a successful task is a completed one; completed means success or failure; the in-flight states are not completed |
| Tasks.QueryTask | vidu_client.py:902-916 | a query is a GET with no body on the task's `creations` endpoint |
| Tasks.CancelTask | vidu_client.py:918-932 | a cancel is a POST with no body on an endpoint of the cancel prefix, the task id and the cancel suffix, not a query endpoint |
| Tasks.Between | vidu_client.py:916 | reading an endpoint between a prefix and a suffix succeeds only on an endpoint with that prefix and room for the suffix |
| Tasks.BetweenRoundTrip | vidu_client.py:916 | the text placed between a prefix and a suffix is read back |
| Tasks.TaskOfCancel | vidu_client.py:932 | an endpoint read as a cancel names the task inside the cancel prefix and suffix |
| Tasks.CancelNamesTask | vidu_client.py:932 | the cancel endpoint gives back its task id, so distinct tasks are cancelled at distinct endpoints |
| Tasks.TaskOfQuery | vidu_client.py:916 | an endpoint read as a query names the task inside the query prefix and suffix |
| Tasks.QueryNamesTask | vidu_client.py:916 | the query endpoint gives back its task id, so distinct tasks are queried at distinct endpoints |
| Tasks.WaitFrom | vidu_client.py:934-968 | the loop is still waiting at the end of the trace exactly when every step was within the deadline, answered, and in a non-terminal state |
| Tasks.WaitFromOutcome | vidu_client.py:934-968 | the loop settles on the first terminal answer within the deadline, raises `TimeoutError` at the first step past the deadline, propagates the first failed query, and keeps polling on every other state |
| Tasks.Wait | vidu_client.py:934-968 | a settled wait ends on a terminal state after at least one query |
| Tasks.QueriesAtLeastOnce | vidu_client.py:958-962 | when the first deadline check passes, a query is sent before the loop can end |
| Tasks.KeepsWaitingOnOtherStates | vidu_client.py:962-968 | a non-terminal state, even one without a name, sends the loop round again with nothing else changed |
| Tasks.WaitIgnoresLaterSteps | vidu_client.py:934-968 | once the loop has ended, extending the trace changes nothing |
| Tasks.GetCreations | vidu_client.py:996-1008 | creations are listed only for a successful task, as the body lists them (empty when absent) |
| Tasks.VideoUrl | vidu_client.py:1010-1023 | the link is the first creation's `url`, and only for a successful task |
| Tasks.AudioUrl | vidu_client.py:1025-1038 | the link is the first creation's `url`, and only for a successful task |
| Tasks.CoverUrl | vidu_client.py:1040-1053 | the link is the first creation's `cover_url`, and only for a successful task |
| Tasks.AccessorsAgree | vidu_client.py:1010-1053 | the audio link is the video link; a task that did not succeed shows no link and no creations |
| Tasks.TaskAccessorsMatchClient | vidu_client.py:1293-1318 | the wrapper's success check before each accessor agrees with the client's own |
| Download.ExtensionAsWritten | vidu_client.py:1133-1141 | the fallback when the URL without its query has no dot; otherwise a dot and everything after the last dot anywhere in it |
| Download.ExtensionAsWrittenAfterDot | vidu_client.py:1133-1141 | with no query string, the extension is the dot and the text after the last dot |
| Download.ExtensionAsWrittenTakesHost | vidu_client.py:1133-1141 | `http://a.b/c` gets the "extension" `.b/c`, part of the host plus the path |
| Download.Extension | vidu_client.py:1133-1141 | the intended rule: the fallback when the last path segment has no dot, otherwise a dot-led suffix with no further dot, slash or `?` |
| Download.ExtensionMatchesWhenNamed | vidu_client.py:1133-1141 | when the file name carries a dot, the intended rule and the written one agree |
| Download.ExtensionStaysInFileName | vidu_client.py:1136-1163 | with a slash-free fallback, the intended extension never holds a slash, so the file name stays in the save directory |
| Download.ExtensionFallsBackForHostDot | vidu_client.py:1139-1141 | under the intended rule `http://a.b/c` gets the fallback |
| Download.ItemsOf | vidu_client.py:1125-1166 | a creation yields its main file when `url` is non-empty and then its cover when `cover_url` is, keyed `main_<i>` and `cover_<i>`, named with the extension rule given, the client's or the corrected one |
| Download.MainOnlyItems | vidu_client.py:1125-1150 | a creation with only a video URL yields one file, `main_<i>`, named prefix, id and extension |
| Download.HostDotItems | vidu_client.py:1133-1150 | for `http://a.b/c` the client's rule names the file `t_x.b/c`, the corrected one `t_x.mp4` |
| Download.OneCreationSaved | vidu_client.py:1093-1168 | a successful task with one creation, all saves succeeding, yields exactly that creation's files |
| Download.HostDotLeavesDirectory | vidu_client.py:1093-1168 | the whole download, as the client names files, returns `t_x.b/c` for `http://a.b/c`; with the corrected rule, `t_x.mp4` |
| Download.FirstFailed | vidu_client.py:1125-1166 | no failure exactly when every file was saved; otherwise the first failing file, with all before it saved |
| Download.DownloadCreation | vidu_client.py:1093-1168 | no creations is refused; otherwise either all files of all creations, in order and all saved, or the error of the first failing save; with the rule `ExtensionAsWritten` the files are named as the client names them |
| Download.ItemsUpToGrows | vidu_client.py:1125 | the files of the first creations lead the files of all of them |
| Download.CreationFilesListed | vidu_client.py:1125-1166 | each creation's main file and cover are among the files fetched |
| Download.CreationItemsListed | vidu_client.py:1125-1166 | every file of a creation is among the files of any longer run of creations that includes it |
| Download.DownloadOne | vidu_client.py:1170-1234 | a missing or empty first link is refused with its own reason; otherwise the call returns the save path, or the save's own error when the save fails |
| Download.TaskDownloadMatchesClient | vidu_client.py:1357-1415 | the wrapper's success check refuses the same tasks with the same error as the client; only a successful task with a non-empty link is fetched |
| Config.ParseLine | config.py:87-92 | a line carries a setting exactly when, stripped, it is non-empty, not a comment and holds `=`; the key holds no `=` and both sides are stripped |
| Config.ParseLineRoundTrip | config.py:89-91 | `key=value` with clean ends reads back as that key and value, even when the value holds `=` |
| Config.BeforeFirstSplit | config.py:89 | splitting at the first `=` gives the key and the rest |
| Config.ApplyLine | config.py:93-96 | only `VIDU_API_KEY` and `DOMAIN` lines change a setting; every other line leaves both settings alone |
| Config.Parsed | config.py:86-92 | the entries of the lines, line by line |
| Config.LastSet | config.py:86-96 | the value found comes from an entry for that key, and none is found when no entry names the key |
| Config.LoadEnvSnoc | config.py:86-96 | reading one more line applies it to what the earlier lines gave |
| Config.LastLineWins | config.py:78-103 | each setting ends as the value of the last line naming it, or stays as it was |
| Config.ValidateConfig | config.py:59-77 | each problem is reported exactly when its condition holds (port outside [1024, 65535], default wait above the maximum, no positive file size), in that order |
| Config.ShippedIsValid | config.py:19-35 | the shipped constants pass the check |
| Utils.ConvertMovementAmplitude | utils.py:17-25 | the result is a valid movement value, other than `auto` exactly for the three sized labels |
| Utils.MovementLabelsRoundTrip | utils.py:17-25 | the labels and the values correspond one to one |
| Utils.DurationStrings | utils.py:36 | one string per duration |
| Utils.DurationStringsRead | utils.py:36 | `int()` reads each string back as its duration |
| Utils.DurationChoices | utils.py:28-39 | a name that is not a model gets `["4"]`; a known model gets one string per listed duration, each read back by `int()` as that duration; no choice list is empty |
| Utils.DurationStringsAllRead | utils.py:33-36 | `int()` reads every string of the list back as its duration |
| Utils.DurationChoicesAccepted | utils.py:28-39 | each choice for a known model reads as a duration the operation accepts, and the first is the default |
| Utils.UpdateDurationOptions | utils.py:28-39 | the choices are the image-to-video table's durations, one string per duration read back as it by `int()`, or `["4"]` for a name that is not a model |
| Utils.DurationOptionsAccepted | utils.py:28-39 | each offered choice reads as a duration image-to-video accepts, and the preselected one is the default |
| Utils.GetErrorMessage | utils.py:12-14 | the helper gives the error table's message for a code and the fallback text otherwise |
| Utils.VoiceChoices | utils.py:277-280 | one display string per voice, in table order, each the voice's name followed by its id in parentheses |
| Utils.FirstNamed | utils.py:283-289 | the first voice whose name begins the display string, and no earlier one |
| Utils.VoiceId | utils.py:283-289 | the id of the first voice whose name begins the display string, or `""` |
| Utils.FirstWithId | utils.py:292-298 | the first voice with the id, and no earlier one |
| Utils.VoiceName | utils.py:292-298 | the name of the first voice with the id, or the id itself |
| Utils.ChoiceRoundTrip | utils.py:277-298 | choosing a voice sends its id, and the id shows its name, unless an earlier voice shadows it |
| Utils.UnknownVoice | utils.py:283-298 | an unknown display string gives `""` and an unknown id is shown as itself |
| Shaping.EncodeAll | reference_to_video_module.py:49-54 | reading fails exactly when a chosen file cannot be read; otherwise each chosen file's encoding is kept, empty controls are dropped, and nothing else is added |
| Shaping.EmptyControlSkipped | reference_to_video_module.py:50-51 | removing an empty file control changes nothing |
| Shaping.OptionalPrompt | image_to_video_module.py:64 | a blank prompt is not sent; any other is sent as typed |
| Shaping.OptionalPromptNeverBlank | image_to_video_module.py:64 | a sent optional prompt is never blank, so the client's length check applies exactly to non-blank prompts over 1500 |
| Shaping.SeedOrNone | image_to_video_module.py:66 | zero means no seed; any other seed is sent |
| Shaping.ScreenExtras | image_to_video_module.py:66-69 | the seed unless zero, the chosen resolution, a valid movement value, music exactly when `有` was chosen, no payload or callback |
| Shaping.ScreenExtrasSent | image_to_video_module.py:66-69 | the seed field appears exactly for a non-zero seed; resolution, movement and music always; payload and callback never |
| Shaping.ParseDuration | image_to_video_module.py:65 | `int(duration)` succeeds exactly when the text is an integer and raises `ValueError` otherwise |
| Shaping.OfferedDurationsParse | image_to_video_module.py:235 | every duration choice offered reads as an integer |
| Shaping.Lookup | image_to_video_module.py:14-40 | `table.get(model, {}).get(duration, fallback)` is the listed entry when there is one, the fallback otherwise |
| Shaping.DefaultAmongOptions | image_to_video_module.py:14-40 | when two tables agree, the default for any pair, listed or not, is among the options offered for it |
| Tracking.Classify | image_to_video_module.py:86-121 | success, failure and the three in-flight states are told apart exactly; everything else is unrecognised |
| Tracking.ClassifyAgainstWait | image_to_video_module.py:86-121 | the screens stop on exactly the states `wait_for_completion` stops on, and also on states they do not know |
| Tracking.CreationLinks | image_to_video_module.py:97-103 | at most two links per creation, no audio links, and no cover links when covers are not listed |
| Tracking.VideoLinksComeFromCreations | image_to_video_module.py:99-101 | every video link listed is some creation's `url` |
| Tracking.OneCreationLinks | image_to_video_module.py:99-103 | one creation lists its video link, then its cover link when covers are listed |
| Tracking.CreationLinksAppend | image_to_video_module.py:97-103 | the links of two runs of creations are those of the first run followed by those of the second, so the links follow the creations' order |
| Tracking.CreationLinksListed | image_to_video_module.py:97-103 | every creation's non-empty `url` is listed, and its non-empty `cover_url` when covers are listed |
| Tracking.Watch | image_to_video_module.py:80-121 | the loop is still running exactly when every answer is an in-flight state; an error it raises comes from one of the queries |
| Tracking.WatchAgreesWithWait | image_to_video_module.py:80-121 | when every state is known and the deadline does not fire, the screen ends on the same poll as `wait_for_completion`: the same links, the same failure or the same error |
| Tracking.Answers | image_to_video_module.py:82 | the query answers of a trace, one per step |
| Tracking.Launch | image_to_video_module.py:61-123 | a refused call, a failed submission and a failed query are each reported as a crash with their own error; an accepted submission with a `task_id` is polled and reported with that id and the poll outcome; a missing `task_id` is reported as such; the screen's own refusals never come from here |
| Tracking.RefusedCallNeverPolls | image_to_video_module.py:61-70 | a call the client refuses makes the poll answers irrelevant |
| ImageScreen.ResolutionOptions | image_to_video_module.py:14-29 | a non-empty list of known resolutions |
| ImageScreen.DefaultResolution | image_to_video_module.py:32-40 | a known resolution |
| ImageScreen.TablesAgree | image_to_video_module.py:14-40 | the two tables list the same model and duration pairs, each default among its options |
| ImageScreen.DefaultIsOffered | image_to_video_module.py:14-40 | the preselected resolution is always one of those offered |
| ImageScreen.Screen | image_to_video_module.py:43-126 | no image is refused; an unreadable file crashes; otherwise the prepared call is made and polled |
| ImageScreen.Prepare | image_to_video_module.py:61-70 | a duration `int()` cannot read raises; otherwise the client gets the image, the prompt when not blank, the duration and the settings |
| ImageScreen.PreparedRequest | image_to_video_module.py:61-70 | the client accepts exactly when the non-blank prompt is at most 1500 characters and the duration is listed; the prompt is sent as typed exactly when not blank |
| ReferenceScreen.ResolutionOptions | reference_to_video_module.py:15-29 | a non-empty list of known resolutions |
| ReferenceScreen.DefaultResolution | reference_to_video_module.py:32-40 | a known resolution |
| ReferenceScreen.TablesAgree | reference_to_video_module.py:15-40 | the two tables list the same pairs, each default among its options |
| ReferenceScreen.DefaultIsOffered | reference_to_video_module.py:15-40 | the preselected resolution is always one of those offered |
| ReferenceScreen.Screen | reference_to_video_module.py:43-129 | an unreadable file crashes; no image and a blank prompt are refused; otherwise the client is called with the images, the prompt, the duration text, the aspect ratio and the screen settings, and its outcome is polled and reported; a tracked task comes only from a call the client accepted |
| ReferenceScreen.Prepare | reference_to_video_module.py:43-129 | the client gets the images, the stripped prompt, the duration read by `int()`, the aspect ratio and the settings |
| ReferenceScreen.PreparedRequest | reference_to_video_module.py:43-129 | the client accepts exactly when there are at most seven images, the stripped prompt is at most 1500 characters and the reference table lists the duration; the prompt goes out stripped |
| ReferenceScreen.OfferedDurationRefused | reference_to_video_module.py:244 | with vidu2.0 the screen offers 8 seconds, which the client then refuses as unsupported |
| ReferenceScreen.EightIsOffered | utils.py:28-39 | vidu2.0's duration choices include "8" |
| ReferenceScreen.EightReads | reference_to_video_module.py:43-129 | `int("8")` is 8 |
| ReferenceScreen.EightRefused | vidu_client.py:75-82 | the reference table refuses 8 s for vidu2.0 |
| ReferenceScreen.ReferenceDurationOptions | utils.py:28-39 | `["4"]` for a name that is not a model; for a model, one choice per duration of the reference table, each read back by `int()` as that duration |
| ReferenceScreen.ReferenceDurationsAccepted | vidu_client.py:192-221 | every choice from the reference table is accepted by the reference check, and the first is the default |
| StartEndScreen.ResolutionOptions | start_end_to_video_module.py:15-33 | a non-empty list of known resolutions |
| StartEndScreen.DefaultResolution | start_end_to_video_module.py:36-45 | a known resolution |
| StartEndScreen.TablesAgree | start_end_to_video_module.py:15-45 | the two tables list the same pairs, each default among its options |
| StartEndScreen.DefaultIsOffered | start_end_to_video_module.py:15-45 | the preselected resolution is always one of those offered |
| StartEndScreen.Screen | start_end_to_video_module.py:48-132 | an unreadable file crashes; anything but two images and a blank prompt are refused; otherwise the prepared call is made and polled |
| StartEndScreen.Prepare | start_end_to_video_module.py:48-132 | the client gets both frames, the stripped prompt, the duration read by `int()` and the settings |
| StartEndScreen.PreparedRequest | start_end_to_video_module.py:48-132 | the client accepts exactly when the stripped prompt is at most 1500 characters and the duration is listed; it never objects to the image count |
| StartEndScreen.BlankPromptStricterThanClient | start_end_to_video_module.py:48-132 | the screen refuses a blank prompt that the client would accept as no prompt |
| StartEndScreen.OfferedDurationsAccepted | start_end_to_video_module.py:243 | every offered duration is one start-end accepts |
| TextVideoScreen.ResolutionOptions | text_to_video_module.py:14-25 | a non-empty list of known resolutions |
| TextVideoScreen.DefaultResolution | text_to_video_module.py:28-35 | a known resolution |
| TextVideoScreen.TablesAgree | text_to_video_module.py:14-35 | the two tables list the same pairs, each default among its options |
| TextVideoScreen.DefaultIsOffered | text_to_video_module.py:14-35 | the preselected resolution is always one of those offered |
| TextVideoScreen.StyleValue | text_to_video_module.py:46-47 | the style sent is always one the client knows, and it is `anime` exactly for the anime label |
| TextVideoScreen.Screen | text_to_video_module.py:38-116 | a blank prompt is refused; otherwise the prepared call is made and polled |
| TextVideoScreen.Prepare | text_to_video_module.py:38-116 | the client gets the mapped style, the stripped prompt, the duration read by `int()`, the aspect ratio and the settings |
| TextVideoScreen.PreparedRequest | text_to_video_module.py:38-116 | the client never objects to the prompt being blank or to the style, and accepts exactly when the stripped prompt is at most 1500 characters and the table lists the duration |
| TextVideoScreen.OfferedDurationsAccepted | text_to_video_module.py:124-231 | for the two models offered, every duration choice is one text-to-video accepts |
| TextVideoScreen.UnlistedModelCrashes | vidu_client.py:254-283 | vidu2.0 or viduq1-classic, passed past the screen, crashes the duration lookup whatever the duration |
| TextVideoScreen.UnlistedModelRefused | vidu_client.py:254-283 | for vidu2.0 or viduq1-classic with a non-blank prompt within the limit, the prepared client call fails with the lookup's `KeyError` |
| LipSyncScreen.Gather | lip_sync_module.py:15-66 | refusals in the screen's order (video, audio file, text, text too short or too long, failed video save, failed audio save in audio mode); the saved URLs go out; text, speed, volume and voice are sent only in text mode, the voice looked up exactly when one was chosen |
| LipSyncScreen.Screen | lip_sync_module.py:15-125 | a refusal is reported as such; otherwise the lip-sync call is made and polled for video links |
| LipSyncScreen.TextModeAccepted | lip_sync_module.py:22-66 | a text-mode call that passes the screen is accepted by the client with the stripped text and no audio |
| LipSyncScreen.AudioModeAccepted | lip_sync_module.py:36-66 | an audio-mode call with two saved files is accepted, with none of the text-mode settings |
| LipSyncScreen.OtherModeRefusedByClient | lip_sync_module.py:22-66 | a mode that is neither one sends neither audio nor text and the client refuses it |
| LipSyncScreen.TextBoundsAgree | lip_sync_module.py:22-34 | the screen's text bounds match the client's, so its length check never fires |
| TimingScreen.Gather | timing_to_audio_module.py:14-54 | refusals in order (no text, duration range, not JSON, not a list, then the first bad event); events of the wrong kind raise; otherwise the decoded events are used |
| TimingScreen.Screen | timing_to_audio_module.py:14-115 | a refusal is reported; otherwise the timing call goes out with the duration and the seed unless zero, and is polled |
| TimingScreen.ScreenCheckedEventsAccepted | timing_to_audio_module.py:19-62 | a non-empty list the screen accepts is accepted by the client, with the events and duration as chosen |
| TimingScreen.EmptyListReachesClient | timing_to_audio_module.py:19-62 | an empty list gets past the screen and the client refuses it |
| TimingScreen.NonNumericTimeRaises | timing_to_audio_module.py:19-54 | a string time makes the screen's own check raise instead of refusing |
| TextAudioScreen.Screen | text_to_audio_module.py:14-83 | a blank prompt or a duration outside [2, 10] is refused; otherwise the call goes out with the stripped prompt and is polled |
| TextAudioScreen.ScreenCheckedPromptAccepted | text_to_audio_module.py:17-30 | after the screen's checks, the client refuses only a stripped prompt over 1500 characters; the seed field is sent exactly when non-zero |
| UpscaleScreen.CreationId | upscale_pro_module.py:36-40 | the creation id is left out exactly when blank, and sent stripped otherwise |
| UpscaleScreen.Screen | upscale_pro_module.py:14-100 | the screen refuses exactly when there is no file and no creation id, or when the save fails; otherwise the upscale call is made and polled |
| UpscaleScreen.OfferedChoiceAccepted | upscale_pro_module.py:122 | any listed resolution is accepted by the client, and each source the screen has is sent |
| UpscaleScreen.UnknownResolutionReachesClient | upscale_pro_module.py:36-40 | an unlisted resolution passes the screen and the client refuses it |

## Left out

- HTTP plumbing is not modelled: the `requests` session, `raise_for_status`, JSON decoding and streamed writes. Each request gets one oracle answer, or `None` for a transport failure.
- `encode_image_to_base64` and the file reads are not modelled. A file control holds the encoded text or the saved URL as an oracle.
- `file_upload_utils.py` (saving, naming and evicting uploads) is not part of this model. Only its result, the saved URL or a failure, enters the screens.
- `time.time` and `time.sleep` are not modelled. `wait_for_completion` reads a trace of elapsed times, and the screens' loops read a sequence of answers with no clock, since they have no deadline.
- The HTML text of the screen reports is left out. A report records the refusal, the error, or the task id with the links or the failure message.
- The Gradio UI construction and its `.click`/`.change` wiring are left out, as are `vidu_ui.py` and `start_ui.py`. Only the choices and tables the wiring uses are modelled.
- `config.py` file I/O, printing, `init_config`, `get_config_info`, `get_model_duration_limits` and the import-failure fallback are left out.
- `ViduTask.refresh`, `status`, `cancel`, `download_creation` and `ViduClient.create_task` are thin delegations to the client and are not modelled separately. `ViduTask.wait_for_completion` is `Tasks.Wait`.
- The voice table literal in `utils.py:42-274` is a parameter. The voice properties hold for any table.
- A non-string `error_code` in a response body is left out: the code is read as its wire string.
- A present JSON `null`, or a non-string value, in a reply's `id` or `err_code` or in a creation's `id` is not modelled: a reply field is either a string or absent (a `null` link is falsy, so it already behaves as an absent one). `dict.get` returns a present `None`, so with `"id": null` the client names its files `<prefix>_None.mp4` and the screens show `None` as the failure code. The model instead takes the defaults that apply when a field is absent (`Download.CreationId`, `Download.FilePrefix`, `Tracking.FailureMessage`).
- A present `"task_id": null` in a submission answer is not modelled either: it passes the screens' `'task_id' not in response` check, and Python then polls with the id `None`, while the model reports `NoTaskId`.
- A decoded answer that is not a JSON object is not modelled: every answer is a `Reply`. The screens' `isinstance(..., dict)` tests on the submission and on each query answer (image_to_video_module.py:71 and 83, and the same tests in the other screens) therefore never fire in the model.
- Python's `str()` of enum members depends on the Python version. Models, states and codes are modelled by their wire strings.
- Floats are Dafny `real`. Speeds and audio durations are only compared against bounds.
- Seeds are Dafny `int`, although the screens' number fields can deliver floats.
- Download.DownloadCreation: the keys of the returned dictionary are modelled as the ordered list of files, not as a map, and the local file system is an oracle that says which saves fail. Joining the file name onto `save_dir` and creating the directory are not modelled: the result holds the file names only. The extension rule is a parameter: `ExtensionAsWritten` is the client's, `Extension` the corrected one.
- Text.ParseInt: does not accept Python's underscore digit separators (`"1_0"`) or non-ASCII decimal digits, both of which `int()` accepts; the screens only feed it digit strings they wrote themselves.
- ErrorCodes.GetRetryDelay: requires attempt 1 or more, because for attempt 0 the source computes a fractional delay.
- Tasks.WaitFrom: `time.sleep(check_interval)` is not modelled; the deadline check reads the elapsed time recorded in each step of the trace.

## Findings

| source | as written | input that shows it | evidently intended | confidence | as-written member | corrected member |
|---|---|---|---|---|---|---|
| vidu_client.py:1133-1141 | the extension is the text after the last `.` anywhere in the URL without its query, host and directories included | `http://a.b/c` gives the extension `.b/c`, so the file name gains a directory part | the extension of the last path segment, or the fallback when it has none | medium, not executed | Download.HostDotLeavesDirectory | Download.ExtensionStaysInFileName |
| reference_to_video_module.py:244 | the reference screen fills its duration choices from the image-to-video table (`update_duration_options`) | choosing vidu2.0 offers "8", which `reference_to_video` refuses with an unsupported-duration error | choices from the reference table, where vidu2.0 has only 4 s | medium, not executed | ReferenceScreen.OfferedDurationRefused | ReferenceScreen.ReferenceDurationsAccepted |

=== FILE: config.dfy ===
/** The settings module: the reading of `.env` lines into the API key and domain, and the
    check of the server and task constants. */
module Config {
  import opened Wrappers
  import opened Text

  /** The two settings `.env` can provide; both start out empty. */
  datatype Env = Env(apiKey: string, domain: string)

  const Unset := Env("", "")
  const ApiKeyName := "VIDU_API_KEY"
  const DomainName := "DOMAIN"

  /** A key and its value, as one `.env` line provides them. */
  datatype Entry = Entry(key: string, value: string)

  /** What a stripped line has to be to carry a setting: not empty, not a comment, with an `=`. */
  predicate Effective(t: string) {
    t != [] && t[0] != '#' && '=' in t
  }

  /** One line of `.env`: stripped, ignored unless effective, then split at its first `=` only,
      with key and value stripped again. */
  function ParseLine(line: string): (r: Option<Entry>)
    ensures r.Some? <==> Effective(Strip(line))
    ensures r.Some? ==> '=' !in r.value.key
    ensures r.Some? ==> Strip(r.value.key) == r.value.key && Strip(r.value.value) == r.value.value
  {
    var t := Strip(line);
    if Effective(t) then
      var k := Strip(BeforeFirst(t, '='));
      StripIdempotent(BeforeFirst(t, '='));
      StripIdempotent(AfterFirst(t, '='));
      StripKeepsOut(BeforeFirst(t, '='), '=');
      Some(Entry(k, Strip(AfterFirst(t, '='))))
    else None
  }

  /** A line `key=value` with clean ends reads back as that key and value; the value may itself
      hold `=`. */
  lemma ParseLineRoundTrip(key: string, value: string)
    requires key != [] && key[0] != '#' && '=' !in key
    requires Strip(key) == key && Strip(value) == value
    ensures ParseLine(key + "=" + value) == Some(Entry(key, value))
  {
    var line := key + "=" + value;
    assert line[0] == key[0];
    assert line[|line| - 1] == if value == [] then '=' else value[|value| - 1];
    StripClean(line);
    assert line == key + ['='] + value;
    assert line[|key|] == '=';
    BeforeFirstSplit(key, '=', value);
  }

  /** The text before the first `c` of `p + [c] + q`, when `p` holds no `c`, is `p`. */
  lemma BeforeFirstSplit(p: string, c: char, q: string)
    requires c !in p
    ensures BeforeFirst(p + [c] + q, c) == p
    ensures AfterFirst(p + [c] + q, c) == q
  {
    var s := p + [c] + q;
    var b := BeforeFirst(s, c);
    assert s[|p|] == c;
    assert forall i :: 0 <= i < |p| ==> s[i] == p[i];
    assert b == p;
    var a := AfterFirst(s, c);
    assert s == p + [c] + a;
    assert a == s[|p| + 1..];
  }

  /** The effect of one line: only `VIDU_API_KEY` and `DOMAIN` are read; any other line leaves
      the settings as they were. */
  function ApplyLine(env: Env, line: string): (r: Env)
    ensures ParseLine(line).None? ==> r == env
    ensures ParseLine(line).Some? && ParseLine(line).value.key != ApiKeyName && ParseLine(line).value.key != DomainName ==> r == env
    ensures ParseLine(line).Some? && ParseLine(line).value.key == ApiKeyName ==>
      r == env.(apiKey := ParseLine(line).value.value)
    ensures ParseLine(line).Some? && ParseLine(line).value.key == DomainName ==>
      r == env.(domain := ParseLine(line).value.value)
  {
    ApplyEntry(env, ParseLine(line))
  }

  /** The effect of one parsed line. */
  function ApplyEntry(env: Env, entry: Option<Entry>): Env {
    match entry
    case None => env
    case Some(e) =>
      if e.key == ApiKeyName then env.(apiKey := e.value)
      else if e.key == DomainName then env.(domain := e.value)
      else env
  }

  /** `load_env_file` over the lines of the file, first to last. */
  function LoadEnv(env: Env, lines: seq<string>): Env {
    LoadEntries(env, Parsed(lines))
  }

  /** Parsed lines applied first to last. */
  function LoadEntries(env: Env, entries: seq<Option<Entry>>): Env
    decreases |entries|
  {
    if entries == [] then env else LoadEntries(ApplyEntry(env, entries[0]), entries[1..])
  }

  /** The entries the lines carry, line by line (`None` for a line without effect). */
  function Parsed(lines: seq<string>): (r: seq<Option<Entry>>)
    ensures |r| == |lines|
    ensures forall i :: 0 <= i < |lines| ==> r[i] == ParseLine(lines[i])
  {
    seq(|lines|, i requires 0 <= i < |lines| => ParseLine(lines[i]))
  }

  /** The value the last entry for `key` gives it, if any entry does. */
  function LastSet(entries: seq<Option<Entry>>, key: string): (r: Option<string>)
    ensures r.Some? ==> Some(Entry(key, r.value)) in entries
    ensures r.None? ==> forall v :: Some(Entry(key, v)) !in entries
    decreases |entries|
  {
    if entries == [] then None
    else
      var e := entries[|entries| - 1];
      var init := entries[..|entries| - 1];
      assert entries == init + [e];
      if e.Some? && e.value.key == key then Some(e.value.value)
      else LastSet(init, key)
  }

  /** Loading one more line is applying it to what the earlier lines gave. */
  lemma LoadEnvSnoc(env: Env, lines: seq<string>, line: string)
    ensures LoadEnv(env, lines + [line]) == ApplyLine(LoadEnv(env, lines), line)
  {
    assert Parsed(lines + [line]) == Parsed(lines) + [ParseLine(line)];
    LoadEntriesSnoc(env, Parsed(lines), ParseLine(line));
  }

  /** Applying one more entry is applying it to what the earlier entries gave. */
  lemma {:induction false} LoadEntriesSnoc(env: Env, entries: seq<Option<Entry>>, entry: Option<Entry>)
    ensures LoadEntries(env, entries + [entry]) == ApplyEntry(LoadEntries(env, entries), entry)
    decreases |entries|
  {
    if entries != [] {
      assert (entries + [entry])[1..] == entries[1..] + [entry];
      LoadEntriesSnoc(ApplyEntry(env, entries[0]), entries[1..], entry);
    }
  }

  /** Each setting ends as the value of the last line naming it, or stays as it was when no
      line does. */
  lemma LastLineWins(env: Env, lines: seq<string>)
    ensures LoadEnv(env, lines).apiKey == LastSet(Parsed(lines), ApiKeyName).GetOr(env.apiKey)
    ensures LoadEnv(env, lines).domain == LastSet(Parsed(lines), DomainName).GetOr(env.domain)
  {
    LastEntryWins(env, Parsed(lines));
  }

  /** The same over parsed lines. */
  lemma {:induction false} LastEntryWins(env: Env, entries: seq<Option<Entry>>)
    ensures LoadEntries(env, entries).apiKey == LastSet(entries, ApiKeyName).GetOr(env.apiKey)
    ensures LoadEntries(env, entries).domain == LastSet(entries, DomainName).GetOr(env.domain)
    decreases |entries|
  {
    if entries != [] {
      var init := entries[..|entries| - 1];
      var e := entries[|entries| - 1];
      assert entries == init + [e];
      assert ApiKeyName != DomainName;
      LoadEntriesSnoc(env, init, e);
      LastEntryWins(env, init);
    }
  }

  /** The constants `validate_config` looks at. */
  datatype Settings = Settings(port: int, defaultTimeout: int, maxTimeout: int, maxFileSize: int)

  /** The shipped values: port 7860, a 300 s default and 1800 s maximum wait, 50 MiB uploads. */
  const Shipped := Settings(7860, 300, 1800, 50 * 1024 * 1024)

  /** The problems `validate_config` reports, each with the values it names. */
  datatype ConfigError =
    | PortOutOfRange(port: int)
    | DefaultAboveMax(defaultTimeout: int, maxTimeout: int)
    | NoFileSize

  /** The position of each check in `validate_config`. */
  function Rank(e: ConfigError): nat {
    match e
    case PortOutOfRange(_) => 0
    case DefaultAboveMax(_, _) => 1
    case NoFileSize => 2
  }

  /** `validate_config`: the port must lie in [1024, 65535], the default wait must not exceed the
      maximum, the file size limit must be positive; the problems come in that order. */
  function ValidateConfig(s: Settings): (r: seq<ConfigError>)
    ensures PortOutOfRange(s.port) in r <==> !(1024 <= s.port <= 65535)
    ensures DefaultAboveMax(s.defaultTimeout, s.maxTimeout) in r <==> s.defaultTimeout > s.maxTimeout
    ensures NoFileSize in r <==> s.maxFileSize <= 0
    ensures forall i :: 0 <= i < |r| ==> r[i] in {PortOutOfRange(s.port), DefaultAboveMax(s.defaultTimeout, s.maxTimeout), NoFileSize}
    ensures forall i, j :: 0 <= i < j < |r| ==> Rank(r[i]) < Rank(r[j])
  {
    (if 1024 <= s.port <= 65535 then [] else [PortOutOfRange(s.port)]) +
    (if s.defaultTimeout > s.maxTimeout then [DefaultAboveMax(s.defaultTimeout, s.maxTimeout)] else []) +
    (if s.maxFileSize <= 0 then [NoFileSize] else [])
  }

  /** The shipped constants pass the check. */
  lemma ShippedIsValid()
    ensures ValidateConfig(Shipped) == []
  {
  }
}

=== FILE: dispatch.dfy ===
/** How a client call ends: the errors it can raise and the single point where a request
    meets the network. The network itself is an oracle: for each request the caller supplies
    the decoded reply, or `None` when the transport, the HTTP status or the JSON decoding
    failed. */
module Dispatch {
  import opened Wrappers
  import opened Protocol
  import opened ErrorCodes

  /** The reasons a client method refuses its arguments with `ValueError` before anything is
      sent. Event reasons carry the 1-based position of the offending timing event. */
  datatype Invalid =
    | UnknownModel(model: string)
    | UnsupportedDuration(duration: int)
    | ImageCount
    | BlankPrompt
    | PromptTooLong
    | PayloadTooLong
    | BadStyle
    | NoVideoSource
    | BadUpscaleResolution
    | NoVideoUrl
    | NoDriveInput
    | TextLength
    | SpeedRange
    | VolumeRange
    | DurationRange
    | NoEvents
    | EventNotObject(index: nat)
    | EventMissing(index: nat, field: string)
    | EventOutOfRange(index: nat)
    | EventNotOrdered(index: nat)
    | EventPromptTooLong(index: nat)
    | NoCreations
    | NoVideo
    | NoAudio
    | NoCover
    | NotAnInteger(text: string)

  /** The reason names the timing event at 1-based position `index`. */
  predicate AboutEvent(why: Invalid, index: nat) {
    (why.EventNotObject? || why.EventMissing? || why.EventOutOfRange? || why.EventNotOrdered? ||
     why.EventPromptTooLong?) && why.index == index
  }

  /** Everything a client call can raise. `KeyError` is the failed table lookup of the
      text-to-video validator, `TypeError` a comparison or `len` on a JSON value of the wrong
      kind, `IoError` a local file that cannot be read, `TransportError` any failure below the
      envelope check and `TimeoutError` the deadline of `wait_for_completion`. */
  datatype ClientError =
    | ValueError(why: Invalid)
    | KeyError(key: string)
    | TypeError
    | IoError
    | ApiError(error: ViduError)
    | TransportError
    | TimeoutError(taskId: string)

  /** `_make_request` after the response arrived: a missing answer is a transport failure, and
      a decoded body goes through the envelope check, which either raises or hands the body on. */
  function MakeRequest(answer: Option<Reply>): (r: Result<Reply, ClientError>)
    ensures answer.None? ==> r == Err(TransportError)
    ensures r.Ok? <==> answer.Some? && HandleApiResponse(answer.value).None?
    ensures r.Ok? ==> r.value == answer.value
    ensures answer.Some? && r.Err? ==> r.error.ApiError? && Some(r.error.error) == HandleApiResponse(answer.value)
  {
    match answer
    case None => Err(TransportError)
    case Some(body) =>
      match HandleApiResponse(body)
      case Some(e) => Err(ApiError(e))
      case None => Ok(body)
  }

  /** A body that gets through `_make_request` carries no error code, or the success code. */
  lemma AcceptedBodyIsClean(answer: Option<Reply>)
    requires MakeRequest(answer).Ok?
    ensures MakeRequest(answer).value.errorCode in {None, Some("0")}
  {
    var body := answer.value;
    assert HandleApiResponse(body).None?;
    if body.errorCode.Some? {
      assert body.errorCode == Some("0");
    }
  }

  /** An API error raised by `_make_request` names exactly the code the body carried, with the
      table message for it. */
  lemma RaisedErrorNamesBodyCode(body: Reply)
    requires MakeRequest(Some(body)).Err?
    ensures body.errorCode.Some? && body.errorCode.value != "0"
    ensures MakeRequest(Some(body)).error == ApiError(CreateError(body.errorCode.value, Some(body.details.GetOr(Obj(map[])))))
    ensures MakeRequest(Some(body)).error.error.message == GetErrorMessage(body.errorCode.value)
  {
  }

  /** One client call as seen from outside: the request that went out, if any, and what the
      call returned or raised. */
  datatype Exchange = Exchange(sent: Option<Request>, result: Result<Reply, ClientError>)

  /** A submission method: its local checks produce either the request or the error they
      raise; only a request that passed them reaches the network. */
  function Call(prepared: Result<Request, ClientError>, answer: Option<Reply>): (x: Exchange)
    ensures prepared.Err? ==> x.sent.None? && x.result == Err(prepared.error)
    ensures prepared.Ok? ==> x.sent == Some(prepared.value) && x.result == MakeRequest(answer)
  {
    match prepared
    case Err(e) => Exchange(None, Err(e))
    case Ok(req) => Exchange(Some(req), MakeRequest(answer))
  }

  /** Whatever the network would have answered, a refused submission sends nothing and
      raises the same error. */
  lemma RefusalIgnoresNetwork(prepared: Result<Request, ClientError>, a: Option<Reply>, b: Option<Reply>)
    requires prepared.Err?
    ensures Call(prepared, a) == Call(prepared, b)
    ensures Call(prepared, a).sent.None?
  {
  }
}

=== FILE: download.dfy ===
/** Fetching the outputs of a finished task: the file names and result keys
    `download_creation` derives from the creations, and the single-file downloads. Saving a
    file is an oracle that says, per file, whether it failed and how. */
module Download {
  import opened Wrappers
  import opened Text
  import opened Protocol
  import opened Dispatch
  import opened Tasks

  /** The extension `download_creation` takes from a URL, as written: cut the query string,
      then take everything after the last `.` anywhere in what is left, even when that dot
      is in the host name or a directory. */
  function ExtensionAsWritten(url: string, fallback: string): (r: string)
    ensures '.' !in BeforeFirst(url, '?') ==> r == fallback
    ensures '.' in BeforeFirst(url, '?') ==> (r != [] && r[0] == '.' && '.' !in r[1..] && '?' !in r &&
      r[1..] == AfterLast(BeforeFirst(url, '?'), '.'))
  {
    var path := BeforeFirst(url, '?');
    if '.' in path then "." + AfterLast(path, '.') else fallback
  }

  /** Without a query string, the written rule takes whatever follows the last dot. */
  lemma ExtensionAsWrittenAfterDot(p: string, q: string, fallback: string)
    requires '?' !in p && '?' !in q && '.' !in q
    ensures ExtensionAsWritten(p + ['.'] + q, fallback) == "." + q
  {
    BeforeFirstAbsent(p + ['.'] + q, '?');
    AfterLastSplit(p, '.', q);
  }

  /** The URL whose only dot is in the host name gets part of the host and the whole path as
      its "extension", slash included. */
  lemma ExtensionAsWrittenTakesHost()
    ensures ExtensionAsWritten("http://a.b/c", ".mp4") == ".b/c"
  {
    var url := "http://a" + ['.'] + "b/c";
    assert url == "http://a.b/c";
    ExtensionAsWrittenAfterDot("http://a", "b/c", ".mp4");
    assert "." + "b/c" == ".b/c";
  }

  /** The extension as intended: the text after the last `.` of the last path segment, and the
      fallback when that segment has no dot. */
  function Extension(url: string, fallback: string): (r: string)
    ensures '.' !in AfterLast(BeforeFirst(url, '?'), '/') ==> r == fallback
    ensures '.' in AfterLast(BeforeFirst(url, '?'), '/') ==> (r != [] && r[0] == '.' && '.' !in r[1..] &&
      '/' !in r && '?' !in r)
  {
    var segment := AfterLast(BeforeFirst(url, '?'), '/');
    if '.' in segment then "." + AfterLast(segment, '.') else fallback
  }

  /** Wherever the file name itself carries an extension, the intended rule and the written
      one agree; they differ only when the last segment has no dot. */
  lemma ExtensionMatchesWhenNamed(url: string, fallback: string)
    requires '.' in AfterLast(BeforeFirst(url, '?'), '/')
    ensures Extension(url, fallback) == ExtensionAsWritten(url, fallback)
  {
    var path := BeforeFirst(url, '?');
    DotInLastSegment(path);
  }

  /** A dot in the last path segment is a dot of the path, and the last one of both. */
  lemma DotInLastSegment(path: string)
    requires '.' in AfterLast(path, '/')
    ensures '.' in path
    ensures AfterLast(AfterLast(path, '/'), '.') == AfterLast(path, '.')
  {
    var seg := AfterLast(path, '/');
    AfterLastNested(path, '/', '.');
    var k :| 0 <= k < |seg| && seg[k] == '.';
    assert path[|path| - |seg| + k] == seg[k];
  }

  /** With a slash-free fallback, the intended extension never reaches into a directory, so
      the name it ends stays a plain file name. */
  lemma ExtensionStaysInFileName(url: string, fallback: string)
    requires '/' !in fallback
    ensures '/' !in Extension(url, fallback)
  {
  }

  /** The intended rule gives the URL with a dot only in its host name the fallback. */
  lemma ExtensionFallsBackForHostDot()
    ensures Extension("http://a.b/c", ".mp4") == ".mp4"
  {
    var url := "http://a.b" + ['/'] + "c";
    assert url == "http://a.b/c";
    BeforeFirstAbsent(url, '?');
    AfterLastSplit("http://a.b", '/', "c");
  }

  /** A rule that takes a file extension from a URL and a fallback: `ExtensionAsWritten`,
      the one `download_creation` applies, or the intended `Extension`. */
  type ExtensionRule = (string, string) -> string

  /** One file `download_creation` fetches: its key in the result, its URL and its file name. */
  datatype Item = Item(key: string, url: string, name: string)

  /** The id a creation is filed under: its own, or `creation_<i>`. */
  function CreationId(c: Creation, i: nat): string {
    c.id.GetOr("creation_" + NatToString(i))
  }

  /** The main file of creation `i`: key `main_<i>`, name `<prefix>_<id><ext>`. */
  function MainItem(rule: ExtensionRule, c: Creation, i: nat, prefix: string): Item
    requires Given(c.url)
  {
    Item(KeyOf(true, i), c.url.value, prefix + "_" + CreationId(c, i) + rule(c.url.value, ".mp4"))
  }

  /** The cover of creation `i`: key `cover_<i>`, name `<prefix>_<id>_cover<ext>`. */
  function CoverItem(rule: ExtensionRule, c: Creation, i: nat, prefix: string): Item
    requires Given(c.coverUrl)
  {
    Item(KeyOf(false, i), c.coverUrl.value,
         prefix + "_" + CreationId(c, i) + "_cover" + rule(c.coverUrl.value, ".jpg"))
  }

  /** The key of creation `i`'s main file or cover. */
  function KeyOf(main: bool, i: nat): string {
    (if main then "main_" else "cover_") + NatToString(i)
  }

  /** The files of creation `i`: the main file when it has a non-empty `url`, then the cover
      when it has a non-empty `cover_url`. */
  function ItemsOf(rule: ExtensionRule, c: Creation, i: nat, prefix: string): (r: seq<Item>)
    ensures |r| == (if Given(c.url) then 1 else 0) + (if Given(c.coverUrl) then 1 else 0)
    ensures Given(c.url) ==> r[0] == MainItem(rule, c, i, prefix)
    ensures Given(c.coverUrl) ==> r[|r| - 1] == CoverItem(rule, c, i, prefix)
    ensures |r| > 0 ==> r[0].key == KeyOf(Given(c.url), i)
    ensures |r| > 1 ==> r[1].key == KeyOf(false, i)
  {
    (if Given(c.url) then [MainItem(rule, c, i, prefix)] else []) +
    (if Given(c.coverUrl) then [CoverItem(rule, c, i, prefix)] else [])
  }

  /** The files of the first `n` creations, in order. */
  function ItemsUpTo(rule: ExtensionRule, cs: seq<Creation>, n: nat, prefix: string): seq<Item>
    requires n <= |cs|
  {
    if n == 0 then [] else ItemsUpTo(rule, cs, n - 1, prefix) + ItemsOf(rule, cs[n - 1], n - 1, prefix)
  }

  /** The prefix of every file name: the one given, else the task id, else `creation`. */
  function FilePrefix(info: Reply, prefix: Option<string>): string {
    if prefix.Some? then prefix.value else info.id.GetOr("creation")
  }

  /** Every file of `items` was saved. */
  predicate AllSaved(items: seq<Item>, failures: map<Item, ClientError>) {
    forall k :: 0 <= k < |items| ==> items[k] !in failures
  }

  /** The position of the first file whose save fails, if any. */
  function FirstFailed(items: seq<Item>, failures: map<Item, ClientError>): (r: Option<nat>)
    ensures r.None? <==> AllSaved(items, failures)
    ensures r.Some? ==> r.value < |items| && items[r.value] in failures && AllSaved(items[..r.value], failures)
  {
    if items == [] then None
    else if items[0] in failures then Some(0)
    else match FirstFailed(items[1..], failures)
      case None =>
        assert forall k :: 1 <= k < |items| ==> items[k] == items[1..][k - 1];
        None
      case Some(k) =>
        assert items[..k + 1] == [items[0]] + items[1..][..k];
        Some(k + 1)
  }

  /** `download_creation` with the saves that fail given by `failures`: no creations (the
      task did not succeed, or listed none) is refused; otherwise the files are fetched in
      order, creation by creation, and the first failing save ends the call with its error.
      With the rule `ExtensionAsWritten` the files are named as the client names them; with
      `Extension`, by the corrected rule. */
  function DownloadCreation(rule: ExtensionRule, info: Reply, prefix: Option<string>, failures: map<Item, ClientError>): (r: Result<seq<Item>, ClientError>)
    ensures GetCreations(info) == [] ==> r == Err(ValueError(NoCreations))
    ensures r.Ok? ==> (GetCreations(info) != [] &&
      r.value == ItemsUpTo(rule, GetCreations(info), |GetCreations(info)|, FilePrefix(info, prefix)) &&
      AllSaved(r.value, failures))
    ensures r.Err? && GetCreations(info) != [] ==> (exists k ::
      0 <= k < |ItemsUpTo(rule, GetCreations(info), |GetCreations(info)|, FilePrefix(info, prefix))| &&
      ItemsUpTo(rule, GetCreations(info), |GetCreations(info)|, FilePrefix(info, prefix))[k] in failures &&
      failures[ItemsUpTo(rule, GetCreations(info), |GetCreations(info)|, FilePrefix(info, prefix))[k]] == r.error &&
      AllSaved(ItemsUpTo(rule, GetCreations(info), |GetCreations(info)|, FilePrefix(info, prefix))[..k], failures))
  {
    var cs := GetCreations(info);
    if cs == [] then Err(ValueError(NoCreations))
    else
      var plan := ItemsUpTo(rule, cs, |cs|, FilePrefix(info, prefix));
      match FirstFailed(plan, failures)
      case None => Ok(plan)
      case Some(k) => Err(failures[plan[k]])
  }

  /** The files of the first creations lead the files of all of them. */
  lemma {:induction false} ItemsUpToGrows(rule: ExtensionRule, cs: seq<Creation>, m: nat, n: nat, prefix: string)
    requires m <= n <= |cs|
    ensures ItemsUpTo(rule, cs, m, prefix) <= ItemsUpTo(rule, cs, n, prefix)
    decreases n - m
  {
    if m < n {
      ItemsUpToGrows(rule, cs, m + 1, n, prefix);
      PrefixChain(ItemsUpTo(rule, cs, m, prefix), ItemsOf(rule, cs[m], m, prefix),
                  ItemsUpTo(rule, cs, m + 1, prefix), ItemsUpTo(rule, cs, n, prefix));
    }
  }

  /** What `a` followed by anything leads, `a` leads too. */
  lemma PrefixChain<T>(a: seq<T>, c: seq<T>, b: seq<T>, d: seq<T>)
    requires b == a + c && b <= d
    ensures a <= d
  {
    assert d[..|a|] == b[..|a|];
  }

  /** Creation `i`'s main file and cover are among the files of the first `n > i` creations. */
  lemma {:induction false} CreationFilesListed(rule: ExtensionRule, cs: seq<Creation>, n: nat, prefix: string, i: nat)
    requires i < n <= |cs|
    ensures Given(cs[i].url) ==> MainItem(rule, cs[i], i, prefix) in ItemsUpTo(rule, cs, n, prefix)
    ensures Given(cs[i].coverUrl) ==> CoverItem(rule, cs[i], i, prefix) in ItemsUpTo(rule, cs, n, prefix)
  {
    ItemsOfHolds(rule, cs[i], i, prefix);
    CreationItemsListed(rule, cs, n, prefix, i);
  }

  /** All of creation `i`'s files are among the files of the first `n > i` creations. */
  lemma {:induction false} CreationItemsListed(rule: ExtensionRule, cs: seq<Creation>, n: nat, prefix: string, i: nat)
    requires i < n <= |cs|
    ensures forall x :: x in ItemsOf(rule, cs[i], i, prefix) ==> x in ItemsUpTo(rule, cs, n, prefix)
  {
    if i < n - 1 {
      CreationItemsListed(rule, cs, n - 1, prefix, i);
    }
    assert ItemsUpTo(rule, cs, n, prefix) == ItemsUpTo(rule, cs, n - 1, prefix) + ItemsOf(rule, cs[n - 1], n - 1, prefix);
  }

  /** A creation's main file and cover are among its own files. */
  lemma ItemsOfHolds(rule: ExtensionRule, c: Creation, i: nat, prefix: string)
    ensures Given(c.url) ==> MainItem(rule, c, i, prefix) in ItemsOf(rule, c, i, prefix)
    ensures Given(c.coverUrl) ==> CoverItem(rule, c, i, prefix) in ItemsOf(rule, c, i, prefix)
  {
  }

  /** A creation with an id and a URL but no cover yields one file, `main_0`, named by the
      id and the extension the rule takes from the URL. */
  lemma MainOnlyItems(rule: ExtensionRule, id: string, url: string, prefix: string)
    requires url != []
    ensures ItemsOf(rule, Creation(Some(id), Some(url), None), 0, prefix) ==
      [Item("main_0", url, prefix + "_" + id + rule(url, ".mp4"))]
  {
    assert NatToString(0) == "0";
    assert "main_" + "0" == "main_0";
  }

  /** A creation whose URL has a dot only in its host name: as written, its main file is named
      `t_x.b/c`, a file `c` in a new directory `t_x.b`; the intended rule names it `t_x.mp4`. */
  lemma HostDotItems()
    ensures var c := Creation(Some("x"), Some("http://a.b/c"), None);
      && ItemsOf(ExtensionAsWritten, c, 0, "t") == [Item("main_0", "http://a.b/c", "t" + "_" + "x" + ".b/c")]
      && ItemsOf(Extension, c, 0, "t") == [Item("main_0", "http://a.b/c", "t" + "_" + "x" + ".mp4")]
  {
    ExtensionAsWrittenTakesHost();
    ExtensionFallsBackForHostDot();
    MainOnlyItems(ExtensionAsWritten, "x", "http://a.b/c", "t");
    MainOnlyItems(Extension, "x", "http://a.b/c", "t");
  }

  /** `download_creation` of a successful task `t` whose one creation `x` has the URL
      `http://a.b/c` and no cover: as written it saves `t_x.b/c`, whose name holds a slash, where
      the intended rule saves `t_x.mp4`. */
  lemma HostDotLeavesDirectory()
    ensures var info := Reply(None, None, None, Some("t"), Some("success"), None,
                              Some([Creation(Some("x"), Some("http://a.b/c"), None)]));
      && DownloadCreation(ExtensionAsWritten, info, None, map[]) == Ok([Item("main_0", "http://a.b/c", "t" + "_" + "x" + ".b/c")])
      && DownloadCreation(Extension, info, None, map[]) == Ok([Item("main_0", "http://a.b/c", "t" + "_" + "x" + ".mp4")])
  {
    var c := Creation(Some("x"), Some("http://a.b/c"), None);
    var info := Reply(None, None, None, Some("t"), Some("success"), None, Some([c]));
    HostDotItems();
    OneCreationSaved(ExtensionAsWritten, info, c);
    OneCreationSaved(Extension, info, c);
  }

  /** A successful task with a single creation and no failing save gets that creation's files,
      named after the task id. */
  lemma OneCreationSaved(rule: ExtensionRule, info: Reply, c: Creation)
    requires IsSuccess(info.state) && info.creations == Some([c])
    ensures DownloadCreation(rule, info, None, map[]) == Ok(ItemsOf(rule, c, 0, info.id.GetOr("creation")))
  {
    assert ItemsUpTo(rule, [c], 1, FilePrefix(info, None)) == ItemsOf(rule, c, 0, FilePrefix(info, None));
  }

  /** `download_video`, `download_audio` and `download_cover`: the link of the first creation,
      refused when it is missing or empty, otherwise fetched to `savePath`. */
  function DownloadOne(link: Option<string>, missing: Invalid, savePath: string, failure: Option<ClientError>): (r: Result<string, ClientError>)
    ensures !Given(link) ==> r == Err(ValueError(missing))
    ensures r.Ok? <==> Given(link) && failure.None?
    ensures r.Ok? ==> r.value == savePath
    ensures Given(link) && failure.Some? ==> r == Err(failure.value)
  {
    if !Given(link) then Err(ValueError(missing))
    else if failure.Some? then Err(failure.value)
    else Ok(savePath)
  }

  function DownloadVideo(info: Reply, savePath: string, failure: Option<ClientError>): Result<string, ClientError> {
    DownloadOne(VideoUrl(info), NoVideo, savePath, failure)
  }

  function DownloadAudio(info: Reply, savePath: string, failure: Option<ClientError>): Result<string, ClientError> {
    DownloadOne(AudioUrl(info), NoAudio, savePath, failure)
  }

  function DownloadCover(info: Reply, savePath: string, failure: Option<ClientError>): Result<string, ClientError> {
    DownloadOne(CoverUrl(info), NoCover, savePath, failure)
  }

  /** `ViduTask.download_video` (and its audio and cover siblings) refuse a task that did not
      succeed before asking the client. */
  function TaskDownload(info: Reply, missing: Invalid, client: Result<string, ClientError>): Result<string, ClientError> {
    if !IsSuccess(info.state) then Err(ValueError(missing)) else client
  }

  /** The task wrapper's own success check changes nothing: the client refuses the same tasks
      with the same error. Only a successful task with a non-empty first link is fetched. */
  lemma TaskDownloadMatchesClient(info: Reply, savePath: string, failure: Option<ClientError>)
    ensures TaskDownload(info, NoVideo, DownloadVideo(info, savePath, failure)) == DownloadVideo(info, savePath, failure)
    ensures TaskDownload(info, NoAudio, DownloadAudio(info, savePath, failure)) == DownloadAudio(info, savePath, failure)
    ensures TaskDownload(info, NoCover, DownloadCover(info, savePath, failure)) == DownloadCover(info, savePath, failure)
    ensures DownloadVideo(info, savePath, failure).Ok? ==> IsSuccess(info.state) && Given(VideoUrl(info))
  {
  }
}

=== FILE: durations.dfy ===
/** The generation models and the per-operation duration whitelists of the client, with the
    four `_validate_duration*` methods that pick or check a clip length. */
module Durations {
  import opened Wrappers
  import opened Dispatch

  /** `ViduModel`: the models the service accepts, each with its wire name. */
  datatype Model = ViduQ1 | ViduQ1Classic | Vidu20 | Vidu15
  {
    function Wire(): string {
      match this
      case ViduQ1 => "viduq1"
      case ViduQ1Classic => "viduq1-classic"
      case Vidu20 => "vidu2.0"
      case Vidu15 => "vidu1.5"
    }
  }

  /** `ViduModel(s)`: the model with wire name `s`; `None` where the enum raises `ValueError`. */
  function ParseModel(s: string): (r: Option<Model>)
    ensures r.Some? ==> r.value.Wire() == s
  {
    if s == "viduq1" then Some(ViduQ1)
    else if s == "viduq1-classic" then Some(ViduQ1Classic)
    else if s == "vidu2.0" then Some(Vidu20)
    else if s == "vidu1.5" then Some(Vidu15)
    else None
  }

  /** Every model is read back from its wire name. */
  lemma ParseModelRoundTrip(m: Model)
    ensures ParseModel(m.Wire()) == Some(m)
  {
  }

  /** The four video operations that carry a duration, each with its own table. */
  datatype VideoOp = ImageToVideo | ReferenceToVideo | StartEndToVideo | TextToVideo

  /** `MODEL_DURATION_LIMITS` and its three siblings: the durations an operation accepts for a
      model. `None` where the table has no entry for the model (text-to-video lists only viduq1
      and vidu1.5). */
  function Limits(op: VideoOp, m: Model): Option<seq<int>> {
    match op
    case ImageToVideo =>
      (match m case ViduQ1 => Some([5]) case ViduQ1Classic => Some([5])
               case Vidu20 => Some([4, 8]) case Vidu15 => Some([4, 8]))
    case ReferenceToVideo =>
      (match m case ViduQ1 => Some([5]) case ViduQ1Classic => Some([5])
               case Vidu20 => Some([4]) case Vidu15 => Some([4, 8]))
    case StartEndToVideo =>
      (match m case ViduQ1 => Some([5]) case ViduQ1Classic => Some([5])
               case Vidu20 => Some([4, 8]) case Vidu15 => Some([4, 8]))
    case TextToVideo =>
      (match m case ViduQ1 => Some([5]) case Vidu15 => Some([4, 8]) case _ => None)
  }

  /** `MODEL_DEFAULT_DURATIONS`, shared by all four operations. */
  function DefaultDuration(m: Model): int {
    match m
    case ViduQ1 => 5
    case ViduQ1Classic => 5
    case Vidu20 => 4
    case Vidu15 => 4
  }

  /** `_validate_duration*`: the model name is read first (an unknown name raises even when no
      duration is given); no duration means the model's default; a given duration must be in
      the operation's table, and a model missing from that table fails the lookup. */
  function ValidateDuration(op: VideoOp, model: string, duration: Option<int>): (r: Result<int, ClientError>)
    ensures ParseModel(model).None? ==> r == Err(ValueError(UnknownModel(model)))
    ensures ParseModel(model).Some? && duration.None? ==> r == Ok(DefaultDuration(ParseModel(model).value))
    ensures ParseModel(model).Some? && duration.Some? && Limits(op, ParseModel(model).value).None? ==>
      r == Err(KeyError(model))
    ensures ParseModel(model).Some? && duration.Some? && Limits(op, ParseModel(model).value).Some? ==>
      (r.Ok? <==> duration.value in Limits(op, ParseModel(model).value).value)
    ensures r.Ok? && duration.Some? ==> r.value == duration.value
    ensures r.Err? && duration.Some? && ParseModel(model).Some? && Limits(op, ParseModel(model).value).Some? ==>
      r.error == ValueError(UnsupportedDuration(duration.value))
  {
    match ParseModel(model)
    case None => Err(ValueError(UnknownModel(model)))
    case Some(m) =>
      if duration.None? then Ok(DefaultDuration(m))
      else match Limits(op, m)
        case None => Err(KeyError(model))
        case Some(allowed) =>
          if duration.value in allowed then Ok(duration.value)
          else Err(ValueError(UnsupportedDuration(duration.value)))
  }

  /** Wherever a model has a table entry, its default duration is one the table accepts. */
  lemma DefaultIsWhitelisted(op: VideoOp, m: Model)
    requires Limits(op, m).Some?
    ensures DefaultDuration(m) in Limits(op, m).value
  {
  }

  /** Each table lists a model's default duration first, so a choice list built from the table
      preselects the default. */
  lemma DefaultListedFirst(op: VideoOp, m: Model)
    requires Limits(op, m).Some?
    ensures Limits(op, m).value != [] && Limits(op, m).value[0] == DefaultDuration(m)
  {
  }

  /** A duration the operation's table lists for a known model is accepted as it is. */
  lemma ListedDurationAccepted(op: VideoOp, model: string, d: int)
    requires ParseModel(model).Some? && Limits(op, ParseModel(model).value).Some?
    requires d in Limits(op, ParseModel(model).value).value
    ensures ValidateDuration(op, model, Some(d)) == Ok(d)
  {
  }

  /** Validation is idempotent where the model has a table entry: feeding a validated duration
      back in returns it unchanged. */
  lemma ValidateIdempotent(op: VideoOp, model: string, duration: Option<int>)
    requires ValidateDuration(op, model, duration).Ok?
    requires Limits(op, ParseModel(model).value).Some?
    ensures ValidateDuration(op, model, Some(ValidateDuration(op, model, duration).value)) ==
      ValidateDuration(op, model, duration)
  {
    DefaultIsWhitelisted(op, ParseModel(model).value);
  }

  /** The text-to-video table omits vidu2.0 and viduq1-classic: for those models the default is
      returned when no duration is given, but stating any duration, the default included,
      fails the table lookup with `KeyError`. */
  lemma TextToVideoLookupGap(m: Model, d: int)
    requires m == Vidu20 || m == ViduQ1Classic
    ensures ValidateDuration(TextToVideo, m.Wire(), None) == Ok(DefaultDuration(m))
    ensures ValidateDuration(TextToVideo, m.Wire(), Some(d)) == Err(KeyError(m.Wire()))
  {
    ParseModelRoundTrip(m);
  }

  /** For the two models the text-to-video table lists, it agrees with the image table. */
  lemma TextMatchesImageWhereListed(model: string, duration: Option<int>)
    requires model == "viduq1" || model == "vidu1.5"
    ensures ValidateDuration(TextToVideo, model, duration) == ValidateDuration(ImageToVideo, model, duration)
  {
  }

  /** Every duration any validator returns is 4, 5 or 8 seconds. */
  lemma AcceptedDurations(op: VideoOp, model: string, duration: Option<int>)
    requires ValidateDuration(op, model, duration).Ok?
    ensures ValidateDuration(op, model, duration).value in {4, 5, 8}
  {
  }

  /** The reference table is the image table with vidu2.0's 8-second clip removed: anything
      reference-to-video accepts, image-to-video accepts too, and vidu2.0 at 8 s is the one
      duration image-to-video accepts and reference-to-video refuses. */
  lemma ReferenceNarrowsImage(model: string, d: int)
    ensures ValidateDuration(ReferenceToVideo, model, Some(d)).Ok? ==>
      ValidateDuration(ImageToVideo, model, Some(d)).Ok?
    ensures ValidateDuration(ImageToVideo, model, Some(d)).Ok? && !ValidateDuration(ReferenceToVideo, model, Some(d)).Ok? <==>
      model == "vidu2.0" && d == 8
  {
  }

  /** Start-end-to-video accepts exactly what image-to-video accepts. */
  lemma StartEndMatchesImage(model: string, duration: Option<int>)
    ensures ValidateDuration(StartEndToVideo, model, duration) == ValidateDuration(ImageToVideo, model, duration)
  {
  }
}

=== FILE: error_codes.dfy ===
/** The error taxonomy: the closed set of wire-level error codes and the static tables that
    give each its message, HTTP status, retry policy and suggested remedy. */
module ErrorCodes {
  import opened Wrappers
  import opened Text
  import opened Protocol

  /** Every code the service documents, by category. */
  datatype ErrorCode =
    | Success
      // parameter errors (400)
    | InvalidParameter | MissingRequiredParameter | InvalidModel | InvalidImageFormat
    | InvalidImageSize | InvalidImageRatio | InvalidPromptLength | InvalidDuration
    | InvalidResolution | InvalidAspectRatio | InvalidMovementAmplitude | InvalidSeed
    | InvalidPayloadLength | InvalidCallbackUrl | InvalidVideoUrl | InvalidAudioUrl
    | InvalidVoiceId | InvalidTimingParameters
      // authentication errors (401)
    | Unauthorized | InvalidApiKey | ApiKeyExpired | InvalidToken
      // permission errors (403)
    | Forbidden | InsufficientPermissions | AccountSuspended | RateLimitExceeded | QuotaExceeded
      // missing resources (404)
    | NotFound | TaskNotFound | ModelNotFound | VoiceNotFound
      // request rate (429)
    | TooManyRequests | RateLimitHit
      // server errors (500)
    | InternalServerError | ServiceUnavailable | ProcessingError | ModelError | StorageError
      // task state conflicts (409)
    | TaskAlreadyCompleted | TaskAlreadyCancelled | TaskInProgress
      // file errors
    | FileTooLarge | UnsupportedFileFormat | FileCorrupted
  {
    /** The code as it appears on the wire. */
    function Wire(): string {
      match this
      case Success => "0"
      case InvalidParameter => "400"
      case MissingRequiredParameter => "400001"
      case InvalidModel => "400002"
      case InvalidImageFormat => "400003"
      case InvalidImageSize => "400004"
      case InvalidImageRatio => "400005"
      case InvalidPromptLength => "400006"
      case InvalidDuration => "400007"
      case InvalidResolution => "400008"
      case InvalidAspectRatio => "400009"
      case InvalidMovementAmplitude => "400010"
      case InvalidSeed => "400011"
      case InvalidPayloadLength => "400012"
      case InvalidCallbackUrl => "400013"
      case InvalidVideoUrl => "400014"
      case InvalidAudioUrl => "400015"
      case InvalidVoiceId => "400016"
      case InvalidTimingParameters => "400017"
      case Unauthorized => "401"
      case InvalidApiKey => "401001"
      case ApiKeyExpired => "401002"
      case InvalidToken => "401003"
      case Forbidden => "403"
      case InsufficientPermissions => "403001"
      case AccountSuspended => "403002"
      case RateLimitExceeded => "403003"
      case QuotaExceeded => "403004"
      case NotFound => "404"
      case TaskNotFound => "404001"
      case ModelNotFound => "404002"
      case VoiceNotFound => "404003"
      case TooManyRequests => "429"
      case RateLimitHit => "429001"
      case InternalServerError => "500"
      case ServiceUnavailable => "500001"
      case ProcessingError => "500002"
      case ModelError => "500003"
      case StorageError => "500004"
      case TaskAlreadyCompleted => "409001"
      case TaskAlreadyCancelled => "409002"
      case TaskInProgress => "409003"
      case FileTooLarge => "413001"
      case UnsupportedFileFormat => "415001"
      case FileCorrupted => "422001"
    }

    /** The message table entry (every code has one, success included). */
    function Message(): string {
      match this
      case Success => "操作成功"
      case InvalidParameter => "请求参数错误"
      case MissingRequiredParameter => "缺少必需参数"
      case InvalidModel => "无效的模型名称"
      case InvalidImageFormat => "无效的图片格式"
      case InvalidImageSize => "图片大小超出限制"
      case InvalidImageRatio => "图片比例不符合要求"
      case InvalidPromptLength => "提示词长度超出限制"
      case InvalidDuration => "无效的视频时长"
      case InvalidResolution => "无效的分辨率"
      case InvalidAspectRatio => "无效的宽高比"
      case InvalidMovementAmplitude => "无效的运动幅度"
      case InvalidSeed => "无效的随机种子"
      case InvalidPayloadLength => "透传参数长度超出限制"
      case InvalidCallbackUrl => "无效的回调URL"
      case InvalidVideoUrl => "无效的视频URL"
      case InvalidAudioUrl => "无效的音频URL"
      case InvalidVoiceId => "无效的声音ID"
      case InvalidTimingParameters => "无效的时间控制参数"
      case Unauthorized => "认证失败"
      case InvalidApiKey => "无效的API密钥"
      case ApiKeyExpired => "API密钥已过期"
      case InvalidToken => "无效的访问令牌"
      case Forbidden => "权限不足"
      case InsufficientPermissions => "权限不足"
      case AccountSuspended => "账户已被暂停"
      case RateLimitExceeded => "请求频率超出限制"
      case QuotaExceeded => "配额已用完"
      case NotFound => "资源不存在"
      case TaskNotFound => "任务不存在"
      case ModelNotFound => "模型不存在"
      case VoiceNotFound => "声音不存在"
      case TooManyRequests => "请求过于频繁"
      case RateLimitHit => "达到请求频率限制"
      case InternalServerError => "服务器内部错误"
      case ServiceUnavailable => "服务不可用"
      case ProcessingError => "处理过程中发生错误"
      case ModelError => "模型处理错误"
      case StorageError => "存储错误"
      case TaskAlreadyCompleted => "任务已完成"
      case TaskAlreadyCancelled => "任务已取消"
      case TaskInProgress => "任务正在进行中"
      case FileTooLarge => "文件过大"
      case UnsupportedFileFormat => "不支持的文件格式"
      case FileCorrupted => "文件损坏"
    }

    /** The HTTP status table entry; the success code has none. */
    function HttpStatus(): Option<int> {
      match this
      case Success => None
      case InvalidParameter | MissingRequiredParameter | InvalidModel | InvalidImageFormat
        | InvalidImageSize | InvalidImageRatio | InvalidPromptLength | InvalidDuration
        | InvalidResolution | InvalidAspectRatio | InvalidMovementAmplitude | InvalidSeed
        | InvalidPayloadLength | InvalidCallbackUrl | InvalidVideoUrl | InvalidAudioUrl
        | InvalidVoiceId | InvalidTimingParameters => Some(400)
      case Unauthorized | InvalidApiKey | ApiKeyExpired | InvalidToken => Some(401)
      case Forbidden | InsufficientPermissions | AccountSuspended | RateLimitExceeded
        | QuotaExceeded => Some(403)
      case NotFound | TaskNotFound | ModelNotFound | VoiceNotFound => Some(404)
      case TooManyRequests | RateLimitHit => Some(429)
      case InternalServerError | ServiceUnavailable | ProcessingError | ModelError
        | StorageError => Some(500)
      case TaskAlreadyCompleted | TaskAlreadyCancelled | TaskInProgress => Some(409)
      case FileTooLarge => Some(413)
      case UnsupportedFileFormat => Some(415)
      case FileCorrupted => Some(422)
    }

    /** The suggested-action table entry, for the codes that have one. */
    function SuggestedAction(): Option<string> {
      match this
      case InvalidApiKey => Some("请检查API密钥是否正确")
      case ApiKeyExpired => Some("请更新API密钥")
      case QuotaExceeded => Some("请升级账户或等待配额重置")
      case RateLimitExceeded => Some("请降低请求频率")
      case InvalidImageSize => Some("请确保图片大小不超过50MB")
      case InvalidImageRatio => Some("请确保图片比例在1:4到4:1之间")
      case InvalidPromptLength => Some("请缩短提示词，确保不超过1500字符")
      case InvalidPayloadLength => Some("请缩短透传参数，确保不超过1048576字符")
      case TaskNotFound => Some("请检查任务ID是否正确")
      case ModelNotFound => Some("请检查模型名称是否正确")
      case VoiceNotFound => Some("请检查声音ID是否正确")
      case FileTooLarge => Some("请压缩文件或使用较小的文件")
      case UnsupportedFileFormat => Some("请使用支持的图片格式（png、jpeg、jpg、webp）")
      case ServiceUnavailable => Some("请稍后重试")
      case InternalServerError => Some("请稍后重试，如果问题持续存在请联系技术支持")
      case _ => None
    }

    /** The backoff base table entry (seconds), for the codes that have one. */
    function BaseDelay(): Option<nat> {
      match this
      case TooManyRequests => Some(60)
      case RateLimitHit => Some(30)
      case ServiceUnavailable => Some(5)
      case InternalServerError | ProcessingError | ModelError | StorageError => Some(2)
      case _ => None
    }
  }

  /** The allow-list of codes worth retrying. */
  const Retryable: set<ErrorCode> :=
    {ServiceUnavailable, InternalServerError, ProcessingError, ModelError, StorageError,
     TooManyRequests, RateLimitHit}

  const UnknownPrefix := "未知错误: "
  const DefaultAction := "请检查请求参数并重试"
  const MaxDelay := 300

  /** The statuses the status table can produce, fallback included. */
  const HttpStatuses: set<int> := {400, 401, 403, 404, 409, 413, 415, 422, 429, 500}

  /** The enum member whose value is `s` (Python's table lookup by a plain string). Wire
      codes are "0", a three-digit category, or a category followed by "0" and two digits;
      the lookup reads them character by character. */
  function FromWire(s: string): Option<ErrorCode> {
    if |s| == 1 && s[0] == '0' then Some(Success)
    else if |s| == 3 then FromCategory(s[0], s[1], s[2])
    else if |s| == 6 && s[3] == '0' then FromDetail(s[0], s[1], s[2], s[4], s[5])
    else None
  }

  /** The three-character codes. */
  function FromCategory(a: char, b: char, c: char): Option<ErrorCode> {
    if a == '4' && b == '0' && c == '0' then Some(InvalidParameter)
    else if a == '4' && b == '0' && c == '1' then Some(Unauthorized)
    else if a == '4' && b == '0' && c == '3' then Some(Forbidden)
    else if a == '4' && b == '0' && c == '4' then Some(NotFound)
    else if a == '4' && b == '2' && c == '9' then Some(TooManyRequests)
    else if a == '5' && b == '0' && c == '0' then Some(InternalServerError)
    else None
  }

  /** The six-character codes `abc0de`: category `abc`, detail `de`. */
  function FromDetail(a: char, b: char, c: char, d: char, e: char): Option<ErrorCode> {
    if a == '4' && b == '0' && c == '0' then Detail400(d, e)
    else if a == '4' && b == '0' && c == '1' then Detail401(d, e)
    else if a == '4' && b == '0' && c == '3' then Detail403(d, e)
    else if a == '4' && b == '0' && c == '4' then Detail404(d, e)
    else if a == '4' && b == '2' && c == '9' then Detail429(d, e)
    else if a == '5' && b == '0' && c == '0' then Detail500(d, e)
    else if a == '4' && b == '0' && c == '9' then Detail409(d, e)
    else if a == '4' && b == '1' && c == '3' then Detail413(d, e)
    else if a == '4' && b == '1' && c == '5' then Detail415(d, e)
    else if a == '4' && b == '2' && c == '2' then Detail422(d, e)
    else None
  }

  /** The codes `4000de` of category 400, and likewise below for each category. */
  function Detail400(d: char, e: char): Option<ErrorCode> {
    if d == '0' && e == '1' then Some(MissingRequiredParameter)
    else if d == '0' && e == '2' then Some(InvalidModel)
    else if d == '0' && e == '3' then Some(InvalidImageFormat)
    else if d == '0' && e == '4' then Some(InvalidImageSize)
    else if d == '0' && e == '5' then Some(InvalidImageRatio)
    else if d == '0' && e == '6' then Some(InvalidPromptLength)
    else if d == '0' && e == '7' then Some(InvalidDuration)
    else if d == '0' && e == '8' then Some(InvalidResolution)
    else if d == '0' && e == '9' then Some(InvalidAspectRatio)
    else if d == '1' && e == '0' then Some(InvalidMovementAmplitude)
    else if d == '1' && e == '1' then Some(InvalidSeed)
    else if d == '1' && e == '2' then Some(InvalidPayloadLength)
    else if d == '1' && e == '3' then Some(InvalidCallbackUrl)
    else if d == '1' && e == '4' then Some(InvalidVideoUrl)
    else if d == '1' && e == '5' then Some(InvalidAudioUrl)
    else if d == '1' && e == '6' then Some(InvalidVoiceId)
    else if d == '1' && e == '7' then Some(InvalidTimingParameters)
    else None
  }

  function Detail401(d: char, e: char): Option<ErrorCode> {
    if d == '0' && e == '1' then Some(InvalidApiKey)
    else if d == '0' && e == '2' then Some(ApiKeyExpired)
    else if d == '0' && e == '3' then Some(InvalidToken)
    else None
  }

  function Detail403(d: char, e: char): Option<ErrorCode> {
    if d == '0' && e == '1' then Some(InsufficientPermissions)
    else if d == '0' && e == '2' then Some(AccountSuspended)
    else if d == '0' && e == '3' then Some(RateLimitExceeded)
    else if d == '0' && e == '4' then Some(QuotaExceeded)
    else None
  }

  function Detail404(d: char, e: char): Option<ErrorCode> {
    if d == '0' && e == '1' then Some(TaskNotFound)
    else if d == '0' && e == '2' then Some(ModelNotFound)
    else if d == '0' && e == '3' then Some(VoiceNotFound)
    else None
  }

  function Detail429(d: char, e: char): Option<ErrorCode> {
    if d == '0' && e == '1' then Some(RateLimitHit)
    else None
  }

  function Detail500(d: char, e: char): Option<ErrorCode> {
    if d == '0' && e == '1' then Some(ServiceUnavailable)
    else if d == '0' && e == '2' then Some(ProcessingError)
    else if d == '0' && e == '3' then Some(ModelError)
    else if d == '0' && e == '4' then Some(StorageError)
    else None
  }

  function Detail409(d: char, e: char): Option<ErrorCode> {
    if d == '0' && e == '1' then Some(TaskAlreadyCompleted)
    else if d == '0' && e == '2' then Some(TaskAlreadyCancelled)
    else if d == '0' && e == '3' then Some(TaskInProgress)
    else None
  }

  function Detail413(d: char, e: char): Option<ErrorCode> {
    if d == '0' && e == '1' then Some(FileTooLarge)
    else None
  }

  function Detail415(d: char, e: char): Option<ErrorCode> {
    if d == '0' && e == '1' then Some(UnsupportedFileFormat)
    else None
  }

  function Detail422(d: char, e: char): Option<ErrorCode> {
    if d == '0' && e == '1' then Some(FileCorrupted)
    else None
  }

  /** Reading a code's wire form gives the code back. */
  lemma WireRoundTrip(c: ErrorCode)
    ensures FromWire(c.Wire()) == Some(c)
  {
    if c.Success? || c.InvalidParameter? || c.Unauthorized? || c.Forbidden? ||
        c.NotFound? || c.TooManyRequests? || c.InternalServerError? {
      WireRoundTripShort(c);
    } else if c.MissingRequiredParameter? || c.InvalidModel? || c.InvalidImageFormat? ||
        c.InvalidImageSize? || c.InvalidImageRatio? || c.InvalidPromptLength? ||
        c.InvalidDuration? || c.InvalidResolution? || c.InvalidAspectRatio? {
      WireRoundTripParameter(c);
    } else if c.InvalidMovementAmplitude? || c.InvalidSeed? || c.InvalidPayloadLength? ||
        c.InvalidCallbackUrl? || c.InvalidVideoUrl? || c.InvalidAudioUrl? ||
        c.InvalidVoiceId? || c.InvalidTimingParameters? {
      WireRoundTripParameterRest(c);
    } else if c.InvalidApiKey? || c.ApiKeyExpired? || c.InvalidToken? ||
        c.InsufficientPermissions? || c.AccountSuspended? || c.RateLimitExceeded? ||
        c.QuotaExceeded? {
      WireRoundTripAccess(c);
    } else if c.TaskNotFound? || c.ModelNotFound? || c.VoiceNotFound? || c.RateLimitHit? {
      WireRoundTripMissing(c);
    } else if c.ServiceUnavailable? || c.ProcessingError? || c.ModelError? || c.StorageError? {
      WireRoundTripServer(c);
    } else {
      WireRoundTripOther(c);
    }
  }

  /** The success code and the three-character codes. */
  lemma WireRoundTripShort(c: ErrorCode)
    requires c.Success? || c.InvalidParameter? || c.Unauthorized? || c.Forbidden? ||
      c.NotFound? || c.TooManyRequests? || c.InternalServerError?
    ensures FromWire(c.Wire()) == Some(c)
  {
  }

  /** The first nine parameter codes. */
  lemma WireRoundTripParameter(c: ErrorCode)
    requires c.MissingRequiredParameter? || c.InvalidModel? || c.InvalidImageFormat? ||
      c.InvalidImageSize? || c.InvalidImageRatio? || c.InvalidPromptLength? ||
      c.InvalidDuration? || c.InvalidResolution? || c.InvalidAspectRatio?
    ensures FromWire(c.Wire()) == Some(c)
  {
  }

  /** The remaining parameter codes. */
  lemma WireRoundTripParameterRest(c: ErrorCode)
    requires c.InvalidMovementAmplitude? || c.InvalidSeed? || c.InvalidPayloadLength? ||
      c.InvalidCallbackUrl? || c.InvalidVideoUrl? || c.InvalidAudioUrl? ||
      c.InvalidVoiceId? || c.InvalidTimingParameters?
    ensures FromWire(c.Wire()) == Some(c)
  {
  }

  /** The authentication and permission codes. */
  lemma WireRoundTripAccess(c: ErrorCode)
    requires c.InvalidApiKey? || c.ApiKeyExpired? || c.InvalidToken? ||
      c.InsufficientPermissions? || c.AccountSuspended? || c.RateLimitExceeded? ||
      c.QuotaExceeded?
    ensures FromWire(c.Wire()) == Some(c)
  {
  }

  /** The missing-resource codes and the rate-limit code. */
  lemma WireRoundTripMissing(c: ErrorCode)
    requires c.TaskNotFound? || c.ModelNotFound? || c.VoiceNotFound? || c.RateLimitHit?
    ensures FromWire(c.Wire()) == Some(c)
  {
  }

  /** The server codes. */
  lemma WireRoundTripServer(c: ErrorCode)
    requires c.ServiceUnavailable? || c.ProcessingError? || c.ModelError? || c.StorageError?
    ensures FromWire(c.Wire()) == Some(c)
  {
  }

  /** The task-conflict and file codes. */
  lemma WireRoundTripOther(c: ErrorCode)
    requires c.TaskAlreadyCompleted? || c.TaskAlreadyCancelled? || c.TaskInProgress? ||
      c.FileTooLarge? || c.UnsupportedFileFormat? || c.FileCorrupted?
    ensures FromWire(c.Wire()) == Some(c)
  {
  }

  /** A three-character code read back has those three characters as its wire value. */
  lemma FromCategorySound(a: char, b: char, c: char)
    ensures FromCategory(a, b, c).Some? ==> FromCategory(a, b, c).value.Wire() == [a, b, c]
  {
  }

  /** Each per-category reader returns only codes whose wire value it was given. */
  lemma Detail400Sound(d: char, e: char)
    ensures Detail400(d, e).Some? ==> Detail400(d, e).value.Wire() == "4000" + [d, e]
  {
  }

  lemma Detail401Sound(d: char, e: char)
    ensures Detail401(d, e).Some? ==> Detail401(d, e).value.Wire() == "4010" + [d, e]
  {
  }

  lemma Detail403Sound(d: char, e: char)
    ensures Detail403(d, e).Some? ==> Detail403(d, e).value.Wire() == "4030" + [d, e]
  {
  }

  lemma Detail404Sound(d: char, e: char)
    ensures Detail404(d, e).Some? ==> Detail404(d, e).value.Wire() == "4040" + [d, e]
  {
  }

  lemma Detail429Sound(d: char, e: char)
    ensures Detail429(d, e).Some? ==> Detail429(d, e).value.Wire() == "4290" + [d, e]
  {
  }

  lemma Detail500Sound(d: char, e: char)
    ensures Detail500(d, e).Some? ==> Detail500(d, e).value.Wire() == "5000" + [d, e]
  {
  }

  lemma Detail409Sound(d: char, e: char)
    ensures Detail409(d, e).Some? ==> Detail409(d, e).value.Wire() == "4090" + [d, e]
  {
  }

  lemma Detail413Sound(d: char, e: char)
    ensures Detail413(d, e).Some? ==> Detail413(d, e).value.Wire() == "4130" + [d, e]
  {
  }

  lemma Detail415Sound(d: char, e: char)
    ensures Detail415(d, e).Some? ==> Detail415(d, e).value.Wire() == "4150" + [d, e]
  {
  }

  lemma Detail422Sound(d: char, e: char)
    ensures Detail422(d, e).Some? ==> Detail422(d, e).value.Wire() == "4220" + [d, e]
  {
  }

  /** A six-character code read back has those six characters as its wire value. */
  lemma FromDetailSound(a: char, b: char, c: char, d: char, e: char)
    ensures FromDetail(a, b, c, d, e).Some? ==>
      FromDetail(a, b, c, d, e).value.Wire() == [a, b, c, '0', d, e]
  {
    if [a, b, c] == "400" { Detail400Sound(d, e); }
    if [a, b, c] == "401" { Detail401Sound(d, e); }
    if [a, b, c] == "403" { Detail403Sound(d, e); }
    if [a, b, c] == "404" { Detail404Sound(d, e); }
    if [a, b, c] == "429" { Detail429Sound(d, e); }
    if [a, b, c] == "500" { Detail500Sound(d, e); }
    if [a, b, c] == "409" { Detail409Sound(d, e); }
    if [a, b, c] == "413" { Detail413Sound(d, e); }
    if [a, b, c] == "415" { Detail415Sound(d, e); }
    if [a, b, c] == "422" { Detail422Sound(d, e); }
  }

  /** Only wire forms are read as codes: the lookup never accepts a spelling of its own. */
  lemma FromWireSound(s: string)
    ensures FromWire(s).Some? ==> FromWire(s).value.Wire() == s
  {
    if |s| == 3 {
      FromCategorySound(s[0], s[1], s[2]);
      assert s == [s[0], s[1], s[2]];
    } else if |s| == 6 && s[3] == '0' {
      FromDetailSound(s[0], s[1], s[2], s[4], s[5]);
      assert s == [s[0], s[1], s[2], '0', s[4], s[5]];
    } else if |s| == 1 {
      assert s == [s[0]];
    }
  }

  /** A raised API error: the code, its message and the error details (`{}` by default). */
  datatype ViduError = ViduError(errorCode: string, message: string, details: Json)

  /** `get_error_message`: the table message, or the unknown-code prefix followed by the code. */
  function GetErrorMessage(code: string): (r: string)
    ensures FromWire(code).Some? ==> r == FromWire(code).value.Message()
    ensures FromWire(code).None? ==> r == UnknownPrefix + code
  {
    match FromWire(code)
    case Some(c) => c.Message()
    case None => UnknownPrefix + code
  }

  /** No table message looks like the fallback: each starts with another character. */
  lemma MessageIsNotFallback(c: ErrorCode)
    ensures |c.Message()| > 0 && c.Message()[0] != UnknownPrefix[0]
  {
    match c
    case Success =>
    case InvalidParameter =>
    case MissingRequiredParameter =>
    case InvalidModel =>
    case InvalidImageFormat =>
    case InvalidImageSize =>
    case InvalidImageRatio =>
    case InvalidPromptLength =>
    case InvalidDuration =>
    case InvalidResolution =>
    case InvalidAspectRatio =>
    case InvalidMovementAmplitude =>
    case InvalidSeed =>
    case InvalidPayloadLength =>
    case InvalidCallbackUrl =>
    case InvalidVideoUrl =>
    case InvalidAudioUrl =>
    case InvalidVoiceId =>
    case InvalidTimingParameters =>
    case Unauthorized =>
    case InvalidApiKey =>
    case ApiKeyExpired =>
    case InvalidToken =>
    case Forbidden =>
    case InsufficientPermissions =>
    case AccountSuspended =>
    case RateLimitExceeded =>
    case QuotaExceeded =>
    case NotFound =>
    case TaskNotFound =>
    case ModelNotFound =>
    case VoiceNotFound =>
    case TooManyRequests =>
    case RateLimitHit =>
    case InternalServerError =>
    case ServiceUnavailable =>
    case ProcessingError =>
    case ModelError =>
    case StorageError =>
    case TaskAlreadyCompleted =>
    case TaskAlreadyCancelled =>
    case TaskInProgress =>
    case FileTooLarge =>
    case UnsupportedFileFormat =>
    case FileCorrupted =>
  }

  /** A message reads "unknown error" exactly when its code is not in the table, and then it
      ends with the code itself; a known code gets its table message. */
  lemma UnknownMessageIffUnknownCode(code: string)
    ensures StartsWith(GetErrorMessage(code), UnknownPrefix) <==> FromWire(code).None?
    ensures FromWire(code).None? ==> GetErrorMessage(code)[|UnknownPrefix|..] == code
  {
    if FromWire(code).Some? {
      MessageIsNotFallback(FromWire(code).value);
    }
  }

  /** The message of every enum member is its table entry. */
  lemma MessageOfKnownCode(c: ErrorCode)
    ensures GetErrorMessage(c.Wire()) == c.Message()
  {
    WireRoundTrip(c);
  }

  /** `get_http_status_code`: the table status, or 500 for the success code and unknown codes. */
  function GetHttpStatusCode(code: string): (r: int)
    ensures r in HttpStatuses
    ensures FromWire(code).None? || code == "0" ==> r == 500
  {
    match FromWire(code)
    case Some(c) => c.HttpStatus().GetOr(500)
    case None => 500
  }

  /** The three leading digits of a code, read as a number: the category it is filed under. */
  function Category(code: string): int
    requires |code| >= 3
  {
    100 * (code[0] as int - '0' as int) + 10 * (code[1] as int - '0' as int) + (code[2] as int - '0' as int)
  }

  /** The status table is exactly "the code's category": every code other than success
      maps to the number its first three digits spell. */
  lemma StatusIsCategory(c: ErrorCode)
    requires c != Success
    ensures |c.Wire()| >= 3 && GetHttpStatusCode(c.Wire()) == Category(c.Wire())
  {
    WireRoundTrip(c);
  }

  /** `create_error`: `details or {}` keeps only a truthy details value. */
  function CreateError(code: string, details: Option<Json>): (r: ViduError)
    ensures r.errorCode == code && r.message == GetErrorMessage(code)
    ensures details.Some? && Truthy(details.value) ==> r.details == details.value
    ensures details.None? || !Truthy(details.value) ==> r.details == Obj(map[])
  {
    var d := if details.Some? && Truthy(details.value) then details.value else Obj(map[]);
    ViduError(code, GetErrorMessage(code), d)
  }

  /** `handle_api_response`: raises exactly when the body carries an `error_code` other than
      `"0"`, with that code, its message and the body's `details` (default `{}`). */
  function HandleApiResponse(body: Reply): (r: Option<ViduError>)
    ensures r.Some? <==> body.errorCode.Some? && body.errorCode.value != "0"
    ensures r.Some? ==> r.value.errorCode == body.errorCode.value
    ensures r.Some? ==> r.value.message == GetErrorMessage(body.errorCode.value)
    ensures r.Some? && body.details.None? ==> r.value.details == Obj(map[])
  {
    if body.errorCode.Some? && body.errorCode.value != "0" then
      Some(CreateError(body.errorCode.value, Some(body.details.GetOr(Obj(map[])))))
    else
      None
  }

  /** `is_retryable_error`: membership of the code in the allow-list. */
  function IsRetryableError(code: string): (r: bool)
    ensures r ==> GetHttpStatusCode(code) in {429, 500}
    ensures FromWire(code).None? ==> !r
  {
    FromWire(code).Some? && FromWire(code).value in Retryable
  }

  /** The allow-list, spelled as wire strings. */
  lemma RetryableWireCodes(code: string)
    ensures IsRetryableError(code) <==>
      code in {"500", "500001", "500002", "500003", "500004", "429", "429001"}
  {
    FromWireSound(code);
    var known := ["500", "500001", "500002", "500003", "500004", "429", "429001"];
    assert forall k :: 0 <= k < |known| ==> FromWire(known[k]).Some? && FromWire(known[k]).value in Retryable;
    assert code in {"500", "500001", "500002", "500003", "500004", "429", "429001"} ==> code in known;
  }

  /** A known failure code is retryable exactly when the server is overloaded or broken:
      its status is 429 or 500. In particular 403003 (rate limit exceeded, 403) is not. */
  lemma RetryableIffTransientStatus(c: ErrorCode)
    requires c != Success
    ensures IsRetryableError(c.Wire()) <==> GetHttpStatusCode(c.Wire()) in {429, 500}
  {
    WireRoundTrip(c);
  }

  /** The backoff base: the table entry, 1 second for every other code. */
  function BaseDelay(code: string): (b: nat)
    ensures b >= 1
  {
    match FromWire(code)
    case Some(c) => c.BaseDelay().GetOr(1)
    case None => 1
  }

  /** Only retryable codes back off by more than a second at first. */
  lemma BaseDelayMarksRetryable(code: string)
    ensures BaseDelay(code) > 1 <==> IsRetryableError(code)
  {
  }

  /** `2 ** n`. */
  function Pow2(n: nat): (r: nat)
    ensures r >= 1
  {
    if n == 0 then 1 else 2 * Pow2(n - 1)
  }

  /** Powers of two grow with the exponent. */
  lemma {:induction false} Pow2Monotone(m: nat, n: nat)
    requires m <= n
    ensures Pow2(m) <= Pow2(n)
  {
    if m < n {
      Pow2Monotone(m, n - 1);
    }
  }

  /** `get_retry_delay`: exponential backoff from the code's base, capped at five minutes.
      Attempts count from 1. */
  function GetRetryDelay(code: string, attempt: nat): (r: nat)
    requires attempt >= 1
    ensures 1 <= r <= MaxDelay
    ensures attempt == 1 ==> r == BaseDelay(code)
  {
    var d := BaseDelay(code) * Pow2(attempt - 1);
    if d < MaxDelay then d else MaxDelay
  }

  /** Waiting longer never comes first: the delay is non-decreasing in the attempt number. */
  lemma RetryDelayMonotone(code: string, m: nat, n: nat)
    requires 1 <= m <= n
    ensures GetRetryDelay(code, m) <= GetRetryDelay(code, n)
  {
    Pow2Monotone(m - 1, n - 1);
    LargerFactor(BaseDelay(code), Pow2(m - 1), Pow2(n - 1));
  }

  /** Each further attempt doubles the previous delay until the doubled delay reaches the
      cap, after which it stays at the cap. */
  lemma RetryDelayDoubles(code: string, n: nat)
    requires n >= 1
    ensures var prev := GetRetryDelay(code, n);
      GetRetryDelay(code, n + 1) == if 2 * prev < MaxDelay then 2 * prev else MaxDelay
  {
    DoubledFactor(BaseDelay(code), Pow2(n - 1), Pow2(n));
  }

  /** `k` attempts later the delay has been multiplied by `2 ** k`, up to the cap. */
  lemma {:induction false} RetryDelayScales(code: string, n: nat, k: nat)
    requires n >= 1
    ensures var prev := GetRetryDelay(code, n);
      GetRetryDelay(code, n + k) == if prev * Pow2(k) < MaxDelay then prev * Pow2(k) else MaxDelay
  {
    if k > 0 {
      var prev := GetRetryDelay(code, n);
      var p := prev * Pow2(k - 1);
      RetryDelayScales(code, n, k - 1);
      RetryDelayDoubles(code, n + k - 1);
      DoubledFactor(prev, Pow2(k - 1), Pow2(k));
      assert prev * Pow2(k) == 2 * p;
    }
  }

  /** A larger factor gives a larger product. */
  lemma LargerFactor(a: nat, b: nat, c: nat)
    requires b <= c
    ensures a * b <= a * c
  {
  }

  /** Doubling one factor doubles the product. */
  lemma DoubledFactor(a: nat, b: nat, c: nat)
    requires c == 2 * b
    ensures a * c == 2 * (a * b)
  {
  }

  /** From the tenth attempt on every code waits the full cap (2^9 = 512 > 300). */
  lemma RetryDelaySaturates(code: string, n: nat)
    requires n >= 10
    ensures GetRetryDelay(code, n) == MaxDelay
  {
    Pow2Monotone(9, n - 1);
    assert Pow2(9) == 512;
  }

  /** `get_suggested_action`: the mapped hint, or the generic "check the parameters" hint. */
  function GetSuggestedAction(code: string): (r: string)
    ensures FromWire(code).None? ==> r == DefaultAction
    ensures FromWire(code).Some? && FromWire(code).value.SuggestedAction().Some? ==>
      r == FromWire(code).value.SuggestedAction().value
  {
    match FromWire(code)
    case Some(c) => c.SuggestedAction().GetOr(DefaultAction)
    case None => DefaultAction
  }

  /** The codes with a specific hint, spelled as wire strings; every other string, known code
      or not, gets the generic hint. */
  lemma SpecificSuggestionCodes(code: string)
    ensures GetSuggestedAction(code) != DefaultAction <==>
      code in {"401001", "401002", "403004", "403003", "400004", "400005", "400006", "400012",
               "404001", "404002", "404003", "413001", "415001", "500001", "500"}
  {
    HintIsNeverGeneric(code);
    FromWireSound(code);
    if FromWire(code).Some? && FromWire(code).value.SuggestedAction().Some? {
      HintedCodeListed(FromWire(code).value);
    }
    if code in {"401001", "401002", "403004", "403003", "400004", "400005", "400006", "400012",
               "404001", "404002", "404003", "413001", "415001", "500001", "500"} {
      ListedCodeHinted(code);
    }
  }

  /** Every code with a specific hint is one of the listed wire strings. */
  lemma HintedCodeListed(c: ErrorCode)
    requires c.SuggestedAction().Some?
    ensures c.Wire() in {"401001", "401002", "403004", "403003", "400004", "400005", "400006", "400012",
               "404001", "404002", "404003", "413001", "415001", "500001", "500"}
  {
  }

  /** Every listed wire string is a code with a specific hint; split in three to keep each
      case analysis small. */
  lemma ListedCodeHinted(code: string)
    requires code in {"401001", "401002", "403004", "403003", "400004", "400005", "400006", "400012",
               "404001", "404002", "404003", "413001", "415001", "500001", "500"}
    ensures FromWire(code).Some? && FromWire(code).value.SuggestedAction().Some?
  {
    if code in {"401001", "401002", "403004", "403003", "400004"} { ListedCodeHinted0(code); }
    else if code in {"400005", "400006", "400012", "404001", "404002"} { ListedCodeHinted1(code); }
    else { ListedCodeHinted2(code); }
  }

  lemma ListedCodeHinted0(code: string)
    requires code in {"401001", "401002", "403004", "403003", "400004"}
    ensures FromWire(code).Some? && FromWire(code).value.SuggestedAction().Some?
  {
  }

  lemma ListedCodeHinted1(code: string)
    requires code in {"400005", "400006", "400012", "404001", "404002"}
    ensures FromWire(code).Some? && FromWire(code).value.SuggestedAction().Some?
  {
  }

  lemma ListedCodeHinted2(code: string)
    requires code in {"404003", "413001", "415001", "500001", "500"}
    ensures FromWire(code).Some? && FromWire(code).value.SuggestedAction().Some?
  {
  }

  /** A specific hint never coincides with the generic one, so a differing hint means a mapped code. */
  lemma HintIsNeverGeneric(code: string)
    ensures GetSuggestedAction(code) != DefaultAction <==>
      FromWire(code).Some? && FromWire(code).value.SuggestedAction().Some?
  {
  }

  /** `handle_vidu_error`: the module-level shorthand for `create_error`. */
  function HandleViduError(code: string, details: Option<Json>): (r: ViduError)
    ensures r.errorCode == code && r.message == GetErrorMessage(code)
    ensures details.Some? && Truthy(details.value) ==> r.details == details.value
    ensures details.None? || !Truthy(details.value) ==> r.details == Obj(map[])
  {
    CreateError(code, details)
  }

  /** `is_retryable_error` at module level: agrees with the allow-list. */
  function IsRetryable(code: string): (r: bool)
    ensures r <==> code in {"500", "500001", "500002", "500003", "500004", "429", "429001"}
    ensures FromWire(code).Some? && FromWire(code).value != Success ==>
      (r <==> GetHttpStatusCode(code) in {429, 500})
  {
    RetryableWireCodes(code);
    if FromWire(code).Some? && FromWire(code).value != Success then
      FromWireSound(code);
      RetryableIffTransientStatus(FromWire(code).value);
      IsRetryableError(code)
    else
      IsRetryableError(code)
  }

  /** `get_error_suggestion`: agrees with `get_suggested_action`. */
  function GetErrorSuggestion(code: string): (r: string)
    ensures FromWire(code).None? ==> r == DefaultAction
    ensures FromWire(code).Some? && FromWire(code).value.SuggestedAction().Some? ==>
      r == FromWire(code).value.SuggestedAction().value
    ensures r != DefaultAction <==> FromWire(code).Some? && FromWire(code).value.SuggestedAction().Some?
  {
    HintIsNeverGeneric(code);
    GetSuggestedAction(code)
  }

  /** A body reporting a hit rate limit raises an error that is retryable after 30 s. */
  lemma RateLimitHitScenario(body: Reply)
    requires body.errorCode == Some("429001")
    ensures HandleApiResponse(body).Some?
    ensures IsRetryableError(HandleApiResponse(body).value.errorCode)
    ensures GetRetryDelay(HandleApiResponse(body).value.errorCode, 1) == 30
  {
  }
}

=== FILE: image_to_video.dfy ===
/** The image-to-video screen: its resolution tables and `create_image_to_video_task`. */
module ImageScreen {
  import opened Wrappers
  import opened Text
  import opened Protocol
  import opened Dispatch
  import opened Durations
  import opened Submissions
  import opened Tracking
  import opened Shaping

  /** `get_resolution_options`: the options listed for a model and duration. */
  const Options: Table<seq<string>> := map[
    "viduq1" := map["5" := ["1080p"]],
    "vidu2.0" := map["4" := ["360p", "720p", "1080p"], "8" := ["720p"]],
    "vidu1.5" := map["4" := ["360p", "720p", "1080p"], "8" := ["720p"]]]

  /** `get_default_resolution`: the default listed for a model and duration. */
  const Defaults: Table<string> := map[
    "viduq1" := map["5" := "1080p"],
    "vidu2.0" := map["4" := "360p", "8" := "720p"],
    "vidu1.5" := map["4" := "360p", "8" := "720p"]]

  function ResolutionOptions(model: string, duration: string): (r: seq<string>)
    ensures r != [] && forall x :: x in r ==> x in AllResolutions
  {
    Lookup(Options, model, duration, AllResolutions)
  }

  function DefaultResolution(model: string, duration: string): (r: string)
    ensures r in AllResolutions
  {
    Lookup(Defaults, model, duration, FallbackResolution)
  }

  /** Whatever model and duration are chosen, listed or not, the preselected resolution is one
      of those offered. */
  lemma DefaultIsOffered(model: string, duration: string)
    ensures DefaultResolution(model, duration) in ResolutionOptions(model, duration)
  {
    TablesAgree();
    Shaping.DefaultAmongOptions(Options, Defaults, model, duration);
  }

  /** The two tables list the same pairs, each default among its options. */
  lemma TablesAgree()
    ensures Agree(Options, Defaults)
  {
    var q1, v20, v15 := "viduq1", "vidu2.0", "vidu1.5";
    assert Options.Keys == Defaults.Keys == {q1, v20, v15};
    assert RowAgrees(Options[q1], Defaults[q1]);
    assert RowAgrees(Options[v20], Defaults[v20]);
    assert RowAgrees(Options[v15], Defaults[v15]);
    forall m | m in Options
      ensures RowAgrees(Options[m], Defaults[m])
    {
      assert m == q1 || m == v20 || m == v15;
    }
    AgreeByRows(Options, Defaults);
  }

  /** `create_image_to_video_task`: the single file control is read first (a file that cannot
      be read raises); no image is refused; then the client is called with the prompt only when
      it is not blank, the duration read by `int()`, and the screen settings; the submission
      answer is polled until the task settles. */
  function Screen(model: string, image: Upload, prompt: string, duration: string, seed: int,
                  resolution: string, movement: string, bgm: string,
                  submitted: Option<Reply>, answers: seq<Option<Reply>>): (r: Report)
    ensures image == NoFile ==> r == Refused(NoImage)
    ensures image == File(None) ==> r == Crashed(IoError)
    ensures image.File? && image.content.Some? ==>
      r == Launch(Prepare(model, image.content.value, prompt, duration, ScreenExtras(seed, resolution, movement, bgm)),
                  submitted, answers, VideoAndCover)
  {
    match EncodeAll([image])
    case Err(e) => Crashed(e)
    case Ok(images) =>
      if images == [] then Refused(NoImage)
      else Launch(Prepare(model, images[0], prompt, duration, ScreenExtras(seed, resolution, movement, bgm)),
                  submitted, answers, VideoAndCover)
  }

  /** The client call the screen makes with one encoded image. */
  function Prepare(model: string, image: string, prompt: string, duration: string, x: VideoExtras): (r: Result<Request, ClientError>)
    ensures ParseInt(duration).None? ==> r == Err(ValueError(NotAnInteger(duration)))
    ensures ParseInt(duration).Some? ==> r == ImageToVideoRequest(model, [image], OptionalPrompt(prompt), ParseInt(duration), x)
  {
    match ParseDuration(duration)
    case Err(e) => Err(e)
    case Ok(d) => ImageToVideoRequest(model, [image], OptionalPrompt(prompt), Some(d), x)
  }

  /** What the screen sends once its image is read: the prompt field exactly when the prompt is
      not blank, as typed, and the client refuses the call only for a prompt over 1500
      characters or a duration the model does not take. */
  lemma PreparedRequest(model: string, image: string, prompt: string, duration: string,
                        seed: int, resolution: string, movement: string, bgm: string)
    requires ParseInt(duration).Some?
    ensures var x := ScreenExtras(seed, resolution, movement, bgm);
      var r := Prepare(model, image, prompt, duration, x);
      && (r.Ok? <==> !(!IsBlank(prompt) && |prompt| > MaxPrompt) && ValidateDuration(ImageToVideo, model, ParseInt(duration)).Ok?)
      && (r.Ok? ==> (PromptKey in r.value.body <==> !IsBlank(prompt)))
      && (r.Ok? && !IsBlank(prompt) ==> r.value.body[PromptKey] == Str(prompt))
  {
    OptionalPromptNeverBlank(prompt);
    ScreenExtrasSent(seed, resolution, movement, bgm);
  }
}

=== FILE: lip_sync.dfy ===
/** The lip-sync screen: `create_lip_sync_task`, with its two drive modes. A saved upload is
    an `Upload` whose content is the URL the saved file is served under. */
module LipSyncScreen {
  import opened Wrappers
  import opened Text
  import opened Protocol
  import opened Dispatch
  import opened Submissions
  import opened Utils
  import opened Tracking
  import opened Shaping

  /** The drive mode that lip-syncs to an uploaded audio file. */
  const AudioMode := "音频驱动"
  /** The drive mode that lip-syncs to speech generated from text. */
  const TextMode := "文本驱动"

  /** The screen's bounds on the stripped text. */
  const MinText := 4
  const MaxText := 2000

  /** The screen's checks and the arguments it hands to `lip_sync`. The video must be chosen;
      the audio mode needs an audio file, and every other mode a stripped text of 4 to 2000
      characters. Then the video is saved, the audio too in audio mode, and the text, speed,
      voice and volume are passed only in text mode (the text only when non-empty, the voice
      only when one was chosen, looked up in `voices`). */
  function Gather(voices: seq<Voice>, video: Upload, mode: string, audio: Upload, text: string,
                  speed: real, characterId: string, volume: int): (r: Result<LipSyncArgs, Refusal>)
    ensures video == NoFile ==> r == Err(NoVideoFile)
    ensures video != NoFile && mode == AudioMode && audio == NoFile ==> r == Err(NoAudioFile)
    ensures video != NoFile && mode != AudioMode && IsBlank(text) ==> r == Err(NoText)
    ensures video != NoFile && mode != AudioMode && !IsBlank(text) && |Strip(text)| < MinText ==> r == Err(TextTooShort)
    ensures video != NoFile && mode != AudioMode && |Strip(text)| > MaxText ==> r == Err(TextTooLong)
    ensures r.Err? && r.error == VideoUploadFailed <==> video == File(None) && (if mode == AudioMode then audio != NoFile
      else MinText <= |Strip(text)| <= MaxText)
    ensures r.Err? && r.error == AudioUploadFailed <==>
      mode == AudioMode && video.File? && video.content.Some? && audio == File(None)
    ensures r.Ok? ==> video.File? && video.content.Some? && r.value.videoUrl == video.content
    ensures r.Ok? ==> (r.value.audioUrl.Some? <==> mode == AudioMode)
    ensures r.Ok? && mode == AudioMode ==> audio.File? && r.value.audioUrl == audio.content
    ensures r.Ok? ==> (r.value.text.Some? <==> mode == TextMode)
    ensures r.Ok? && mode == TextMode ==>
      (r.value.text == Some(Strip(text)) && r.value.speed == Some(speed) && r.value.volume == Some(volume))
    ensures r.Ok? && mode == TextMode ==>
      r.value.characterId == (if characterId != "" then Some(VoiceId(voices, characterId)) else None)
    ensures r.Ok? && mode != TextMode ==> r.value.speed.None? && r.value.volume.None? && r.value.characterId.None?
    ensures r.Ok? ==> r.value.language.None? && r.value.payload.None? && r.value.callbackUrl.None?
  {
    if video == NoFile then Err(NoVideoFile)
    else if mode == AudioMode && audio == NoFile then Err(NoAudioFile)
    else if mode != AudioMode && IsBlank(text) then Err(NoText)
    else if mode != AudioMode && |Strip(text)| < MinText then Err(TextTooShort)
    else if mode != AudioMode && |Strip(text)| > MaxText then Err(TextTooLong)
    else if video.content.None? then Err(VideoUploadFailed)
    else if mode == AudioMode && audio.content.None? then Err(AudioUploadFailed)
    else
      var audioUrl := if mode == AudioMode then audio.content else None;
      var textMode := mode == TextMode;
      var voice := if textMode && characterId != "" then Some(VoiceId(voices, characterId)) else None;
      Ok(LipSyncArgs(video.content, audioUrl,
                     if textMode && Strip(text) != "" then Some(Strip(text)) else None,
                     if textMode then Some(speed) else None,
                     voice,
                     if textMode then Some(volume) else None,
                     None, None, None))
  }

  /** `create_lip_sync_task`: the screen's checks, the client call, then the poll loop, which
      shows only the video links. */
  function Screen(voices: seq<Voice>, video: Upload, mode: string, audio: Upload, text: string,
                  speed: real, characterId: string, volume: int,
                  submitted: Option<Reply>, answers: seq<Option<Reply>>): (r: Report)
    ensures Gather(voices, video, mode, audio, text, speed, characterId, volume).Err? ==>
      r == Refused(Gather(voices, video, mode, audio, text, speed, characterId, volume).error)
    ensures Gather(voices, video, mode, audio, text, speed, characterId, volume).Ok? ==>
      r == Launch(LipSyncRequest(Gather(voices, video, mode, audio, text, speed, characterId, volume).value),
                  submitted, answers, VideoOnly)
  {
    match Gather(voices, video, mode, audio, text, speed, characterId, volume)
    case Err(why) => Refused(why)
    case Ok(args) => Launch(LipSyncRequest(args), submitted, answers, VideoOnly)
  }

  /** In text mode, a text the screen lets through is one the client accepts; with the
      slider's speed and volume the call goes out carrying the stripped text and no audio. */
  lemma TextModeAccepted(voices: seq<Voice>, url: string, audio: Upload, text: string,
                         speed: real, characterId: string, volume: int)
    requires url != [] && MinText <= |Strip(text)| <= MaxText
    requires 0.5 <= speed <= 1.5 && 0 <= volume <= 10
    ensures var g := Gather(voices, File(Some(url)), TextMode, audio, text, speed, characterId, volume);
      && g.Ok? && LipSyncRequest(g.value).Ok?
      && LipSyncRequest(g.value).value.body[TextKey] == Str(Strip(text))
      && AudioUrlKey !in LipSyncRequest(g.value).value.body
  {
    var g := Gather(voices, File(Some(url)), TextMode, audio, text, speed, characterId, volume);
    var a := g.value;
    assert a.videoUrl == Some(url) && a.audioUrl.None? && a.text == Some(Strip(text));
    assert LipSyncFault(a).None?;
  }

  /** In audio mode, two saved files are enough for the client, and none of the text-mode
      settings go out. */
  lemma AudioModeAccepted(voices: seq<Voice>, videoUrl: string, audioUrl: string, text: string,
                          speed: real, characterId: string, volume: int)
    requires videoUrl != [] && audioUrl != []
    ensures var g := Gather(voices, File(Some(videoUrl)), AudioMode, File(Some(audioUrl)), text, speed, characterId, volume);
      && g.Ok? && LipSyncRequest(g.value).Ok?
      && LipSyncRequest(g.value).value.body[AudioUrlKey] == Str(audioUrl)
      && TextKey !in LipSyncRequest(g.value).value.body && SpeedKey !in LipSyncRequest(g.value).value.body
      && VolumeKey !in LipSyncRequest(g.value).value.body && CharacterIdKey !in LipSyncRequest(g.value).value.body
  {
  }

  /** A mode that is neither of the two passes the text checks, but then sends neither audio
      nor text, so the client refuses it with `NoDriveInput`. */
  lemma OtherModeRefusedByClient(voices: seq<Voice>, url: string, audio: Upload, text: string,
                                 speed: real, characterId: string, volume: int, mode: string)
    requires mode != AudioMode && mode != TextMode
    requires url != [] && MinText <= |Strip(text)| <= MaxText
    ensures var g := Gather(voices, File(Some(url)), mode, audio, text, speed, characterId, volume);
      && g.Ok? && LipSyncRequest(g.value) == Err(ValueError(NoDriveInput))
  {
  }

  /** The screen and the client bound the text alike: in text mode the client's length check
      on the text never fires. */
  lemma TextBoundsAgree(voices: seq<Voice>, video: Upload, audio: Upload, text: string,
                        speed: real, characterId: string, volume: int)
    requires Gather(voices, video, TextMode, audio, text, speed, characterId, volume).Ok?
    ensures LipSyncFault(Gather(voices, video, TextMode, audio, text, speed, characterId, volume).value) != Some(TextLength)
  {
  }
}

=== FILE: protocol.dfy ===
/** The data that crosses the wire: JSON values, the fields of a decoded response the
    client reads, and the requests it sends. */
module Protocol {
  import opened Wrappers

  /** A decoded JSON value, distinguishing Python's `int` and `float` as `json.loads` does. */
  datatype Json =
    | Null
    | Bool(b: bool)
    | Int(i: int)
    | Real(x: real)
    | Str(s: string)
    | Arr(items: seq<Json>)
    | Obj(fields: map<string, Json>)

  /** Python truthiness of a decoded value (`if value:`). */
  predicate Truthy(j: Json) {
    match j
    case Null => false
    case Bool(b) => b
    case Int(i) => i != 0
    case Real(x) => x != 0.0
    case Str(s) => s != []
    case Arr(a) => a != []
    case Obj(m) => |m| != 0
  }

  /** The number a value stands for in a Python comparison with a number (`bool` is an `int`
      subclass); `None` for values whose comparison with a number raises `TypeError`. */
  function Number(j: Json): (r: Option<real>)
    ensures r.Some? <==> j.Bool? || j.Int? || j.Real?
  {
    match j
    case Bool(b) => Some(if b then 1.0 else 0.0)
    case Int(i) => Some(i as real)
    case Real(x) => Some(x)
    case _ => None
  }

  /** Python's `len(value)`; `None` where `len` raises `TypeError`. */
  function Length(j: Json): (r: Option<nat>)
    ensures r.Some? <==> j.Str? || j.Arr? || j.Obj?
  {
    match j
    case Str(s) => Some(|s|)
    case Arr(a) => Some(|a|)
    case Obj(m) => Some(|m|)
    case _ => None
  }

  /** Python truthiness of an optional string (`None` and `""` are false). */
  predicate Given(s: Option<string>) {
    s.Some? && s.value != []
  }

  /** One output of a finished task, as listed under `creations`. */
  datatype Creation = Creation(id: Option<string>, url: Option<string>, coverUrl: Option<string>)

  /** The fields of a decoded response body that the client and its callers read; an absent
      field is `None`. `errorCode`/`details` form the error envelope, `taskId` answers a
      submission, and `id`/`state`/`errCode`/`creations` describe a task. */
  datatype Reply = Reply(
    errorCode: Option<string>,
    details: Option<Json>,
    taskId: Option<string>,
    id: Option<string>,
    state: Option<string>,
    errCode: Option<string>,
    creations: Option<seq<Creation>>)

  datatype Method = Get | Post

  /** The keys the client writes into request bodies. */
  datatype Field =
    | ModelKey | ImagesKey | PromptKey | DurationKey | SeedKey | AspectRatioKey | ResolutionKey
    | MovementAmplitudeKey | BgmKey | PayloadKey | CallbackUrlKey | StyleKey | VideoUrlKey
    | VideoCreationIdKey | UpscaleResolutionKey | AudioUrlKey | TextKey | SpeedKey
    | CharacterIdKey | VolumeKey | LanguageKey | TimingPromptsKey
  {
    /** The key as it appears in the JSON body. */
    function Wire(): string {
      match this
      case ModelKey => "model"
      case ImagesKey => "images"
      case PromptKey => "prompt"
      case DurationKey => "duration"
      case SeedKey => "seed"
      case AspectRatioKey => "aspect_ratio"
      case ResolutionKey => "resolution"
      case MovementAmplitudeKey => "movement_amplitude"
      case BgmKey => "bgm"
      case PayloadKey => "payload"
      case CallbackUrlKey => "callback_url"
      case StyleKey => "style"
      case VideoUrlKey => "video_url"
      case VideoCreationIdKey => "video_creation_id"
      case UpscaleResolutionKey => "upscale_resolution"
      case AudioUrlKey => "audio_url"
      case TextKey => "text"
      case SpeedKey => "speed"
      case CharacterIdKey => "character_id"
      case VolumeKey => "volume"
      case LanguageKey => "language"
      case TimingPromptsKey => "timing_prompts"
    }
  }

  /** One HTTP request: the endpoint path under the base URL and its JSON body, keyed by field. */
  datatype Request = Request(verb: Method, endpoint: string, body: map<Field, Json>)

  /** The body as the JSON object that goes over the wire. */
  function WireBody(body: map<Field, Json>): (r: map<string, Json>)
    ensures forall f :: f in body ==> f.Wire() in r && r[f.Wire()] == body[f]
    ensures forall k :: k in r ==> exists f :: f in body && f.Wire() == k
  {
    WireKeysDistinct();
    map f | f in body :: f.Wire() := body[f]
  }

  /** No two fields share a wire key, so the body's fields survive the translation to JSON. */
  lemma WireKeysDistinct()
    ensures forall f: Field, g: Field :: f.Wire() == g.Wire() ==> f == g
  {
    forall f: Field, g: Field | f.Wire() == g.Wire() ensures f == g {
      WireKeyFirstChar(f, g);
    }
  }

  /** Two fields with the same wire key are the same field (compared by first character and
      length, then in full). */
  lemma WireKeyFirstChar(f: Field, g: Field)
    requires f.Wire() == g.Wire()
    ensures f == g
  {
    assert f.Wire()[0] == g.Wire()[0];
    assert |f.Wire()| == |g.Wire()|;
  }

  /** Adds `key := v` to a request body when `v` is given (the `if x is not None:` pattern
      the client uses to build request bodies). */
  function Put(body: map<Field, Json>, key: Field, v: Option<Json>): (r: map<Field, Json>)
    ensures v.Some? ==> r == body[key := v.value]
    ensures v.None? ==> r == body
  {
    if v.Some? then body[key := v.value] else body
  }

  /** An optional string, int, float or bool as an optional JSON value. */
  function StrOf(s: Option<string>): Option<Json> {
    if s.Some? then Some(Str(s.value)) else None
  }

  function IntOf(i: Option<int>): Option<Json> {
    if i.Some? then Some(Int(i.value)) else None
  }

  function RealOf(x: Option<real>): Option<Json> {
    if x.Some? then Some(Real(x.value)) else None
  }

  function BoolOf(b: Option<bool>): Option<Json> {
    if b.Some? then Some(Bool(b.value)) else None
  }

  /** A list of strings as a JSON array. */
  function Strs(ss: seq<string>): (r: seq<Json>)
    ensures |r| == |ss|
    ensures forall i :: 0 <= i < |ss| ==> r[i] == Str(ss[i])
  {
    if ss == [] then [] else [Str(ss[0])] + Strs(ss[1..])
  }
}

=== FILE: reference_to_video.dfy ===
/** The reference-to-video screen: its resolution tables and `create_reference_to_video_task`. */
module ReferenceScreen {
  import opened Wrappers
  import opened Text
  import opened Protocol
  import opened Dispatch
  import opened Durations
  import opened Submissions
  import opened Utils
  import opened Tracking
  import opened Shaping

  /** `get_reference_resolution_options`: vidu2.0 at 4 s offers no 1080p here. */
  const Options: Table<seq<string>> := map[
    "viduq1" := map["5" := ["1080p"]],
    "vidu2.0" := map["4" := ["360p", "720p"]],
    "vidu1.5" := map["4" := ["360p", "720p", "1080p"], "8" := ["720p"]]]

  /** `get_reference_default_resolution`. */
  const Defaults: Table<string> := map[
    "viduq1" := map["5" := "1080p"],
    "vidu2.0" := map["4" := "360p"],
    "vidu1.5" := map["4" := "360p", "8" := "720p"]]

  function ResolutionOptions(model: string, duration: string): (r: seq<string>)
    ensures r != [] && forall x :: x in r ==> x in AllResolutions
  {
    Lookup(Options, model, duration, AllResolutions)
  }

  function DefaultResolution(model: string, duration: string): (r: string)
    ensures r in AllResolutions
  {
    Lookup(Defaults, model, duration, FallbackResolution)
  }

  /** The two tables list the same pairs, each default among its options. */
  lemma TablesAgree()
    ensures Agree(Options, Defaults)
  {
    var q1, v20, v15 := "viduq1", "vidu2.0", "vidu1.5";
    assert Options.Keys == Defaults.Keys == {q1, v20, v15};
    assert RowAgrees(Options[q1], Defaults[q1]);
    assert RowAgrees(Options[v20], Defaults[v20]);
    assert RowAgrees(Options[v15], Defaults[v15]);
    forall m | m in Options
      ensures RowAgrees(Options[m], Defaults[m])
    {
      assert m == q1 || m == v20 || m == v15;
    }
    AgreeByRows(Options, Defaults);
  }

  /** Whatever model and duration are chosen, the preselected resolution is offered. */
  lemma DefaultIsOffered(model: string, duration: string)
    ensures DefaultResolution(model, duration) in ResolutionOptions(model, duration)
  {
    TablesAgree();
    Shaping.DefaultAmongOptions(Options, Defaults, model, duration);
  }

  /** `create_reference_to_video_task`: the file controls are read in turn (empty ones
      skipped, an unreadable one raises); no image and a blank prompt are refused; the client
      gets the images, the stripped prompt, the duration read by `int()`, the aspect ratio and
      the screen settings; the submission is then polled. */
  function Screen(model: string, files: seq<Upload>, prompt: string, duration: string, seed: int,
                  aspectRatio: string, resolution: string, movement: string, bgm: string,
                  submitted: Option<Reply>, answers: seq<Option<Reply>>): (r: Report)
    ensures File(None) in files ==> r == Crashed(IoError)
    ensures EncodeAll(files) == Ok([]) ==> r == Refused(NoReferenceImage)
    ensures EncodeAll(files).Ok? && EncodeAll(files).value != [] && IsBlank(prompt) ==> r == Refused(NoPrompt)
    ensures r.Tracked? || r == NoTaskId ==> (EncodeAll(files).Ok? && !IsBlank(prompt) &&
      Prepare(model, EncodeAll(files).value, prompt, duration, aspectRatio, ScreenExtras(seed, resolution, movement, bgm)).Ok?)
    ensures EncodeAll(files).Ok? && EncodeAll(files).value != [] && !IsBlank(prompt) ==>
      r == Launch(Prepare(model, EncodeAll(files).value, prompt, duration, aspectRatio,
                          ScreenExtras(seed, resolution, movement, bgm)),
                  submitted, answers, VideoAndCover)
  {
    match EncodeAll(files)
    case Err(e) => Crashed(e)
    case Ok(images) =>
      if images == [] then Refused(NoReferenceImage)
      else if IsBlank(prompt) then Refused(NoPrompt)
      else Launch(Prepare(model, images, prompt, duration, aspectRatio, ScreenExtras(seed, resolution, movement, bgm)),
                  submitted, answers, VideoAndCover)
  }

  /** The client call the screen makes once its checks pass. */
  function Prepare(model: string, images: seq<string>, prompt: string, duration: string, aspectRatio: string,
                   x: VideoExtras): (r: Result<Request, ClientError>)
    ensures ParseInt(duration).None? ==> r == Err(ValueError(NotAnInteger(duration)))
    ensures ParseInt(duration).Some? ==>
      r == ReferenceToVideoRequest(model, images, Strip(prompt), ParseInt(duration), Some(aspectRatio), x)
  {
    match ParseDuration(duration)
    case Err(e) => Err(e)
    case Ok(d) => ReferenceToVideoRequest(model, images, Strip(prompt), Some(d), Some(aspectRatio), x)
  }

  /** The prompt the screen sends is the stripped one, which the client never finds blank;
      the client still refuses more than seven images, a stripped prompt over 1500 characters
      and a duration the reference table does not list. */
  lemma PreparedRequest(model: string, images: seq<string>, prompt: string, duration: string, aspectRatio: string,
                        seed: int, resolution: string, movement: string, bgm: string)
    requires images != [] && !IsBlank(prompt) && ParseInt(duration).Some?
    ensures var r := Prepare(model, images, prompt, duration, aspectRatio, ScreenExtras(seed, resolution, movement, bgm));
      && (r.Ok? <==> |images| <= MaxReferenceImages && |Strip(prompt)| <= MaxPrompt &&
                     ValidateDuration(ReferenceToVideo, model, ParseInt(duration)).Ok?)
      && (|images| > MaxReferenceImages ==> r == Err(ValueError(ImageCount)))
      && (r.Ok? ==> r.value.body[PromptKey] == Str(Strip(prompt)))
  {
    StripIdempotent(prompt);
    ScreenExtrasSent(seed, resolution, movement, bgm);
  }

  /** The duration choices come from the image-to-video table, so with vidu2.0 the screen
      offers 8 seconds, which the reference check then refuses. */
  lemma OfferedDurationRefused(images: seq<string>, prompt: string, aspectRatio: string, x: VideoExtras)
    requires 1 <= |images| <= MaxReferenceImages && !IsBlank(prompt) && |Strip(prompt)| <= MaxPrompt
    requires !PayloadOverLimit(x.payload)
    ensures "8" in UpdateDurationOptions("vidu2.0")
    ensures Prepare("vidu2.0", images, prompt, "8", aspectRatio, x) == Err(ValueError(UnsupportedDuration(8)))
  {
    StripIdempotent(prompt);
    EightIsOffered();
    EightReads();
    EightRefused();
  }

  /** With vidu2.0 chosen, the duration drop-down lists 8 seconds. */
  lemma EightIsOffered()
    ensures "8" in UpdateDurationOptions("vidu2.0")
  {
    ParseModelRoundTrip(Vidu20);
    var ds := DurationStrings([4, 8]);
    assert UpdateDurationOptions("vidu2.0") == ds;
    assert ds[1] == IntToString(8);
    assert IntToString(8) == "8" by {
      assert NatToString(8) == "8";
    }
  }

  /** `int("8")` is 8. */
  lemma EightReads()
    ensures ParseInt("8") == Some(8)
  {
    assert NatToString(8) == "8";
    ParseIntToString(8);
  }

  /** The reference table gives vidu2.0 only 4 seconds. */
  lemma EightRefused()
    ensures ValidateDuration(ReferenceToVideo, "vidu2.0", Some(8)) == Err(ValueError(UnsupportedDuration(8)))
  {
    ParseModelRoundTrip(Vidu20);
  }

  /** The duration choices the screen would offer if they came from the reference table. */
  function ReferenceDurationOptions(model: string): (r: seq<string>)
    ensures ParseModel(model).None? ==> r == ["4"]
    ensures ParseModel(model).Some? ==> Limits(ReferenceToVideo, ParseModel(model).value).Some?
    ensures ParseModel(model).Some? ==> |r| == |Limits(ReferenceToVideo, ParseModel(model).value).value|
    ensures ParseModel(model).Some? ==> forall i :: 0 <= i < |r| ==>
      ParseInt(r[i]) == Some(Limits(ReferenceToVideo, ParseModel(model).value).value[i])
  {
    DurationChoices(ReferenceToVideo, model)
  }

  /** Every duration the reference choices offer for a known model is accepted by the
      reference check, and the preselected first one is the model's default. */
  lemma ReferenceDurationsAccepted(model: string, i: nat)
    requires ParseModel(model).Some? && i < |ReferenceDurationOptions(model)|
    ensures ValidateDuration(ReferenceToVideo, model, ParseInt(ReferenceDurationOptions(model)[i])).Ok?
    ensures ParseInt(ReferenceDurationOptions(model)[0]) == Some(DefaultDuration(ParseModel(model).value))
  {
    var m := ParseModel(model).value;
    assert Limits(ReferenceToVideo, m).Some? by { assert m.ViduQ1? || m.ViduQ1Classic? || m.Vidu20? || m.Vidu15?; }
    assert ReferenceDurationOptions(model) == DurationChoices(ReferenceToVideo, model);
    DurationChoicesAccepted(ReferenceToVideo, model, i);
  }
}

=== FILE: shaping.dfy ===
/** How the screens turn what the user entered into client arguments: uploaded files, the
    optional prompt, the seed, the settings every video screen forwards, the duration choice
    and the resolution tables with their fallbacks. */
module Shaping {
  import opened Wrappers
  import opened Text
  import opened Protocol
  import opened Dispatch
  import opened Submissions
  import opened Utils

  /** A file control: nothing chosen, or a chosen file with what reading (or saving) it gave;
      `None` when that failed. The file system is an oracle. */
  datatype Upload = NoFile | File(content: Option<string>)

  /** The images of a screen, as its loop over the file controls builds them: empty controls
      are skipped, each chosen file is read and encoded in turn, and a file that cannot be read
      raises. */
  function EncodeAll(files: seq<Upload>): (r: Result<seq<string>, ClientError>)
    ensures r.Err? <==> File(None) in files
    ensures r.Err? ==> r.error == IoError
    ensures r.Ok? ==> |r.value| <= |files|
    ensures r.Ok? && NoFile !in files ==> |r.value| == |files|
    ensures r.Ok? ==> forall i :: 0 <= i < |files| && files[i].File? ==> files[i].content.value in r.value
    ensures r.Ok? ==> forall d :: d in r.value ==> File(Some(d)) in files
  {
    if files == [] then Ok([])
    else
      var rest := EncodeAll(files[1..]);
      assert forall i :: 1 <= i < |files| ==> files[i] == files[1..][i - 1];
      match files[0]
      case NoFile => rest
      case File(None) => Err(IoError)
      case File(Some(d)) => if rest.Err? then rest else Ok([d] + rest.value)
  }

  /** Only the chosen files count: dropping an empty control changes nothing. */
  lemma {:induction false} EmptyControlSkipped(files: seq<Upload>, i: nat)
    requires i < |files| && files[i] == NoFile
    ensures EncodeAll(files) == EncodeAll(files[..i] + files[i + 1..])
  {
    if i == 0 {
      assert files[..0] + files[1..] == files[1..];
    } else {
      var rest := files[1..];
      assert rest[i - 1] == NoFile;
      EmptyControlSkipped(rest, i - 1);
      var shorter := files[..i] + files[i + 1..];
      assert shorter[0] == files[0];
      assert shorter[1..] == rest[..i - 1] + rest[i..];
      SameHeadSameImages(files, shorter);
    }
  }

  /** Two control lists with the same first control and the same images after it give the same
      images. */
  lemma SameHeadSameImages(a: seq<Upload>, b: seq<Upload>)
    requires a != [] && b != [] && a[0] == b[0] && EncodeAll(a[1..]) == EncodeAll(b[1..])
    ensures EncodeAll(a) == EncodeAll(b)
  {
  }

  /** `prompt if prompt.strip() else None`: a blank prompt is not sent, any other is sent as
      typed. */
  function OptionalPrompt(prompt: string): (r: Option<string>)
    ensures r.None? <==> IsBlank(prompt)
    ensures r.Some? ==> r.value == prompt
  {
    if IsBlank(prompt) then None else Some(prompt)
  }

  /** An optional prompt that is sent is never blank, so the client measures exactly those. */
  lemma OptionalPromptNeverBlank(prompt: string)
    ensures OptionalPrompt(prompt).Some? ==> Given(OptionalPrompt(prompt))
    ensures OptionalPromptOverLimit(OptionalPrompt(prompt)) <==> !IsBlank(prompt) && |prompt| > MaxPrompt
  {
    if !IsBlank(prompt) {
      assert prompt != [];
    }
  }

  /** `seed if seed != 0 else None`: zero asks the service for a random seed. */
  function SeedOrNone(seed: int): (r: Option<int>)
    ensures r.None? <==> seed == 0
    ensures r.Some? ==> r.value == seed
  {
    if seed == 0 then None else Some(seed)
  }

  /** The settings a video screen forwards: the seed unless zero, the chosen resolution, the
      movement label converted to its value, background music exactly when `有` was chosen, and
      no payload or callback. */
  function ScreenExtras(seed: int, resolution: string, movement: string, bgm: string): (x: VideoExtras)
    ensures x.seed == SeedOrNone(seed) && x.resolution == Some(resolution)
    ensures x.movementAmplitude.Some? && MovementValue(x.movementAmplitude.value)
    ensures x.bgm == Some(bgm == "有")
    ensures x.payload.None? && x.callbackUrl.None?
  {
    VideoExtras(SeedOrNone(seed), Some(resolution), Some(ConvertMovementAmplitude(movement)), Some(bgm == "有"), None, None)
  }

  /** What goes out from a video screen's settings: a seed field exactly for a non-zero seed,
      always the resolution, movement and music fields, never a payload or a callback, and the
      payload limit is never hit. */
  lemma ScreenExtrasSent(seed: int, resolution: string, movement: string, bgm: string)
    ensures SeedKey in ExtraFields(ScreenExtras(seed, resolution, movement, bgm)) <==> seed != 0
    ensures ResolutionKey in ExtraFields(ScreenExtras(seed, resolution, movement, bgm))
    ensures MovementAmplitudeKey in ExtraFields(ScreenExtras(seed, resolution, movement, bgm))
    ensures PayloadKey !in ExtraFields(ScreenExtras(seed, resolution, movement, bgm))
    ensures CallbackUrlKey !in ExtraFields(ScreenExtras(seed, resolution, movement, bgm))
    ensures ExtraFields(ScreenExtras(seed, resolution, movement, bgm))[BgmKey] == Bool(bgm == "有")
    ensures !PayloadOverLimit(ScreenExtras(seed, resolution, movement, bgm).payload)
  {
  }

  /** `int(duration)` on the chosen duration; a text `int` cannot read raises `ValueError`. */
  function ParseDuration(text: string): (r: Result<int, ClientError>)
    ensures r.Ok? <==> ParseInt(text).Some?
    ensures r.Ok? ==> r.value == ParseInt(text).value
    ensures r.Err? ==> r.error == ValueError(NotAnInteger(text))
  {
    match ParseInt(text)
    case None => Err(ValueError(NotAnInteger(text)))
    case Some(d) => Ok(d)
  }

  /** Every choice the duration drop-down offers for a known model reads as a duration. */
  lemma OfferedDurationsParse(model: string, i: nat)
    requires i < |UpdateDurationOptions(model)|
    ensures ParseDuration(UpdateDurationOptions(model)[i]).Ok?
  {
    var choice := UpdateDurationOptions(model)[i];
    if Durations.ParseModel(model).None? {
      assert UpdateDurationOptions(model) == ["4"];
      assert NatToString(4) == "4";
      ParseIntToString(4);
      assert ParseInt(choice).Some?;
    } else {
      DurationOptionsAccepted(model, i);
      assert ParseInt(choice).Some?;
    }
  }

  /** A resolution table as the screens write it: model, then duration, then the value. */
  type Table<T> = map<string, map<string, T>>

  /** `table.get(model, {}).get(duration, fallback)`. */
  function Lookup<T>(table: Table<T>, model: string, duration: string, fallback: T): (r: T)
    ensures model in table && duration in table[model] ==> r == table[model][duration]
    ensures !(model in table && duration in table[model]) ==> r == fallback
  {
    if model in table && duration in table[model] then table[model][duration] else fallback
  }

  /** The options offered when a table has no entry for the pair. */
  const AllResolutions: seq<string> := ["360p", "720p", "1080p"]

  /** The default picked when a table has no entry for the pair. */
  const FallbackResolution := "360p"

  /** An options table and a defaults table that list the same pairs, with each listed default
      among that pair's options. */
  predicate Agree(options: Table<seq<string>>, defaults: Table<string>) {
    && options.Keys == defaults.Keys
    && (forall m :: m in options ==> m in defaults && options[m].Keys == defaults[m].Keys)
    && (forall m, d :: m in defaults && d in defaults[m] ==>
          m in options && d in options[m] && defaults[m][d] in options[m][d])
  }

  /** One model's row of each table: the same durations, each default among its options. */
  predicate RowAgrees(options: map<string, seq<string>>, defaults: map<string, string>) {
    && options.Keys == defaults.Keys
    && forall d :: d in defaults ==> defaults[d] in options[d]
  }

  /** Two tables over the same models agree when every model's rows agree. */
  lemma AgreeByRows(options: Table<seq<string>>, defaults: Table<string>)
    requires options.Keys == defaults.Keys
    requires forall m :: m in options ==> RowAgrees(options[m], defaults[m])
    ensures Agree(options, defaults)
  {
  }

  /** When the tables agree, the default offered for any model and duration, listed or not, is
      one of the options offered for it. */
  lemma DefaultAmongOptions(options: Table<seq<string>>, defaults: Table<string>, model: string, duration: string)
    requires Agree(options, defaults)
    ensures Lookup(defaults, model, duration, FallbackResolution) in Lookup(options, model, duration, AllResolutions)
  {
    if model in defaults && duration in defaults[model] {
      assert defaults[model][duration] in options[model][duration];
    } else {
      assert !(model in options && duration in options[model]);
      assert FallbackResolution == AllResolutions[0];
    }
  }
}

=== FILE: start_end_to_video.dfy ===
/** The start-end-to-video screen: its resolution tables and `create_start_end_to_video_task`. */
module StartEndScreen {
  import opened Wrappers
  import opened Text
  import opened Protocol
  import opened Dispatch
  import opened Durations
  import opened Submissions
  import opened Utils
  import opened Tracking
  import opened Shaping

  /** `get_start_end_resolution_options`: unlike the image screen, viduq1-classic is listed. */
  const Options: Table<seq<string>> := map[
    "viduq1" := map["5" := ["1080p"]],
    "viduq1-classic" := map["5" := ["1080p"]],
    "vidu2.0" := map["4" := ["360p", "720p", "1080p"], "8" := ["720p"]],
    "vidu1.5" := map["4" := ["360p", "720p", "1080p"], "8" := ["720p"]]]

  /** `get_start_end_default_resolution`. */
  const Defaults: Table<string> := map[
    "viduq1" := map["5" := "1080p"],
    "viduq1-classic" := map["5" := "1080p"],
    "vidu2.0" := map["4" := "360p", "8" := "720p"],
    "vidu1.5" := map["4" := "360p", "8" := "720p"]]

  function ResolutionOptions(model: string, duration: string): (r: seq<string>)
    ensures r != [] && forall x :: x in r ==> x in AllResolutions
  {
    Lookup(Options, model, duration, AllResolutions)
  }

  function DefaultResolution(model: string, duration: string): (r: string)
    ensures r in AllResolutions
  {
    Lookup(Defaults, model, duration, FallbackResolution)
  }

  /** The two tables list the same pairs, each default among its options. */
  lemma TablesAgree()
    ensures Agree(Options, Defaults)
  {
    var q1, q1c, v20, v15 := "viduq1", "viduq1-classic", "vidu2.0", "vidu1.5";
    assert Options.Keys == Defaults.Keys == {q1, q1c, v20, v15};
    assert RowAgrees(Options[q1], Defaults[q1]);
    assert RowAgrees(Options[q1c], Defaults[q1c]);
    assert RowAgrees(Options[v20], Defaults[v20]);
    assert RowAgrees(Options[v15], Defaults[v15]);
    forall m | m in Options
      ensures RowAgrees(Options[m], Defaults[m])
    {
      assert m == q1 || m == q1c || m == v20 || m == v15;
    }
    AgreeByRows(Options, Defaults);
  }

  /** Whatever model and duration are chosen, the preselected resolution is offered. */
  lemma DefaultIsOffered(model: string, duration: string)
    ensures DefaultResolution(model, duration) in ResolutionOptions(model, duration)
  {
    TablesAgree();
    Shaping.DefaultAmongOptions(Options, Defaults, model, duration);
  }

  /** `create_start_end_to_video_task`: the file controls are read in turn; anything but
      exactly two images and a blank prompt are refused; the client gets both frames, the
      stripped prompt, the duration read by `int()` and the screen settings (no aspect ratio);
      the submission is then polled. */
  function Screen(model: string, files: seq<Upload>, prompt: string, duration: string, seed: int,
                  resolution: string, movement: string, bgm: string,
                  submitted: Option<Reply>, answers: seq<Option<Reply>>): (r: Report)
    ensures File(None) in files ==> r == Crashed(IoError)
    ensures EncodeAll(files).Ok? && |EncodeAll(files).value| != 2 ==> r == Refused(NeedTwoImages)
    ensures EncodeAll(files).Ok? && |EncodeAll(files).value| == 2 && IsBlank(prompt) ==> r == Refused(NoPrompt)
    ensures EncodeAll(files).Ok? && |EncodeAll(files).value| == 2 && !IsBlank(prompt) ==>
      r == Launch(Prepare(model, EncodeAll(files).value, prompt, duration, ScreenExtras(seed, resolution, movement, bgm)),
                  submitted, answers, VideoAndCover)
  {
    match EncodeAll(files)
    case Err(e) => Crashed(e)
    case Ok(images) =>
      if |images| != 2 then Refused(NeedTwoImages)
      else if IsBlank(prompt) then Refused(NoPrompt)
      else Launch(Prepare(model, images, prompt, duration, ScreenExtras(seed, resolution, movement, bgm)),
                  submitted, answers, VideoAndCover)
  }

  /** The client call the screen makes with both frames. */
  function Prepare(model: string, images: seq<string>, prompt: string, duration: string,
                   x: VideoExtras): (r: Result<Request, ClientError>)
    ensures ParseInt(duration).None? ==> r == Err(ValueError(NotAnInteger(duration)))
    ensures ParseInt(duration).Some? ==>
      r == StartEndToVideoRequest(model, images, Some(Strip(prompt)), ParseInt(duration), x)
  {
    match ParseDuration(duration)
    case Err(e) => Err(e)
    case Ok(d) => StartEndToVideoRequest(model, images, Some(Strip(prompt)), Some(d), x)
  }

  /** Once the screen's own checks pass, the client never objects to the image count, and it
      accepts the call exactly when the stripped prompt is at most 1500 characters and the
      duration is one the model takes; the prompt goes out stripped. */
  lemma PreparedRequest(model: string, images: seq<string>, prompt: string, duration: string,
                        seed: int, resolution: string, movement: string, bgm: string)
    requires |images| == 2 && !IsBlank(prompt) && ParseInt(duration).Some?
    ensures var r := Prepare(model, images, prompt, duration, ScreenExtras(seed, resolution, movement, bgm));
      && (r.Ok? <==> |Strip(prompt)| <= MaxPrompt && ValidateDuration(StartEndToVideo, model, ParseInt(duration)).Ok?)
      && r != Err(ValueError(ImageCount))
      && (r.Ok? ==> r.value.body[PromptKey] == Str(Strip(prompt)))
  {
    StripIdempotent(prompt);
    ScreenExtrasSent(seed, resolution, movement, bgm);
  }

  /** The screen is stricter than the client about the prompt: with two frames and a blank
      prompt the screen refuses, although the client would accept the same frames sent with no
      prompt at all. */
  lemma BlankPromptStricterThanClient(model: string, files: seq<Upload>, prompt: string, d: int, seed: int,
                                      resolution: string, movement: string, bgm: string,
                                      submitted: Option<Reply>, answers: seq<Option<Reply>>)
    requires EncodeAll(files).Ok? && |EncodeAll(files).value| == 2 && IsBlank(prompt)
    requires ValidateDuration(StartEndToVideo, model, Some(d)).Ok?
    ensures Screen(model, files, prompt, IntToString(d), seed, resolution, movement, bgm, submitted, answers) == Refused(NoPrompt)
    ensures StartEndToVideoRequest(model, EncodeAll(files).value, None, Some(d), ScreenExtras(seed, resolution, movement, bgm)).Ok?
  {
    ScreenExtrasSent(seed, resolution, movement, bgm);
  }

  /** The duration choices come from the image-to-video table, which for start-end agrees with
      the start-end table: every offered choice is accepted. */
  lemma OfferedDurationsAccepted(model: string, i: nat)
    requires ParseModel(model).Some? && i < |UpdateDurationOptions(model)|
    ensures ValidateDuration(StartEndToVideo, model, ParseInt(UpdateDurationOptions(model)[i])).Ok?
  {
    DurationOptionsAccepted(model, i);
    StartEndMatchesImage(model, ParseInt(UpdateDurationOptions(model)[i]));
  }
}

=== FILE: submissions.dfy ===
/** The eight submission methods of the client. Each runs its local checks in the source's
    order and either raises the first failure or builds the request it posts; `Dispatch.Call`
    then takes a built request to the network. */
module Submissions {
  import opened Wrappers
  import opened Text
  import opened Protocol
  import opened Dispatch
  import opened Durations

  const MaxPrompt := 1500
  const MaxPayload := 1048576
  const MaxReferenceImages := 7

  /** The optional settings every video submission forwards when they are given. */
  datatype VideoExtras = VideoExtras(
    seed: Option<int>,
    resolution: Option<string>,
    movementAmplitude: Option<string>,
    bgm: Option<bool>,
    payload: Option<string>,
    callbackUrl: Option<string>)

  /** A payload is only measured when it is non-empty. */
  predicate PayloadOverLimit(payload: Option<string>) {
    Given(payload) && |payload.value| > MaxPayload
  }

  /** An optional prompt is only measured when it is non-empty. */
  predicate OptionalPromptOverLimit(prompt: Option<string>) {
    Given(prompt) && |prompt.value| > MaxPrompt
  }

  /** The optional settings that were given, each under its wire key (`is not None`). */
  function ExtraFields(x: VideoExtras): (m: map<Field, Json>)
    ensures SeedKey in m <==> x.seed.Some?
    ensures ResolutionKey in m <==> x.resolution.Some?
    ensures MovementAmplitudeKey in m <==> x.movementAmplitude.Some?
    ensures BgmKey in m <==> x.bgm.Some?
    ensures PayloadKey in m <==> x.payload.Some?
    ensures CallbackUrlKey in m <==> x.callbackUrl.Some?
    ensures m.Keys <= {SeedKey, ResolutionKey, MovementAmplitudeKey, BgmKey, PayloadKey, CallbackUrlKey}
    ensures x.seed.Some? ==> m[SeedKey] == Int(x.seed.value)
    ensures x.resolution.Some? ==> m[ResolutionKey] == Str(x.resolution.value)
    ensures x.movementAmplitude.Some? ==> m[MovementAmplitudeKey] == Str(x.movementAmplitude.value)
    ensures x.bgm.Some? ==> m[BgmKey] == Bool(x.bgm.value)
    ensures x.payload.Some? ==> m[PayloadKey] == Str(x.payload.value)
    ensures x.callbackUrl.Some? ==> m[CallbackUrlKey] == Str(x.callbackUrl.value)
  {
    var b1 := Put(map[], SeedKey, IntOf(x.seed));
    var b2 := Put(b1, ResolutionKey, StrOf(x.resolution));
    var b3 := Put(b2, MovementAmplitudeKey, StrOf(x.movementAmplitude));
    var b4 := Put(b3, BgmKey, BoolOf(x.bgm));
    var b5 := Put(b4, PayloadKey, StrOf(x.payload));
    Put(b5, CallbackUrlKey, StrOf(x.callbackUrl))
  }

  /** The keys of the optional settings. */
  const ExtraKeys: set<Field> := {SeedKey, ResolutionKey, MovementAmplitudeKey, BgmKey, PayloadKey, CallbackUrlKey}

  /** Adding the optional settings to a body whose keys are all fixed fields keeps every fixed
      field as it was, and adds nothing else. */
  lemma ExtrasKeepBase(base: map<Field, Json>, fixed: set<Field>, x: VideoExtras)
    requires base.Keys <= fixed && fixed !! ExtraKeys
    ensures forall k :: k in base ==> k in base + ExtraFields(x) && (base + ExtraFields(x))[k] == base[k]
    ensures forall k :: k in ExtraFields(x) ==> k in base + ExtraFields(x) && (base + ExtraFields(x))[k] == ExtraFields(x)[k]
    ensures OnlyFields(base + ExtraFields(x), fixed, x)
  {
    var e := ExtraFields(x);
    forall k | k in base
      ensures (base + e)[k] == base[k]
    {
      assert k in fixed;
      assert k !in e;
    }
  }

  /** A base holding the model, the images and the duration, plus the optional settings, has
      every field a video body needs. */
  lemma VideoFieldsWithExtras(base: map<Field, Json>, fixed: set<Field>, model: string, images: seq<string>,
                              duration: int, x: VideoExtras)
    requires base.Keys <= fixed && fixed !! ExtraKeys
    requires ModelKey in base && base[ModelKey] == Str(model)
    requires ImagesKey in base && base[ImagesKey] == Arr(Strs(images))
    requires DurationKey in base && base[DurationKey] == Int(duration)
    ensures VideoFields(base + ExtraFields(x), model, images, duration, x)
    ensures OnlyFields(base + ExtraFields(x), fixed, x)
    ensures forall k :: k in fixed ==> (k in base + ExtraFields(x) <==> k in base)
    ensures forall k :: k in base ==> (base + ExtraFields(x))[k] == base[k]
  {
    ExtrasKeepBase(base, fixed, x);
  }

  /** The fixed part of a video body. */
  function VideoBase(model: string, images: seq<string>, duration: int): map<Field, Json> {
    map[ModelKey := Str(model), ImagesKey := Arr(Strs(images)), DurationKey := Int(duration)]
  }

  /** What every video body carries: the model, the images, the validated duration and every
      optional setting that was given. */
  predicate VideoFields(body: map<Field, Json>, model: string, images: seq<string>, duration: int, x: VideoExtras) {
    && ModelKey in body && body[ModelKey] == Str(model)
    && ImagesKey in body && body[ImagesKey] == Arr(Strs(images))
    && DurationKey in body && body[DurationKey] == Int(duration)
    && forall k :: k in ExtraFields(x) ==> k in body && body[k] == ExtraFields(x)[k]
  }

  /** The body holds nothing beyond the fields named in `fixed` and the given optional settings. */
  predicate OnlyFields(body: map<Field, Json>, fixed: set<Field>, x: VideoExtras) {
    forall k :: k in body ==> k in fixed || k in ExtraFields(x)
  }

  /** The body of an image-to-video or start-end-to-video request: the prompt is sent when it
      is given. */
  function FramesBody(model: string, images: seq<string>, prompt: Option<string>, duration: int, x: VideoExtras): (b: map<Field, Json>)
    ensures VideoFields(b, model, images, duration, x)
    ensures OnlyFields(b, {ModelKey, ImagesKey, DurationKey, PromptKey}, x)
    ensures PromptKey in b <==> prompt.Some?
    ensures prompt.Some? ==> b[PromptKey] == Str(prompt.value)
  {
    var base := Put(VideoBase(model, images, duration), PromptKey, StrOf(prompt));
    FramesFieldsWithExtras(base, model, images, prompt, duration, x);
    base + ExtraFields(x)
  }

  /** The image-to-video fields survive adding the optional settings. */
  lemma FramesFieldsWithExtras(base: map<Field, Json>, model: string, images: seq<string>, prompt: Option<string>,
                               duration: int, x: VideoExtras)
    requires base.Keys <= {ModelKey, ImagesKey, DurationKey, PromptKey}
    requires ModelKey in base && base[ModelKey] == Str(model)
    requires ImagesKey in base && base[ImagesKey] == Arr(Strs(images))
    requires DurationKey in base && base[DurationKey] == Int(duration)
    requires PromptKey in base <==> prompt.Some?
    requires prompt.Some? ==> base[PromptKey] == Str(prompt.value)
    ensures var b := base + ExtraFields(x);
      && VideoFields(b, model, images, duration, x)
      && OnlyFields(b, {ModelKey, ImagesKey, DurationKey, PromptKey}, x)
      && (PromptKey in b <==> prompt.Some?)
      && (prompt.Some? ==> b[PromptKey] == Str(prompt.value))
  {
    VideoFieldsWithExtras(base, {ModelKey, ImagesKey, DurationKey, PromptKey}, model, images, duration, x);
  }

  /** The body of a reference-to-video request: the prompt always, the aspect ratio when given. */
  function ReferenceBody(model: string, images: seq<string>, prompt: string, duration: int,
                         aspectRatio: Option<string>, x: VideoExtras): (b: map<Field, Json>)
    ensures VideoFields(b, model, images, duration, x)
    ensures OnlyFields(b, {ModelKey, ImagesKey, DurationKey, PromptKey, AspectRatioKey}, x)
    ensures PromptKey in b && b[PromptKey] == Str(prompt)
    ensures AspectRatioKey in b <==> aspectRatio.Some?
    ensures aspectRatio.Some? ==> b[AspectRatioKey] == Str(aspectRatio.value)
  {
    var base := Put(VideoBase(model, images, duration)[PromptKey := Str(prompt)], AspectRatioKey, StrOf(aspectRatio));
    ReferenceFieldsWithExtras(base, model, images, prompt, duration, aspectRatio, x);
    base + ExtraFields(x)
  }

  /** The reference-to-video fields survive adding the optional settings. */
  lemma ReferenceFieldsWithExtras(base: map<Field, Json>, model: string, images: seq<string>, prompt: string,
                                  duration: int, aspectRatio: Option<string>, x: VideoExtras)
    requires base.Keys <= {ModelKey, ImagesKey, DurationKey, PromptKey, AspectRatioKey}
    requires ModelKey in base && base[ModelKey] == Str(model)
    requires ImagesKey in base && base[ImagesKey] == Arr(Strs(images))
    requires DurationKey in base && base[DurationKey] == Int(duration)
    requires PromptKey in base && base[PromptKey] == Str(prompt)
    requires AspectRatioKey in base <==> aspectRatio.Some?
    requires aspectRatio.Some? ==> base[AspectRatioKey] == Str(aspectRatio.value)
    ensures var b := base + ExtraFields(x);
      && VideoFields(b, model, images, duration, x)
      && OnlyFields(b, {ModelKey, ImagesKey, DurationKey, PromptKey, AspectRatioKey}, x)
      && PromptKey in b && b[PromptKey] == Str(prompt)
      && (AspectRatioKey in b <==> aspectRatio.Some?)
      && (aspectRatio.Some? ==> b[AspectRatioKey] == Str(aspectRatio.value))
  {
    VideoFieldsWithExtras(base, {ModelKey, ImagesKey, DurationKey, PromptKey, AspectRatioKey}, model, images, duration, x);
  }

  /** The body of a text-to-video request: no images, a style and a prompt. */
  function TextVideoBody(model: string, style: string, prompt: string, duration: int,
                         aspectRatio: Option<string>, x: VideoExtras): (b: map<Field, Json>)
    ensures ModelKey in b && b[ModelKey] == Str(model)
    ensures StyleKey in b && b[StyleKey] == Str(style)
    ensures PromptKey in b && b[PromptKey] == Str(prompt)
    ensures DurationKey in b && b[DurationKey] == Int(duration)
    ensures ImagesKey !in b
    ensures AspectRatioKey in b <==> aspectRatio.Some?
    ensures aspectRatio.Some? ==> b[AspectRatioKey] == Str(aspectRatio.value)
    ensures forall k :: k in ExtraFields(x) ==> k in b && b[k] == ExtraFields(x)[k]
    ensures OnlyFields(b, {ModelKey, StyleKey, PromptKey, DurationKey, AspectRatioKey}, x)
  {
    var base := map[ModelKey := Str(model), StyleKey := Str(style), PromptKey := Str(prompt), DurationKey := Int(duration)];
    var withRatio := Put(base, AspectRatioKey, StrOf(aspectRatio));
    TextFieldsWithExtras(withRatio, model, style, prompt, duration, aspectRatio, x);
    withRatio + ExtraFields(x)
  }

  /** The text-to-video fields survive adding the optional settings. */
  lemma TextFieldsWithExtras(base: map<Field, Json>, model: string, style: string, prompt: string, duration: int,
                             aspectRatio: Option<string>, x: VideoExtras)
    requires base.Keys <= {ModelKey, StyleKey, PromptKey, DurationKey, AspectRatioKey}
    requires ModelKey in base && base[ModelKey] == Str(model)
    requires StyleKey in base && base[StyleKey] == Str(style)
    requires PromptKey in base && base[PromptKey] == Str(prompt)
    requires DurationKey in base && base[DurationKey] == Int(duration)
    requires AspectRatioKey in base <==> aspectRatio.Some?
    requires aspectRatio.Some? ==> base[AspectRatioKey] == Str(aspectRatio.value)
    ensures var b := base + ExtraFields(x);
      && ModelKey in b && b[ModelKey] == Str(model)
      && StyleKey in b && b[StyleKey] == Str(style)
      && PromptKey in b && b[PromptKey] == Str(prompt)
      && DurationKey in b && b[DurationKey] == Int(duration)
      && ImagesKey !in b
      && (AspectRatioKey in b <==> aspectRatio.Some?)
      && (aspectRatio.Some? ==> b[AspectRatioKey] == Str(aspectRatio.value))
      && (forall k :: k in ExtraFields(x) ==> k in b && b[k] == ExtraFields(x)[k])
      && OnlyFields(b, {ModelKey, StyleKey, PromptKey, DurationKey, AspectRatioKey}, x)
  {
    ExtrasKeepBase(base, {ModelKey, StyleKey, PromptKey, DurationKey, AspectRatioKey}, x);
  }

  /** `image_to_video`: exactly one image, an optional prompt of at most 1500 characters, an
      optional payload of at most 1048576, then the image-to-video duration check. */
  function ImageToVideoRequest(model: string, images: seq<string>, prompt: Option<string>,
                               duration: Option<int>, x: VideoExtras): (r: Result<Request, ClientError>)
    ensures |images| != 1 ==> r == Err(ValueError(ImageCount))
    ensures |images| == 1 && OptionalPromptOverLimit(prompt) ==> r == Err(ValueError(PromptTooLong))
    ensures |images| == 1 && !OptionalPromptOverLimit(prompt) && PayloadOverLimit(x.payload) ==>
      r == Err(ValueError(PayloadTooLong))
    ensures r.Ok? <==> (|images| == 1 && !OptionalPromptOverLimit(prompt) && !PayloadOverLimit(x.payload) &&
      ValidateDuration(ImageToVideo, model, duration).Ok?)
    ensures r.Err? && |images| == 1 && !OptionalPromptOverLimit(prompt) && !PayloadOverLimit(x.payload) ==>
      r == Err(ValidateDuration(ImageToVideo, model, duration).error)
    ensures r.Ok? ==>
      r.value == Request(Post, "/ent/v2/img2video",
                         FramesBody(model, images, prompt, ValidateDuration(ImageToVideo, model, duration).value, x))
  {
    if |images| != 1 then Err(ValueError(ImageCount))
    else if OptionalPromptOverLimit(prompt) then Err(ValueError(PromptTooLong))
    else if PayloadOverLimit(x.payload) then Err(ValueError(PayloadTooLong))
    else match ValidateDuration(ImageToVideo, model, duration)
      case Err(e) => Err(e)
      case Ok(d) =>
        Ok(Request(Post, "/ent/v2/img2video", FramesBody(model, images, prompt, d, x)))
  }

  /** `reference_to_video`: one to seven images, a prompt that is not blank and at most 1500
      characters, the payload limit, then the reference duration table. */
  function ReferenceToVideoRequest(model: string, images: seq<string>, prompt: string, duration: Option<int>,
                                   aspectRatio: Option<string>, x: VideoExtras): (r: Result<Request, ClientError>)
    ensures |images| < 1 || |images| > MaxReferenceImages ==> r == Err(ValueError(ImageCount))
    ensures 1 <= |images| <= MaxReferenceImages && IsBlank(prompt) ==> r == Err(ValueError(BlankPrompt))
    ensures 1 <= |images| <= MaxReferenceImages && !IsBlank(prompt) && |prompt| > MaxPrompt ==>
      r == Err(ValueError(PromptTooLong))
    ensures 1 <= |images| <= MaxReferenceImages && !IsBlank(prompt) && |prompt| <= MaxPrompt &&
            PayloadOverLimit(x.payload) ==>
      r == Err(ValueError(PayloadTooLong))
    ensures r.Ok? <==> (1 <= |images| <= MaxReferenceImages && !IsBlank(prompt) && |prompt| <= MaxPrompt &&
      !PayloadOverLimit(x.payload) && ValidateDuration(ReferenceToVideo, model, duration).Ok?)
    ensures r.Err? && 1 <= |images| <= MaxReferenceImages && !IsBlank(prompt) && |prompt| <= MaxPrompt &&
            !PayloadOverLimit(x.payload) ==>
      r == Err(ValidateDuration(ReferenceToVideo, model, duration).error)
    ensures r.Ok? ==>
      r.value == Request(Post, "/ent/v2/reference2video",
                         ReferenceBody(model, images, prompt, ValidateDuration(ReferenceToVideo, model, duration).value, aspectRatio, x))
  {
    if |images| < 1 || |images| > MaxReferenceImages then Err(ValueError(ImageCount))
    else if IsBlank(prompt) then Err(ValueError(BlankPrompt))
    else if |prompt| > MaxPrompt then Err(ValueError(PromptTooLong))
    else if PayloadOverLimit(x.payload) then Err(ValueError(PayloadTooLong))
    else match ValidateDuration(ReferenceToVideo, model, duration)
      case Err(e) => Err(e)
      case Ok(d) =>
        Ok(Request(Post, "/ent/v2/reference2video", ReferenceBody(model, images, prompt, d, aspectRatio, x)))
  }

  /** `start_end_to_video`: exactly two images (first and last frame); otherwise as
      image-to-video, with the start-end duration table. */
  function StartEndToVideoRequest(model: string, images: seq<string>, prompt: Option<string>,
                                  duration: Option<int>, x: VideoExtras): (r: Result<Request, ClientError>)
    ensures |images| != 2 ==> r == Err(ValueError(ImageCount))
    ensures |images| == 2 && OptionalPromptOverLimit(prompt) ==> r == Err(ValueError(PromptTooLong))
    ensures |images| == 2 && !OptionalPromptOverLimit(prompt) && PayloadOverLimit(x.payload) ==>
      r == Err(ValueError(PayloadTooLong))
    ensures r.Ok? <==> (|images| == 2 && !OptionalPromptOverLimit(prompt) && !PayloadOverLimit(x.payload) &&
      ValidateDuration(StartEndToVideo, model, duration).Ok?)
    ensures r.Err? && |images| == 2 && !OptionalPromptOverLimit(prompt) && !PayloadOverLimit(x.payload) ==>
      r == Err(ValidateDuration(StartEndToVideo, model, duration).error)
    ensures r.Ok? ==>
      r.value == Request(Post, "/ent/v2/start-end2video",
                         FramesBody(model, images, prompt, ValidateDuration(StartEndToVideo, model, duration).value, x))
  {
    if |images| != 2 then Err(ValueError(ImageCount))
    else if OptionalPromptOverLimit(prompt) then Err(ValueError(PromptTooLong))
    else if PayloadOverLimit(x.payload) then Err(ValueError(PayloadTooLong))
    else match ValidateDuration(StartEndToVideo, model, duration)
      case Err(e) => Err(e)
      case Ok(d) =>
        Ok(Request(Post, "/ent/v2/start-end2video", FramesBody(model, images, prompt, d, x)))
  }

  /** The styles text-to-video accepts. */
  predicate KnownStyle(style: string) {
    style == "general" || style == "anime"
  }

  /** `text_to_video`: a prompt that is not blank and at most 1500 characters, a known style,
      the payload limit, then the text-to-video duration table (which can fail the lookup). */
  function TextToVideoRequest(model: string, style: string, prompt: string, duration: Option<int>,
                              aspectRatio: Option<string>, x: VideoExtras): (r: Result<Request, ClientError>)
    ensures IsBlank(prompt) ==> r == Err(ValueError(BlankPrompt))
    ensures !IsBlank(prompt) && |prompt| > MaxPrompt ==> r == Err(ValueError(PromptTooLong))
    ensures !IsBlank(prompt) && |prompt| <= MaxPrompt && !KnownStyle(style) ==> r == Err(ValueError(BadStyle))
    ensures !IsBlank(prompt) && |prompt| <= MaxPrompt && KnownStyle(style) && PayloadOverLimit(x.payload) ==>
      r == Err(ValueError(PayloadTooLong))
    ensures r.Ok? <==> (!IsBlank(prompt) && |prompt| <= MaxPrompt && KnownStyle(style) &&
      !PayloadOverLimit(x.payload) && ValidateDuration(TextToVideo, model, duration).Ok?)
    ensures r.Err? && !IsBlank(prompt) && |prompt| <= MaxPrompt && KnownStyle(style) && !PayloadOverLimit(x.payload) ==>
      r == Err(ValidateDuration(TextToVideo, model, duration).error)
    ensures r.Ok? ==>
      r.value == Request(Post, "/ent/v2/text2video",
                         TextVideoBody(model, style, prompt, ValidateDuration(TextToVideo, model, duration).value, aspectRatio, x))
  {
    if IsBlank(prompt) then Err(ValueError(BlankPrompt))
    else if |prompt| > MaxPrompt then Err(ValueError(PromptTooLong))
    else if !KnownStyle(style) then Err(ValueError(BadStyle))
    else if PayloadOverLimit(x.payload) then Err(ValueError(PayloadTooLong))
    else match ValidateDuration(TextToVideo, model, duration)
      case Err(e) => Err(e)
      case Ok(d) =>
        Ok(Request(Post, "/ent/v2/text2video", TextVideoBody(model, style, prompt, d, aspectRatio, x)))
  }

  /** The target resolutions upscaling accepts. */
  predicate UpscaleResolution(res: string) {
    res == "1080p" || res == "2K" || res == "4K" || res == "8K"
  }

  /** Adds `key := v` only when `v` is a non-empty string (the `if x:` pattern). */
  function PutGiven(body: map<Field, Json>, key: Field, v: Option<string>): (r: map<Field, Json>)
    ensures Given(v) ==> r == body[key := Str(v.value)]
    ensures !Given(v) ==> r == body
  {
    if Given(v) then body[key := Str(v.value)] else body
  }

  /** `upscale_pro`: a video URL or a creation id must be given, a given resolution must be one
      of 1080p/2K/4K/8K, then the payload limit. The first three fields are sent only when
      non-empty. */
  function UpscaleProRequest(videoUrl: Option<string>, creationId: Option<string>, resolution: Option<string>,
                             payload: Option<string>, callbackUrl: Option<string>): (r: Result<Request, ClientError>)
    ensures !Given(videoUrl) && !Given(creationId) ==> r == Err(ValueError(NoVideoSource))
    ensures (Given(videoUrl) || Given(creationId)) && Given(resolution) && !UpscaleResolution(resolution.value) ==>
      r == Err(ValueError(BadUpscaleResolution))
    ensures ((Given(videoUrl) || Given(creationId)) && (!Given(resolution) || UpscaleResolution(resolution.value)) &&
             PayloadOverLimit(payload)) ==> r == Err(ValueError(PayloadTooLong))
    ensures r.Ok? <==> ((Given(videoUrl) || Given(creationId)) &&
      (!Given(resolution) || UpscaleResolution(resolution.value)) && !PayloadOverLimit(payload))
    ensures r.Ok? ==> r.value.verb == Post && r.value.endpoint == "/ent/v2/upscale-new"
    ensures r.Ok? ==> ((VideoUrlKey in r.value.body <==> Given(videoUrl)) &&
      (VideoCreationIdKey in r.value.body <==> Given(creationId)) &&
      (UpscaleResolutionKey in r.value.body <==> Given(resolution)) &&
      (PayloadKey in r.value.body <==> payload.Some?) &&
      (CallbackUrlKey in r.value.body <==> callbackUrl.Some?))
    ensures r.Ok? && Given(creationId) ==> r.value.body[VideoCreationIdKey] == Str(creationId.value)
    ensures r.Ok? ==> r.value.body == UpscaleBody(videoUrl, creationId, resolution, payload, callbackUrl)
  {
    if !Given(videoUrl) && !Given(creationId) then Err(ValueError(NoVideoSource))
    else if Given(resolution) && !UpscaleResolution(resolution.value) then Err(ValueError(BadUpscaleResolution))
    else if PayloadOverLimit(payload) then Err(ValueError(PayloadTooLong))
    else Ok(Request(Post, "/ent/v2/upscale-new", UpscaleBody(videoUrl, creationId, resolution, payload, callbackUrl)))
  }

  /** The upscale body: the video URL, creation id and resolution when non-empty, then the
      payload and callback when given, each with the value passed. */
  function UpscaleBody(videoUrl: Option<string>, creationId: Option<string>, resolution: Option<string>,
                       payload: Option<string>, callbackUrl: Option<string>): (b: map<Field, Json>)
    ensures VideoUrlKey in b <==> Given(videoUrl)
    ensures VideoCreationIdKey in b <==> Given(creationId)
    ensures UpscaleResolutionKey in b <==> Given(resolution)
    ensures PayloadKey in b <==> payload.Some?
    ensures CallbackUrlKey in b <==> callbackUrl.Some?
    ensures b.Keys <= {VideoUrlKey, VideoCreationIdKey, UpscaleResolutionKey, PayloadKey, CallbackUrlKey}
    ensures Given(videoUrl) ==> b[VideoUrlKey] == Str(videoUrl.value)
    ensures Given(creationId) ==> b[VideoCreationIdKey] == Str(creationId.value)
    ensures Given(resolution) ==> b[UpscaleResolutionKey] == Str(resolution.value)
    ensures payload.Some? ==> b[PayloadKey] == Str(payload.value)
    ensures callbackUrl.Some? ==> b[CallbackUrlKey] == Str(callbackUrl.value)
  {
    var b := PutGiven(PutGiven(PutGiven(map[], VideoUrlKey, videoUrl), VideoCreationIdKey, creationId),
                      UpscaleResolutionKey, resolution);
    Put(Put(b, PayloadKey, StrOf(payload)), CallbackUrlKey, StrOf(callbackUrl))
  }

  /** The arguments of `lip_sync`. */
  datatype LipSyncArgs = LipSyncArgs(
    videoUrl: Option<string>,
    audioUrl: Option<string>,
    text: Option<string>,
    speed: Option<real>,
    characterId: Option<string>,
    volume: Option<int>,
    language: Option<string>,
    payload: Option<string>,
    callbackUrl: Option<string>)

  /** The lip-sync checks, in order: a video URL; an audio URL or a text; a given text of 4 to
      2000 characters; a given speed in [0.5, 1.5]; a given volume in [0, 10]; the payload. */
  function LipSyncFault(a: LipSyncArgs): (r: Option<Invalid>)
    ensures r.None? <==> (Given(a.videoUrl) && (Given(a.audioUrl) || Given(a.text)) &&
      (Given(a.text) ==> 4 <= |a.text.value| <= 2000) &&
      (a.speed.Some? ==> 0.5 <= a.speed.value <= 1.5) &&
      (a.volume.Some? ==> 0 <= a.volume.value <= 10) &&
      !PayloadOverLimit(a.payload))
    ensures !Given(a.videoUrl) ==> r == Some(NoVideoUrl)
    ensures Given(a.videoUrl) && !Given(a.audioUrl) && !Given(a.text) ==> r == Some(NoDriveInput)
    ensures (Given(a.videoUrl) && (Given(a.audioUrl) || Given(a.text)) &&
             Given(a.text) && !(4 <= |a.text.value| <= 2000)) ==> r == Some(TextLength)
    ensures (Given(a.videoUrl) && (Given(a.audioUrl) || Given(a.text)) &&
             (Given(a.text) ==> 4 <= |a.text.value| <= 2000) &&
             a.speed.Some? && !(0.5 <= a.speed.value <= 1.5)) ==> r == Some(SpeedRange)
    ensures (Given(a.videoUrl) && (Given(a.audioUrl) || Given(a.text)) &&
             (Given(a.text) ==> 4 <= |a.text.value| <= 2000) &&
             (a.speed.Some? ==> 0.5 <= a.speed.value <= 1.5) &&
             a.volume.Some? && !(0 <= a.volume.value <= 10)) ==> r == Some(VolumeRange)
    ensures (Given(a.videoUrl) && (Given(a.audioUrl) || Given(a.text)) &&
             (Given(a.text) ==> 4 <= |a.text.value| <= 2000) &&
             (a.speed.Some? ==> 0.5 <= a.speed.value <= 1.5) &&
             (a.volume.Some? ==> 0 <= a.volume.value <= 10) &&
             PayloadOverLimit(a.payload)) ==> r == Some(PayloadTooLong)
  {
    if !Given(a.videoUrl) then Some(NoVideoUrl)
    else if !Given(a.audioUrl) && !Given(a.text) then Some(NoDriveInput)
    else if Given(a.text) && (|a.text.value| < 4 || |a.text.value| > 2000) then Some(TextLength)
    else if a.speed.Some? && (a.speed.value < 0.5 || a.speed.value > 1.5) then Some(SpeedRange)
    else if a.volume.Some? && (a.volume.value < 0 || a.volume.value > 10) then Some(VolumeRange)
    else if PayloadOverLimit(a.payload) then Some(PayloadTooLong)
    else None
  }

  /** The strings lip-sync sends only when they are non-empty. */
  function LipSyncTexts(a: LipSyncArgs): (b: map<Field, Json>)
    ensures AudioUrlKey in b <==> Given(a.audioUrl)
    ensures TextKey in b <==> Given(a.text)
    ensures CharacterIdKey in b <==> Given(a.characterId)
    ensures LanguageKey in b <==> Given(a.language)
    ensures b.Keys <= {AudioUrlKey, TextKey, CharacterIdKey, LanguageKey}
    ensures Given(a.audioUrl) ==> b[AudioUrlKey] == Str(a.audioUrl.value)
    ensures Given(a.text) ==> b[TextKey] == Str(a.text.value)
    ensures Given(a.characterId) ==> b[CharacterIdKey] == Str(a.characterId.value)
    ensures Given(a.language) ==> b[LanguageKey] == Str(a.language.value)
  {
    var b1 := PutGiven(map[], AudioUrlKey, a.audioUrl);
    var b2 := PutGiven(b1, TextKey, a.text);
    PutGiven(PutGiven(b2, CharacterIdKey, a.characterId), LanguageKey, a.language)
  }

  /** The settings lip-sync sends whenever they are given. */
  function LipSyncSettings(a: LipSyncArgs): (b: map<Field, Json>)
    ensures SpeedKey in b <==> a.speed.Some?
    ensures VolumeKey in b <==> a.volume.Some?
    ensures PayloadKey in b <==> a.payload.Some?
    ensures CallbackUrlKey in b <==> a.callbackUrl.Some?
    ensures b.Keys <= {SpeedKey, VolumeKey, PayloadKey, CallbackUrlKey}
    ensures a.speed.Some? ==> b[SpeedKey] == Real(a.speed.value)
    ensures a.volume.Some? ==> b[VolumeKey] == Int(a.volume.value)
    ensures a.payload.Some? ==> b[PayloadKey] == Str(a.payload.value)
    ensures a.callbackUrl.Some? ==> b[CallbackUrlKey] == Str(a.callbackUrl.value)
  {
    var b1 := Put(map[], SpeedKey, RealOf(a.speed));
    var b2 := Put(b1, VolumeKey, IntOf(a.volume));
    Put(Put(b2, PayloadKey, StrOf(a.payload)), CallbackUrlKey, StrOf(a.callbackUrl))
  }

  /** The lip-sync body: the video URL, the non-empty strings among audio URL, text, character
      id and language, and the speed, volume, payload and callback when given. */
  function LipSyncBody(videoUrl: string, a: LipSyncArgs): (b: map<Field, Json>)
    ensures VideoUrlKey in b && b[VideoUrlKey] == Str(videoUrl)
    ensures AudioUrlKey in b <==> Given(a.audioUrl)
    ensures TextKey in b <==> Given(a.text)
    ensures SpeedKey in b <==> a.speed.Some?
    ensures CharacterIdKey in b <==> Given(a.characterId)
    ensures VolumeKey in b <==> a.volume.Some?
    ensures LanguageKey in b <==> Given(a.language)
    ensures PayloadKey in b <==> a.payload.Some?
    ensures CallbackUrlKey in b <==> a.callbackUrl.Some?
    ensures b.Keys <= LipSyncKeys
    ensures Given(a.audioUrl) ==> b[AudioUrlKey] == Str(a.audioUrl.value)
    ensures Given(a.text) ==> b[TextKey] == Str(a.text.value)
    ensures Given(a.characterId) ==> b[CharacterIdKey] == Str(a.characterId.value)
    ensures Given(a.language) ==> b[LanguageKey] == Str(a.language.value)
    ensures a.speed.Some? ==> b[SpeedKey] == Real(a.speed.value)
    ensures a.volume.Some? ==> b[VolumeKey] == Int(a.volume.value)
    ensures a.payload.Some? ==> b[PayloadKey] == Str(a.payload.value)
    ensures a.callbackUrl.Some? ==> b[CallbackUrlKey] == Str(a.callbackUrl.value)
  {
    var texts := LipSyncTexts(a);
    var settings := LipSyncSettings(a);
    LipSyncParts(videoUrl, texts, settings);
    map[VideoUrlKey := Str(videoUrl)] + texts + settings
  }

  /** Every field a lip-sync body may carry. */
  const LipSyncKeys: set<Field> := {VideoUrlKey, AudioUrlKey, TextKey, SpeedKey, CharacterIdKey, VolumeKey,
                                    LanguageKey, PayloadKey, CallbackUrlKey}

  /** `b` has key `k` exactly when `part` does, with the same value. */
  predicate Carries(b: map<Field, Json>, part: map<Field, Json>, k: Field) {
    (k in b <==> k in part) && (k in part ==> b[k] == part[k])
  }

  /** The lip-sync parts cover disjoint keys, so the merged body keeps each part's values. */
  lemma LipSyncParts(videoUrl: string, texts: map<Field, Json>, settings: map<Field, Json>)
    requires texts.Keys <= {AudioUrlKey, TextKey, CharacterIdKey, LanguageKey}
    requires settings.Keys <= {SpeedKey, VolumeKey, PayloadKey, CallbackUrlKey}
    ensures var b := map[VideoUrlKey := Str(videoUrl)] + texts + settings;
      && VideoUrlKey in b && b[VideoUrlKey] == Str(videoUrl)
      && Carries(b, texts, AudioUrlKey) && Carries(b, texts, TextKey)
      && Carries(b, texts, CharacterIdKey) && Carries(b, texts, LanguageKey)
      && Carries(b, settings, SpeedKey) && Carries(b, settings, VolumeKey)
      && Carries(b, settings, PayloadKey) && Carries(b, settings, CallbackUrlKey)
      && b.Keys <= LipSyncKeys
  {
  }

  /** `lip_sync`: the checks above, then the lip-sync body. */
  function LipSyncRequest(a: LipSyncArgs): (r: Result<Request, ClientError>)
    ensures r.Err? <==> LipSyncFault(a).Some?
    ensures r.Err? ==> r.error == ValueError(LipSyncFault(a).value)
    ensures r.Ok? ==> a.videoUrl.Some? && r.value == Request(Post, "/ent/v2/lip-sync", LipSyncBody(a.videoUrl.value, a))
  {
    match LipSyncFault(a)
    case Some(why) => Err(ValueError(why))
    case None => Ok(Request(Post, "/ent/v2/lip-sync", LipSyncBody(a.videoUrl.value, a)))
  }

  /** The audio duration range shared by both audio operations. */
  predicate AudioDurationOutOfRange(duration: Option<real>) {
    duration.Some? && (duration.value < 2.0 || duration.value > 10.0)
  }

  /** An audio body: the model and the main field (`prompt` or `timing_prompts`), then the
      duration, seed, payload and callback when given. */
  function AudioBody(model: string, main: Field, value: Json, duration: Option<real>, seed: Option<int>,
                     payload: Option<string>, callbackUrl: Option<string>): (b: map<Field, Json>)
    requires main == PromptKey || main == TimingPromptsKey
    ensures ModelKey in b && b[ModelKey] == Str(model)
    ensures main in b && b[main] == value
    ensures DurationKey in b <==> duration.Some?
    ensures SeedKey in b <==> seed.Some?
    ensures PayloadKey in b <==> payload.Some?
    ensures CallbackUrlKey in b <==> callbackUrl.Some?
    ensures b.Keys <= {ModelKey, main, DurationKey, SeedKey, PayloadKey, CallbackUrlKey}
    ensures duration.Some? ==> b[DurationKey] == Real(duration.value)
    ensures seed.Some? ==> b[SeedKey] == Int(seed.value)
    ensures payload.Some? ==> b[PayloadKey] == Str(payload.value)
    ensures callbackUrl.Some? ==> b[CallbackUrlKey] == Str(callbackUrl.value)
  {
    var b1 := Put(map[ModelKey := Str(model), main := value], DurationKey, RealOf(duration));
    Put(Put(Put(b1, SeedKey, IntOf(seed)), PayloadKey, StrOf(payload)), CallbackUrlKey, StrOf(callbackUrl))
  }

  /** `text_to_audio`: a prompt that is not blank and at most 1500 characters, a given duration
      in [2, 10] seconds, the payload limit. */
  function TextToAudioRequest(model: string, prompt: string, duration: Option<real>, seed: Option<int>,
                              payload: Option<string>, callbackUrl: Option<string>): (r: Result<Request, ClientError>)
    ensures IsBlank(prompt) ==> r == Err(ValueError(BlankPrompt))
    ensures !IsBlank(prompt) && |prompt| > MaxPrompt ==> r == Err(ValueError(PromptTooLong))
    ensures !IsBlank(prompt) && |prompt| <= MaxPrompt && AudioDurationOutOfRange(duration) ==>
      r == Err(ValueError(DurationRange))
    ensures !IsBlank(prompt) && |prompt| <= MaxPrompt && !AudioDurationOutOfRange(duration) && PayloadOverLimit(payload) ==>
      r == Err(ValueError(PayloadTooLong))
    ensures r.Ok? <==> (!IsBlank(prompt) && |prompt| <= MaxPrompt && !AudioDurationOutOfRange(duration) &&
      !PayloadOverLimit(payload))
    ensures r.Ok? ==>
      r.value == Request(Post, "/ent/v2/text2audio", AudioBody(model, PromptKey, Str(prompt), duration, seed, payload, callbackUrl))
  {
    if IsBlank(prompt) then Err(ValueError(BlankPrompt))
    else if |prompt| > MaxPrompt then Err(ValueError(PromptTooLong))
    else if AudioDurationOutOfRange(duration) then Err(ValueError(DurationRange))
    else if PayloadOverLimit(payload) then Err(ValueError(PayloadTooLong))
    else
      Ok(Request(Post, "/ent/v2/text2audio", AudioBody(model, PromptKey, Str(prompt), duration, seed, payload, callbackUrl)))
  }

  /** Python's `duration or 10.0`: a missing or zero duration means ten seconds. */
  function TimeBound(duration: Option<real>): (b: real)
    ensures duration.Some? && duration.value != 0.0 ==> b == duration.value
    ensures !(duration.Some? && duration.value != 0.0) ==> b == 10.0
  {
    if duration.Some? && duration.value != 0.0 then duration.value else 10.0
  }

  /** What a timing event must be: an object with `from`, `to` and `prompt`, two numeric times
      with 0 <= from < to <= bound, and a prompt of at most 1500 (by `len`). */
  predicate WellTimed(e: Json, bound: real) {
    && e.Obj?
    && "from" in e.fields && "to" in e.fields && "prompt" in e.fields
    && Number(e.fields["from"]).Some? && Number(e.fields["to"]).Some? && Length(e.fields["prompt"]).Some?
    && 0.0 <= Number(e.fields["from"]).value < Number(e.fields["to"]).value <= bound
    && Length(e.fields["prompt"]).value <= MaxPrompt
  }

  /** The checks on one timing event, in the order the source runs them, with its 1-based
      `index`. A time or prompt of the wrong kind makes the comparison or `len` raise
      `TypeError`; `to` is not looked at when `from` is already negative. */
  function CheckEvent(e: Json, index: nat, bound: real): (r: Option<ClientError>)
    ensures r.Some? ==> r.value == TypeError || (r.value.ValueError? && AboutEvent(r.value.why, index))
    ensures !e.Obj? ==> r == Some(ValueError(EventNotObject(index)))
  {
    if !e.Obj? then Some(ValueError(EventNotObject(index)))
    else if "from" !in e.fields then Some(ValueError(EventMissing(index, "from")))
    else if "to" !in e.fields then Some(ValueError(EventMissing(index, "to")))
    else if "prompt" !in e.fields then Some(ValueError(EventMissing(index, "prompt")))
    else
      var from := Number(e.fields["from"]);
      if from.None? then Some(TypeError)
      else if from.value < 0.0 then Some(ValueError(EventOutOfRange(index)))
      else
        var to := Number(e.fields["to"]);
        if to.None? then Some(TypeError)
        else if to.value > bound then Some(ValueError(EventOutOfRange(index)))
        else if from.value >= to.value then Some(ValueError(EventNotOrdered(index)))
        else
          var n := Length(e.fields["prompt"]);
          if n.None? then Some(TypeError)
          else if n.value > MaxPrompt then Some(ValueError(EventPromptTooLong(index)))
          else None
  }

  /** The event checks accept exactly the well-timed events. */
  lemma CheckEventIffWellTimed(e: Json, index: nat, bound: real)
    ensures CheckEvent(e, index, bound).None? <==> WellTimed(e, bound)
  {
  }

  /** The first fault among `events`, numbering them from `start + 1`. */
  function FirstEventFault(events: seq<Json>, bound: real, start: nat): (r: Option<ClientError>)
    ensures r.None? <==> forall i :: 0 <= i < |events| ==> CheckEvent(events[i], start + i + 1, bound).None?
    ensures r.Some? ==> (exists i :: (0 <= i < |events| && r == CheckEvent(events[i], start + i + 1, bound) &&
      forall j :: 0 <= j < i ==> CheckEvent(events[j], start + j + 1, bound).None?))
  {
    var checks := seq(|events|, i requires 0 <= i < |events| => CheckEvent(events[i], start + i + 1, bound));
    assert forall i :: 0 <= i < |events| ==> checks[i] == CheckEvent(events[i], start + i + 1, bound);
    FirstFault(checks)
  }

  /** The first outcome in `rs` that is a fault, scanning from the front. */
  function FirstFault<E>(rs: seq<Option<E>>): (r: Option<E>)
    ensures r.None? <==> forall i :: 0 <= i < |rs| ==> rs[i].None?
    ensures r.Some? ==> exists i :: 0 <= i < |rs| && r == rs[i] && forall j :: 0 <= j < i ==> rs[j].None?
  {
    if rs == [] then None
    else if rs[0].Some? then rs[0]
    else
      var rest := FirstFault(rs[1..]);
      assert forall i :: 1 <= i < |rs| ==> rs[i] == rs[1..][i - 1];
      rest
  }

  /** The checks are per event: a list passes exactly when each event is well timed, so events
      may overlap or come in any order. */
  lemma EventsCheckedOneByOne(events: seq<Json>, bound: real)
    ensures FirstEventFault(events, bound, 0).None? <==> forall i :: 0 <= i < |events| ==> WellTimed(events[i], bound)
  {
    forall i | 0 <= i < |events| {
      CheckEventIffWellTimed(events[i], i + 1, bound);
    }
  }

  /** `timing_to_audio`: a non-empty event list, a given duration in [2, 10], each event well
      timed against `duration or 10.0` (the first fault wins), then the payload limit. */
  function TimingToAudioRequest(model: string, events: seq<Json>, duration: Option<real>, seed: Option<int>,
                                payload: Option<string>, callbackUrl: Option<string>): (r: Result<Request, ClientError>)
    ensures events == [] ==> r == Err(ValueError(NoEvents))
    ensures events != [] && AudioDurationOutOfRange(duration) ==> r == Err(ValueError(DurationRange))
    ensures events != [] && !AudioDurationOutOfRange(duration) && FirstEventFault(events, TimeBound(duration), 0).Some? ==>
      r == Err(FirstEventFault(events, TimeBound(duration), 0).value)
    ensures (events != [] && !AudioDurationOutOfRange(duration) && FirstEventFault(events, TimeBound(duration), 0).None? &&
             PayloadOverLimit(payload)) ==> r == Err(ValueError(PayloadTooLong))
    ensures r.Ok? <==> (events != [] && !AudioDurationOutOfRange(duration) &&
      (forall i :: 0 <= i < |events| ==> WellTimed(events[i], TimeBound(duration))) && !PayloadOverLimit(payload))
    ensures r.Ok? ==>
      r.value == Request(Post, "/ent/v2/timing2audio", AudioBody(model, TimingPromptsKey, Arr(events), duration, seed, payload, callbackUrl))
  {
    EventsCheckedOneByOne(events, TimeBound(duration));
    if events == [] then Err(ValueError(NoEvents))
    else if AudioDurationOutOfRange(duration) then Err(ValueError(DurationRange))
    else match FirstEventFault(events, TimeBound(duration), 0)
      case Some(e) => Err(e)
      case None =>
        if PayloadOverLimit(payload) then Err(ValueError(PayloadTooLong))
        else
          Ok(Request(Post, "/ent/v2/timing2audio", AudioBody(model, TimingPromptsKey, Arr(events), duration, seed, payload, callbackUrl)))
  }

  /** The checked duration is never zero, so `duration or 10.0` is the duration when one is
      given and ten seconds otherwise. */
  lemma TimeBoundOfCheckedDuration(duration: Option<real>)
    requires !AudioDurationOutOfRange(duration)
    ensures TimeBound(duration) == duration.GetOr(10.0)
    ensures 2.0 <= TimeBound(duration) <= 10.0
  {
  }

  /** A timing event with the given times and prompt. */
  function Event(from: real, to: real, prompt: string): Json {
    Obj(map["from" := Real(from), "to" := Real(to), "prompt" := Str(prompt)])
  }

  /** Two overlapping events (0-5 s and 2-8 s) pass the checks: nothing compares events with
      each other. */
  lemma OverlappingEventsAccepted()
    ensures TimingToAudioRequest("audio1.0", [Event(0.0, 5.0, "rain"), Event(2.0, 8.0, "thunder")],
                                 None, None, None, None).Ok?
  {
    var es := [Event(0.0, 5.0, "rain"), Event(2.0, 8.0, "thunder")];
    assert WellTimed(es[0], 10.0);
    assert WellTimed(es[1], 10.0);
  }
}

=== FILE: tasks.dfy ===
/** The life of a submitted task: the query and cancel requests, `wait_for_completion` as a
    walk over a finite trace of clock readings and query answers, and the accessors that read
    the creations of a finished task. */
module Tasks {
  import opened Wrappers
  import opened Text
  import opened Protocol
  import opened Dispatch

  /** `ViduTaskStatus`: the states a task reports, by wire name. */
  const Created := "created"
  const Queueing := "queueing"
  const Processing := "processing"
  const Success := "success"
  const Failed := "failed"

  /** The states after which a task does not change any more. */
  predicate IsTerminal(state: Option<string>) {
    state == Some(Success) || state == Some(Failed)
  }

  /** `ViduTask.is_success`. */
  predicate IsSuccess(state: Option<string>) {
    state == Some(Success)
  }

  /** `ViduTask.is_completed`: the same two states `wait_for_completion` stops at, and a
      successful task is a completed one. */
  lemma SuccessIsCompleted(state: Option<string>)
    ensures IsSuccess(state) ==> IsTerminal(state)
    ensures IsTerminal(state) <==> IsSuccess(state) || state == Some(Failed)
    ensures !IsTerminal(Some(Created)) && !IsTerminal(Some(Queueing)) && !IsTerminal(Some(Processing))
  {
  }

  const QueryPrefix := "/ent/v2/tasks/"
  const QuerySuffix := "/creations"

  /** `query_task`: a GET without a body on the task's creations endpoint. */
  function QueryTask(taskId: string): (r: Request)
    ensures r.verb == Get && r.body == map[]
    ensures StartsWith(r.endpoint, QueryPrefix) && |r.endpoint| == |QueryPrefix| + |taskId| + |QuerySuffix|
  {
    Request(Get, QueryPrefix + taskId + QuerySuffix, map[])
  }

  const CancelPrefix := "/ent/v2/task/"
  const CancelSuffix := "/cancel"

  /** `cancel_task`: a POST without a body on the task's cancel endpoint. */
  function CancelTask(taskId: string): (r: Request)
    ensures r.verb == Post && r.body == map[]
    ensures StartsWith(r.endpoint, CancelPrefix) && !StartsWith(r.endpoint, QueryPrefix)
    ensures |r.endpoint| == |CancelPrefix| + |taskId| + |CancelSuffix|
  {
    var e := CancelPrefix + taskId + CancelSuffix;
    assert e[12] == '/';
    Request(Post, e, map[])
  }

  /** The text an endpoint holds between `prefix` and `suffix`, or `None` when it does not
      start with the one and end with the other. */
  function Between(endpoint: string, prefix: string, suffix: string): (r: Option<string>)
    ensures r.Some? ==> StartsWith(endpoint, prefix)
    ensures r.Some? ==> |endpoint| == |prefix| + |r.value| + |suffix|
  {
    var n := |endpoint|;
    if n >= |prefix| + |suffix| && endpoint[..|prefix|] == prefix && endpoint[n - |suffix|..] == suffix
    then Some(endpoint[|prefix|..n - |suffix|])
    else None
  }

  /** Whatever lies between a prefix and a suffix is read back from their concatenation. */
  lemma BetweenRoundTrip(prefix: string, id: string, suffix: string)
    ensures Between(prefix + id + suffix, prefix, suffix) == Some(id)
  {
    var e := prefix + id + suffix;
    assert e[..|prefix|] == prefix;
    assert e[|e| - |suffix|..] == suffix;
    assert e[|prefix|..|e| - |suffix|] == id;
  }

  /** The task id named by a query endpoint, or `None` when the endpoint is not one. */
  function TaskOfQuery(endpoint: string): (r: Option<string>)
    ensures r.Some? ==> StartsWith(endpoint, QueryPrefix)
    ensures r.Some? ==> |endpoint| == |QueryPrefix| + |r.value| + |QuerySuffix|
  {
    Between(endpoint, QueryPrefix, QuerySuffix)
  }

  /** The query endpoint names its task: reading it back gives the id, so distinct tasks are
      queried at distinct endpoints. */
  lemma QueryNamesTask(taskId: string)
    ensures TaskOfQuery(QueryTask(taskId).endpoint) == Some(taskId)
  {
    BetweenRoundTrip(QueryPrefix, taskId, QuerySuffix);
  }

  /** The task id named by a cancel endpoint, or `None` when the endpoint is not one. */
  function TaskOfCancel(endpoint: string): (r: Option<string>)
    ensures r.Some? ==> StartsWith(endpoint, CancelPrefix)
    ensures r.Some? ==> |endpoint| == |CancelPrefix| + |r.value| + |CancelSuffix|
  {
    Between(endpoint, CancelPrefix, CancelSuffix)
  }

  /** The cancel endpoint names its task: reading it back gives the id, so distinct tasks are
      cancelled at distinct endpoints. */
  lemma CancelNamesTask(taskId: string)
    ensures TaskOfCancel(CancelTask(taskId).endpoint) == Some(taskId)
  {
    BetweenRoundTrip(CancelPrefix, taskId, CancelSuffix);
  }

  /** One step of the waiting loop: how much time had passed at the deadline check, and the
      answer to the query sent after it (unused when the check fails). */
  datatype Poll = Poll(elapsed: real, answer: Option<Reply>)

  /** How `wait_for_completion` ends after `queries` queries: with the terminal task info, or
      with what it raised; `Unsettled` when the trace ends while the task is still running. */
  datatype Waited =
    | Settled(info: Reply, queries: nat)
    | Raised(error: ClientError, queries: nat)
    | Unsettled

  /** A step after which the loop goes round again: within the deadline, answered, and not
      terminal. */
  predicate Continues(timeout: real, p: Poll) {
    p.elapsed <= timeout && MakeRequest(p.answer).Ok? && !IsTerminal(MakeRequest(p.answer).value.state)
  }

  /** The waiting loop from step `k` of the trace: the deadline check (strictly later than
      `timeout`), then a query whose failure propagates, then a stop on the first terminal
      state; every other state, unknown ones included, means another round. */
  function WaitFrom(taskId: string, timeout: real, trace: seq<Poll>, k: nat): (w: Waited)
    decreases |trace| - k
    ensures w.Unsettled? <==> forall j :: k <= j < |trace| ==> Continues(timeout, trace[j])
  {
    if k >= |trace| then Unsettled
    else if trace[k].elapsed > timeout then Raised(TimeoutError(taskId), k)
    else match MakeRequest(trace[k].answer)
      case Err(e) => Raised(e, k + 1)
      case Ok(info) =>
        if IsTerminal(info.state) then Settled(info, k + 1)
        else WaitFrom(taskId, timeout, trace, k + 1)
  }

  /** How the loop from step `k` ends: settled on the first terminal state, raised by the
      first failed query, or timed out at the first step past the deadline, every earlier
      step having sent it round again. */
  lemma {:induction false} WaitFromOutcome(taskId: string, timeout: real, trace: seq<Poll>, k: nat)
    ensures var w := WaitFrom(taskId, timeout, trace, k);
      w.Settled? ==> (k < w.queries <= |trace| &&
        (forall j :: k <= j < w.queries - 1 ==> Continues(timeout, trace[j])) &&
        trace[w.queries - 1].elapsed <= timeout &&
        MakeRequest(trace[w.queries - 1].answer) == Ok(w.info) && IsTerminal(w.info.state))
    ensures var w := WaitFrom(taskId, timeout, trace, k);
      w.Raised? && w.error.TimeoutError? ==> (w.error == TimeoutError(taskId) &&
        k <= w.queries < |trace| &&
        (forall j :: k <= j < w.queries ==> Continues(timeout, trace[j])) &&
        trace[w.queries].elapsed > timeout)
    ensures var w := WaitFrom(taskId, timeout, trace, k);
      w.Raised? && !w.error.TimeoutError? ==> (k < w.queries <= |trace| &&
        (forall j :: k <= j < w.queries - 1 ==> Continues(timeout, trace[j])) &&
        trace[w.queries - 1].elapsed <= timeout &&
        MakeRequest(trace[w.queries - 1].answer) == Err(w.error))
    decreases |trace| - k
  {
    if k < |trace| && Continues(timeout, trace[k]) {
      WaitFromOutcome(taskId, timeout, trace, k + 1);
    }
  }

  /** `wait_for_completion(task_id, timeout)` over a trace of steps. */
  function Wait(taskId: string, timeout: real, trace: seq<Poll>): (w: Waited)
    ensures w.Settled? ==> IsTerminal(w.info.state) && w.queries >= 1
  {
    WaitFromOutcome(taskId, timeout, trace, 0);
    WaitFrom(taskId, timeout, trace, 0)
  }

  /** The deadline is checked before the query, not instead of it: when the first check
      passes, at least one query is sent before the loop can end. */
  lemma QueriesAtLeastOnce(taskId: string, timeout: real, trace: seq<Poll>)
    requires trace != [] && trace[0].elapsed <= timeout
    ensures Wait(taskId, timeout, trace).Unsettled? || Wait(taskId, timeout, trace).queries >= 1
  {
    WaitFromOutcome(taskId, timeout, trace, 0);
  }

  /** Any non-terminal state, including one the client has no name for, sends the loop round
      again with nothing else changed. */
  lemma KeepsWaitingOnOtherStates(taskId: string, timeout: real, trace: seq<Poll>, k: nat, info: Reply)
    requires k < |trace| && trace[k].elapsed <= timeout
    requires MakeRequest(trace[k].answer) == Ok(info) && !IsTerminal(info.state)
    ensures WaitFrom(taskId, timeout, trace, k) == WaitFrom(taskId, timeout, trace, k + 1)
  {
  }

  /** Once the loop has ended, later steps make no difference: it returns the first terminal
      info (or the first error) however the trace goes on. */
  lemma WaitIgnoresLaterSteps(taskId: string, timeout: real, trace: seq<Poll>, more: seq<Poll>, k: nat)
    requires !WaitFrom(taskId, timeout, trace, k).Unsettled?
    ensures WaitFrom(taskId, timeout, trace + more, k) == WaitFrom(taskId, timeout, trace, k)
  {
    var longer := trace + more;
    assert forall j :: 0 <= j < |trace| ==> longer[j] == trace[j];
    WaitSamePrefix(taskId, timeout, trace, longer, k);
  }

  /** The loop run on a longer trace with the same first steps ends as it ends on those steps. */
  lemma {:induction false} WaitSamePrefix(taskId: string, timeout: real, trace: seq<Poll>, longer: seq<Poll>, k: nat)
    requires |trace| <= |longer| && forall j :: 0 <= j < |trace| ==> longer[j] == trace[j]
    requires !WaitFrom(taskId, timeout, trace, k).Unsettled?
    ensures WaitFrom(taskId, timeout, longer, k) == WaitFrom(taskId, timeout, trace, k)
    decreases |trace| - k
  {
    assert k < |trace|;
    if Continues(timeout, trace[k]) {
      WaitSamePrefix(taskId, timeout, trace, longer, k + 1);
    }
  }

  /** `get_creations`: the `creations` list of a successful task (empty when absent), and
      nothing for a task in any other state. */
  function GetCreations(info: Reply): (r: seq<Creation>)
    ensures r != [] ==> IsSuccess(info.state)
    ensures IsSuccess(info.state) ==> r == info.creations.GetOr([])
  {
    if IsSuccess(info.state) then info.creations.GetOr([]) else []
  }

  /** `get_video_url`: the `url` of the first creation of a successful task. */
  function VideoUrl(info: Reply): (r: Option<string>)
    ensures r.Some? ==> IsSuccess(info.state) && GetCreations(info) != [] && r == GetCreations(info)[0].url
    ensures GetCreations(info) != [] ==> r == GetCreations(info)[0].url
  {
    var cs := GetCreations(info);
    if cs != [] then cs[0].url else None
  }

  /** `get_audio_url`, which reads the same field as `get_video_url`. */
  function AudioUrl(info: Reply): (r: Option<string>)
    ensures r.Some? ==> IsSuccess(info.state) && GetCreations(info) != [] && r == GetCreations(info)[0].url
    ensures GetCreations(info) != [] ==> r == GetCreations(info)[0].url
  {
    var cs := GetCreations(info);
    if cs != [] then cs[0].url else None
  }

  /** `get_cover_url`: the `cover_url` of the first creation of a successful task. */
  function CoverUrl(info: Reply): (r: Option<string>)
    ensures r.Some? ==> IsSuccess(info.state) && GetCreations(info) != [] && r == GetCreations(info)[0].coverUrl
    ensures GetCreations(info) != [] ==> r == GetCreations(info)[0].coverUrl
  {
    var cs := GetCreations(info);
    if cs != [] then cs[0].coverUrl else None
  }

  /** An audio task's link is found exactly where a video task's is, and a task that did not
      succeed shows no link at all, whatever its `creations` hold. */
  lemma AccessorsAgree(info: Reply)
    ensures AudioUrl(info) == VideoUrl(info)
    ensures !IsSuccess(info.state) ==> VideoUrl(info).None? && CoverUrl(info).None? && GetCreations(info) == []
  {
  }

  /** `ViduTask.video_url`, `cover_url` and `creations` check for success before asking the
      client. */
  function TaskVideoUrl(info: Reply): Option<string> {
    if IsSuccess(info.state) then VideoUrl(info) else None
  }

  function TaskCoverUrl(info: Reply): Option<string> {
    if IsSuccess(info.state) then CoverUrl(info) else None
  }

  function TaskCreations(info: Reply): seq<Creation> {
    if IsSuccess(info.state) then GetCreations(info) else []
  }

  /** The task's own success check repeats the one inside the client, so the wrapper's
      accessors always agree with the client's. */
  lemma TaskAccessorsMatchClient(info: Reply)
    ensures TaskVideoUrl(info) == VideoUrl(info)
    ensures TaskCoverUrl(info) == CoverUrl(info)
    ensures TaskCreations(info) == GetCreations(info)
  {
  }
}

=== FILE: text.dfy ===
/** The handful of Python `str` operations the client relies on, over code points
    (Dafny's `char` is a Unicode scalar value, as Python's `str` element is). */
module Text {
  import opened Wrappers

  /** Python's `str.isspace()`: the characters `str.strip()` removes by default. */
  predicate IsSpace(c: char) {
    c == ' ' || '\t' <= c <= '\r' || '\U{1C}' <= c <= '\U{1F}' || c == '\U{85}' || c == '\U{A0}'
    || c == '\U{1680}' || '\U{2000}' <= c <= '\U{200A}' || c == '\U{2028}' || c == '\U{2029}'
    || c == '\U{202F}' || c == '\U{205F}' || c == '\U{3000}'
  }

  /** `s.lstrip()`: drops the leading whitespace and nothing else. */
  function TrimStart(s: string): (r: string)
    ensures |r| <= |s| && r == s[|s| - |r|..]
    ensures forall i :: 0 <= i < |s| - |r| ==> IsSpace(s[i])
    ensures r != [] ==> !IsSpace(r[0])
  {
    if s != [] && IsSpace(s[0]) then
      var r := TrimStart(s[1..]);
      assert forall i :: 1 <= i < |s| ==> s[i] == s[1..][i - 1];
      r
    else s
  }

  /** `s.rstrip()`: drops the trailing whitespace and nothing else. */
  function TrimEnd(s: string): (r: string)
    ensures |r| <= |s| && r == s[..|r|]
    ensures forall i :: |r| <= i < |s| ==> IsSpace(s[i])
    ensures r != [] ==> !IsSpace(r[|r| - 1])
  {
    if s != [] && IsSpace(s[|s| - 1]) then
      var r := TrimEnd(s[..|s| - 1]);
      assert forall i :: 0 <= i < |s| - 1 ==> s[i] == s[..|s| - 1][i];
      r
    else s
  }

  /** The first `i` characters of `s` are whitespace. */
  predicate SpaceBefore(s: string, i: int)
    decreases i
  {
    i <= 0 || (i <= |s| && IsSpace(s[i - 1]) && SpaceBefore(s, i - 1))
  }

  /** The characters of `s` from position `j` on are whitespace. */
  predicate SpaceFrom(s: string, j: int)
    decreases |s| - j
  {
    j >= |s| || (0 <= j && IsSpace(s[j]) && SpaceFrom(s, j + 1))
  }

  /** `SpaceBefore` is whitespace at every position before `i`. */
  lemma {:induction false} SpaceBeforeAt(s: string, i: nat)
    requires i <= |s|
    ensures SpaceBefore(s, i) <==> forall k :: 0 <= k < i ==> IsSpace(s[k])
  {
    if i > 0 {
      SpaceBeforeAt(s, i - 1);
    }
  }

  /** `SpaceFrom` is whitespace at every position from `j` on. */
  lemma {:induction false} SpaceFromAt(s: string, j: nat)
    requires j <= |s|
    ensures SpaceFrom(s, j) <==> forall k :: j <= k < |s| ==> IsSpace(s[k])
    decreases |s| - j
  {
    if j < |s| {
      SpaceFromAt(s, j + 1);
    }
  }

  /** `s` is `r` with whitespace before it (the first `i` characters) and whitespace after it. */
  predicate PaddedAt(s: string, r: string, i: int) {
    && 0 <= i <= |s| - |r| && r == s[i..i + |r|]
    && SpaceBefore(s, i) && SpaceFrom(s, i + |r|)
  }

  /** `s.strip()`: no longer than `s`, and no whitespace at its own ends; `StripSlice` shows
      that it is the slice of `s` left once the whitespace around it is cut. */
  function Strip(s: string): (r: string)
    ensures |r| <= |s|
    ensures r != [] ==> !IsSpace(r[0]) && !IsSpace(r[|r| - 1])
  {
    TrimEnd(TrimStart(s))
  }

  /** `s.strip()` is a slice of `s` with whitespace only before and after it. With the clean
      ends `Strip` ensures, this leaves one possible result. */
  lemma StripSlice(s: string)
    ensures exists i :: PaddedAt(s, Strip(s), i)
  {
    var t := TrimStart(s);
    var r := TrimEnd(t);
    var i := |s| - |t|;
    assert r == s[i..i + |r|];
    SpaceBeforeAt(s, i);
    SpaceFromAt(s, i + |r|);
    assert forall k :: i + |r| <= k < |s| ==> s[k] == t[k - i];
    assert Strip(s) == r;
    assert PaddedAt(s, Strip(s), i);
  }

  /** Python's `not s.strip()`. */
  predicate IsBlank(s: string) {
    Strip(s) == []
  }

  /** A string is blank exactly when every character of it is whitespace. */
  lemma BlankIffAllSpace(s: string)
    ensures IsBlank(s) <==> forall i :: 0 <= i < |s| ==> IsSpace(s[i])
  {
    var t := TrimStart(s);
    if Strip(s) != [] {
      assert !IsSpace(s[|s| - |t|]);
    }
  }

  /** Stripping a string with no whitespace at either end leaves it unchanged. */
  lemma StripClean(s: string)
    requires s != [] ==> !IsSpace(s[0]) && !IsSpace(s[|s| - 1])
    ensures Strip(s) == s
  {
  }

  /** Stripping twice is stripping once. */
  lemma StripIdempotent(s: string)
    ensures Strip(Strip(s)) == Strip(s)
  {
    StripClean(Strip(s));
  }

  /** Stripping removes characters and adds none. */
  lemma StripKeepsOut(s: string, c: char)
    requires c !in s
    ensures c !in Strip(s)
  {
    var a := TrimStart(s);
    assert forall x :: x in a ==> x in s;
    var b := TrimEnd(a);
    assert forall x :: x in b ==> x in a;
  }

  /** `s.startswith(p)`. */
  predicate StartsWith(s: string, p: string) {
    |p| <= |s| && s[..|p|] == p
  }

  /** `s.split(c)[0]`: the text before the first `c`, or all of `s` when there is none. */
  function BeforeFirst(s: string, c: char): (r: string)
    ensures |r| <= |s| && r == s[..|r|]
    ensures c !in r
    ensures |r| < |s| ==> s[|r|] == c
  {
    if s == [] then [] else if s[0] == c then [] else [s[0]] + BeforeFirst(s[1..], c)
  }

  /** `s.split(c, 1)[1]` when `c in s`: the text after the first `c`. */
  function AfterFirst(s: string, c: char): (r: string)
    requires c in s
    ensures s == BeforeFirst(s, c) + [c] + r
  {
    var k := |BeforeFirst(s, c)|;
    assert k < |s| by {
      assert BeforeFirst(s, c) == s[..k];
    }
    assert s == s[..k] + [c] + s[k + 1..];
    s[k + 1..]
  }

  /** `s.split(c)[-1]`: the text after the last `c`, or all of `s` when there is none. */
  function AfterLast(s: string, c: char): (r: string)
    ensures |r| <= |s| && r == s[|s| - |r|..]
    ensures c !in r
    ensures |r| < |s| ==> s[|s| - |r| - 1] == c
  {
    if s == [] then []
    else if s[|s| - 1] == c then []
    else AfterLast(s[..|s| - 1], c) + [s[|s| - 1]]
  }

  /** Cutting a string with no `c` at its first `c` leaves all of it. */
  lemma BeforeFirstAbsent(s: string, c: char)
    requires c !in s
    ensures BeforeFirst(s, c) == s
  {
  }

  /** The text after the last `c` of `p + [c] + q` is `q`, when `q` has no `c`. */
  lemma AfterLastSplit(p: string, c: char, q: string)
    requires c !in q
    ensures AfterLast(p + [c] + q, c) == q
  {
    var s := p + [c] + q;
    assert s[|s| - |q| - 1] == c;
    assert |AfterLast(s, c)| == |q|;
    assert s[|s| - |q|..] == q;
  }

  /** Cutting at the last `a` first and then at the last `b` is cutting at the last `b`, as
      long as a `b` comes after the last `a`. */
  lemma {:induction false} AfterLastNested(s: string, a: char, b: char)
    requires b in AfterLast(s, a)
    ensures AfterLast(AfterLast(s, a), b) == AfterLast(s, b)
  {
    var n := |s|;
    var x := s[n - 1];
    var init := s[..n - 1];
    assert s == init + [x];
    AfterLastSnoc(init, x, a);
    AfterLastSnoc(init, x, b);
    var u := AfterLast(init, a);
    if x != b {
      AfterLastSnoc(u, x, b);
      AfterLastNested(init, a, b);
    }
  }

  /** Appending one character: it either is the separator, leaving nothing after it, or it
      extends the text after the last separator. */
  lemma AfterLastSnoc(p: string, x: char, c: char)
    ensures AfterLast(p + [x], c) == if x == c then [] else AfterLast(p, c) + [x]
  {
    assert (p + [x])[..|p|] == p;
  }

  /** The decimal digits of `n`, as Python's `str(n)` writes a non-negative int. */
  function NatToString(n: nat): (r: string)
    ensures r != []
    ensures forall i :: 0 <= i < |r| ==> '0' <= r[i] <= '9'
  {
    var d := [(n % 10) as char + '0'];
    if n < 10 then d else NatToString(n / 10) + d
  }

  /** The value of a string of decimal digits; `None` when it is empty or holds anything else. */
  function ParseNat(s: string): (r: Option<nat>)
    ensures r.Some? <==> s != [] && forall i :: 0 <= i < |s| ==> '0' <= s[i] <= '9'
  {
    if s == [] || !('0' <= s[|s| - 1] <= '9') then None
    else if |s| == 1 then Some((s[0] - '0') as nat)
    else match ParseNat(s[..|s| - 1])
      case None => None
      case Some(v) => Some(10 * v + (s[|s| - 1] - '0') as nat)
  }

  /** Reading back what `NatToString` writes gives the number again. */
  lemma {:induction false} ParseNatToString(n: nat)
    ensures ParseNat(NatToString(n)) == Some(n)
  {
    var r := n % 10;
    var d := [r as char + '0'];
    assert (d[0] - '0') as nat == r;
    if n >= 10 {
      var q := n / 10;
      var p := NatToString(q);
      ParseNatToString(q);
      var s := p + d;
      assert s == NatToString(n);
      assert s[..|s| - 1] == p && s[|s| - 1] == d[0];
      assert n == 10 * q + r;
    }
  }

  /** Python's `int(s)` on a string: surrounding whitespace, an optional sign, then decimal
      digits; `None` where `int` raises `ValueError`. */
  function ParseInt(s: string): (r: Option<int>)
    ensures r.Some? ==> Strip(s) != []
    ensures Strip(s) != [] && '0' <= Strip(s)[0] <= '9' ==>
      r == (match ParseNat(Strip(s)) case Some(n) => Some(n as int) case None => None)
    ensures Strip(s) != [] && Strip(s)[0] == '+' ==>
      r == (match ParseNat(Strip(s)[1..]) case Some(n) => Some(n as int) case None => None)
    ensures Strip(s) != [] && Strip(s)[0] == '-' ==>
      r == (match ParseNat(Strip(s)[1..]) case Some(n) => Some(-(n as int)) case None => None)
    ensures Strip(s) != [] && !('0' <= Strip(s)[0] <= '9') && Strip(s)[0] != '+' && Strip(s)[0] != '-' ==> r.None?
  {
    ReadNumeral(Strip(s))
  }

  /** The number a stripped string spells: an optional sign, then decimal digits. */
  function ReadNumeral(t: string): (r: Option<int>)
    ensures r.Some? ==> t != []
    ensures t != [] && '0' <= t[0] <= '9' ==>
      r == (match ParseNat(t) case Some(n) => Some(n as int) case None => None)
    ensures t != [] && t[0] == '+' ==>
      r == (match ParseNat(t[1..]) case Some(n) => Some(n as int) case None => None)
    ensures t != [] && t[0] == '-' ==>
      r == (match ParseNat(t[1..]) case Some(n) => Some(-(n as int)) case None => None)
    ensures t != [] && !('0' <= t[0] <= '9') && t[0] != '+' && t[0] != '-' ==> r.None?
  {
    if t != [] && (t[0] == '-' || t[0] == '+') then
      match ParseNat(t[1..])
      case Some(n) => var v: int := if t[0] == '-' then -(n as int) else n; Some(v)
      case None => None
    else
      match ParseNat(t)
      case Some(n) => Some(n)
      case None => None
  }

  /** `int(str(n))` gives `n` back. */
  lemma ParseIntToString(n: nat)
    ensures ParseInt(NatToString(n)) == Some(n)
  {
    StripClean(NatToString(n));
    ParseNatToString(n);
  }

  /** A leading minus sign negates the number read. */
  lemma ParseIntNegative(n: nat)
    ensures ParseInt("-" + NatToString(n)) == Some(-(n as int))
  {
    ParseNatToString(n);
    MinusDigits(NatToString(n), n);
  }

  /** A minus sign before a string of digits is read as the negated digits. */
  lemma MinusDigits(d: string, n: nat)
    requires ParseNat(d) == Some(n)
    ensures ParseInt("-" + d) == Some(-(n as int))
  {
    var s := "-" + d;
    assert !IsSpace(s[0]);
    assert s[|s| - 1] == d[|d| - 1] && !IsSpace(d[|d| - 1]);
    StripClean(s);
    assert s[1..] == d;
  }

  /** Python's `str()` of an int: a minus sign for negative numbers, then the digits; `int()`
      reads it back. */
  function IntToString(i: int): (r: string)
    ensures ParseInt(r) == Some(i)
  {
    if i < 0 then
      var n: nat := -i;
      ParseIntNegative(n);
      "-" + NatToString(n)
    else
      var n: nat := i;
      ParseIntToString(n);
      NatToString(n)
  }

  /** Blanks around the digits are ignored, as `int(" 5 ")` is 5. */
  lemma ParseIntPadded(n: nat)
    ensures ParseInt(" " + NatToString(n) + " ") == Some(n)
  {
    ParseNatToString(n);
    PaddedDigits(NatToString(n), n);
  }

  /** One space on each side of a string of digits is stripped before it is read. */
  lemma PaddedDigits(d: string, n: nat)
    requires ParseNat(d) == Some(n)
    ensures ParseInt(" " + d + " ") == Some(n)
  {
    StripPadded(d);
    ReadAfterStrip(" " + d + " ", n);
  }

  /** One space on each side of a string of digits is what `strip()` removes. */
  lemma StripPadded(d: string)
    requires d != [] && '0' <= d[0] <= '9' && '0' <= d[|d| - 1] <= '9'
    ensures Strip(" " + d + " ") == d
  {
    var t := d + " ";
    var s := " " + d + " ";
    assert TrimStart(s) == t by {
      assert s[0] == ' ' && s[1..] == t;
      DigitNotSpace(d[0]);
      assert t[0] == d[0];
    }
    assert TrimEnd(t) == d by {
      assert t[|t| - 1] == ' ' && t[..|t| - 1] == d;
      DigitNotSpace(d[|d| - 1]);
    }
  }

  /** A string that strips to unsigned digits is read as their value. */
  lemma ReadAfterStrip(s: string, n: nat)
    requires ParseNat(Strip(s)) == Some(n)
    ensures ParseInt(s) == Some(n)
  {
    var t := Strip(s);
    assert '0' <= t[0] <= '9';
  }

  /** No decimal digit is whitespace. */
  lemma DigitNotSpace(c: char)
    requires '0' <= c <= '9'
    ensures !IsSpace(c)
  {
  }
}

=== FILE: text_to_audio.dfy ===
/** The text-to-audio screen: `create_text_to_audio_task`. */
module TextAudioScreen {
  import opened Wrappers
  import opened Text
  import opened Protocol
  import opened Dispatch
  import opened Submissions
  import opened Tracking
  import opened Shaping

  /** The screen's duration range, in seconds. */
  const MinSeconds := 2.0
  const MaxSeconds := 10.0

  /** `create_text_to_audio_task`: a blank prompt and a duration outside [2, 10] are refused;
      the client gets the stripped prompt, the duration and the seed unless zero; the poll
      loop then shows the audio link. */
  function Screen(model: string, prompt: string, duration: real, seed: int,
                  submitted: Option<Reply>, answers: seq<Option<Reply>>): (r: Report)
    ensures IsBlank(prompt) ==> r == Refused(NoPrompt)
    ensures !IsBlank(prompt) && (duration < MinSeconds || duration > MaxSeconds) ==> r == Refused(BadAudioDuration)
    ensures r.Refused? <==> IsBlank(prompt) || duration < MinSeconds || duration > MaxSeconds
    ensures !r.Refused? ==>
      r == Launch(TextToAudioRequest(model, Strip(prompt), Some(duration), SeedOrNone(seed), None, None),
                  submitted, answers, AudioOnly)
  {
    if IsBlank(prompt) then Refused(NoPrompt)
    else if duration < MinSeconds || duration > MaxSeconds then Refused(BadAudioDuration)
    else Launch(TextToAudioRequest(model, Strip(prompt), Some(duration), SeedOrNone(seed), None, None),
                submitted, answers, AudioOnly)
  }

  /** After the screen's checks, the client objects only to a stripped prompt over 1500
      characters; what it sends carries the stripped prompt, the duration and a seed field
      exactly for a non-zero seed. */
  lemma ScreenCheckedPromptAccepted(model: string, prompt: string, duration: real, seed: int)
    requires !IsBlank(prompt) && MinSeconds <= duration <= MaxSeconds
    ensures var r := TextToAudioRequest(model, Strip(prompt), Some(duration), SeedOrNone(seed), None, None);
      && (r.Ok? <==> |Strip(prompt)| <= MaxPrompt)
      && (r.Err? ==> r.error == ValueError(PromptTooLong))
      && (r.Ok? ==> r.value.body[PromptKey] == Str(Strip(prompt)) && r.value.body[DurationKey] == Real(duration) &&
                    (SeedKey in r.value.body <==> seed != 0))
  {
    StripIdempotent(prompt);
  }
}

=== FILE: text_to_video.dfy ===
/** The text-to-video screen: its resolution tables, the style names and
    `create_text_to_video_task`. */
module TextVideoScreen {
  import opened Wrappers
  import opened Text
  import opened Protocol
  import opened Dispatch
  import opened Durations
  import opened Submissions
  import opened Utils
  import opened Tracking
  import opened Shaping

  /** `get_text_to_video_resolution_options`: only the two models this screen offers. */
  const Options: Table<seq<string>> := map[
    "viduq1" := map["5" := ["1080p"]],
    "vidu1.5" := map["4" := ["360p", "720p", "1080p"], "8" := ["720p"]]]

  /** `get_text_to_video_default_resolution`. */
  const Defaults: Table<string> := map[
    "viduq1" := map["5" := "1080p"],
    "vidu1.5" := map["4" := "360p", "8" := "720p"]]

  /** The models the screen's drop-down lists. */
  const OfferedModels: seq<string> := ["viduq1", "vidu1.5"]

  function ResolutionOptions(model: string, duration: string): (r: seq<string>)
    ensures r != [] && forall x :: x in r ==> x in AllResolutions
  {
    Lookup(Options, model, duration, AllResolutions)
  }

  function DefaultResolution(model: string, duration: string): (r: string)
    ensures r in AllResolutions
  {
    Lookup(Defaults, model, duration, FallbackResolution)
  }

  /** The two tables list the same pairs, each default among its options. */
  lemma TablesAgree()
    ensures Agree(Options, Defaults)
  {
    var q1, v15 := "viduq1", "vidu1.5";
    assert Options.Keys == Defaults.Keys == {q1, v15};
    assert RowAgrees(Options[q1], Defaults[q1]);
    assert RowAgrees(Options[v15], Defaults[v15]);
    forall m | m in Options
      ensures RowAgrees(Options[m], Defaults[m])
    {
      assert m == q1 || m == v15;
    }
    AgreeByRows(Options, Defaults);
  }

  /** Whatever model and duration are chosen, the preselected resolution is offered. */
  lemma DefaultIsOffered(model: string, duration: string)
    ensures DefaultResolution(model, duration) in ResolutionOptions(model, duration)
  {
    TablesAgree();
    Shaping.DefaultAmongOptions(Options, Defaults, model, duration);
  }

  /** `style_map.get(style, "general")`: the two screen names to the wire styles, anything
      else to `general`. */
  function StyleValue(style: string): (v: string)
    ensures KnownStyle(v)
    ensures v == "anime" <==> style == "动漫风格"
  {
    if style == "通用风格" then "general"
    else if style == "动漫风格" then "anime"
    else "general"
  }

  /** `create_text_to_video_task`: a blank prompt is refused; the client gets the mapped
      style, the stripped prompt, the duration read by `int()`, the aspect ratio and the screen
      settings; the submission is then polled. */
  function Screen(model: string, style: string, prompt: string, duration: string, seed: int,
                  aspectRatio: string, resolution: string, movement: string, bgm: string,
                  submitted: Option<Reply>, answers: seq<Option<Reply>>): (r: Report)
    ensures IsBlank(prompt) ==> r == Refused(NoPrompt)
    ensures !IsBlank(prompt) ==>
      r == Launch(Prepare(model, style, prompt, duration, aspectRatio, ScreenExtras(seed, resolution, movement, bgm)),
                  submitted, answers, VideoAndCover)
  {
    if IsBlank(prompt) then Refused(NoPrompt)
    else Launch(Prepare(model, style, prompt, duration, aspectRatio, ScreenExtras(seed, resolution, movement, bgm)),
                submitted, answers, VideoAndCover)
  }

  /** The client call the screen makes. */
  function Prepare(model: string, style: string, prompt: string, duration: string, aspectRatio: string,
                   x: VideoExtras): (r: Result<Request, ClientError>)
    ensures ParseInt(duration).None? ==> r == Err(ValueError(NotAnInteger(duration)))
    ensures ParseInt(duration).Some? ==>
      r == TextToVideoRequest(model, StyleValue(style), Strip(prompt), ParseInt(duration), Some(aspectRatio), x)
  {
    match ParseDuration(duration)
    case Err(e) => Err(e)
    case Ok(d) => TextToVideoRequest(model, StyleValue(style), Strip(prompt), Some(d), Some(aspectRatio), x)
  }

  /** Once the prompt is not blank, the client never objects to the prompt being blank or to
      the style, and it accepts the call exactly when the stripped prompt is at most 1500
      characters and the text-to-video table takes the duration. */
  lemma PreparedRequest(model: string, style: string, prompt: string, duration: string, aspectRatio: string,
                        seed: int, resolution: string, movement: string, bgm: string)
    requires !IsBlank(prompt) && ParseInt(duration).Some?
    ensures var r := Prepare(model, style, prompt, duration, aspectRatio, ScreenExtras(seed, resolution, movement, bgm));
      && (r.Ok? <==> |Strip(prompt)| <= MaxPrompt && ValidateDuration(TextToVideo, model, ParseInt(duration)).Ok?)
      && r != Err(ValueError(BlankPrompt)) && r != Err(ValueError(BadStyle))
      && (r.Ok? ==> r.value.body[PromptKey] == Str(Strip(prompt)) && r.value.body[StyleKey] == Str(StyleValue(style)))
  {
    StripIdempotent(prompt);
    ScreenExtrasSent(seed, resolution, movement, bgm);
  }

  /** For the two models the drop-down lists, every duration choice offered is accepted by the
      text-to-video check. */
  lemma OfferedDurationsAccepted(model: string, i: nat)
    requires model in OfferedModels && i < |UpdateDurationOptions(model)|
    ensures ValidateDuration(TextToVideo, model, ParseInt(UpdateDurationOptions(model)[i])).Ok?
  {
    var m := if model == "viduq1" then ViduQ1 else Vidu15;
    ParseModelRoundTrip(m);
    DurationOptionsAccepted(model, i);
    TextMatchesImageWhereListed(model, ParseInt(UpdateDurationOptions(model)[i]));
  }

  /** A model name outside the text-to-video table (vidu2.0 or viduq1-classic) gets past the
      screen's checks and then crashes the duration lookup with `KeyError`, whatever duration
      is chosen. */
  lemma UnlistedModelCrashes(m: Model, style: string, prompt: string, d: int, seed: int,
                             aspectRatio: string, resolution: string, movement: string, bgm: string,
                             submitted: Option<Reply>, answers: seq<Option<Reply>>)
    requires m == Vidu20 || m == ViduQ1Classic
    requires !IsBlank(prompt) && |Strip(prompt)| <= MaxPrompt
    ensures Screen(m.Wire(), style, prompt, IntToString(d), seed, aspectRatio, resolution, movement, bgm, submitted, answers) ==
      Crashed(KeyError(m.Wire()))
  {
    var x := ScreenExtras(seed, resolution, movement, bgm);
    ScreenExtrasSent(seed, resolution, movement, bgm);
    UnlistedModelRefused(m, style, prompt, d, aspectRatio, x);
  }

  /** The client call the screen prepares for such a model fails with the lookup's `KeyError`. */
  lemma UnlistedModelRefused(m: Model, style: string, prompt: string, d: int, aspectRatio: string, x: VideoExtras)
    requires m == Vidu20 || m == ViduQ1Classic
    requires !IsBlank(prompt) && |Strip(prompt)| <= MaxPrompt && !PayloadOverLimit(x.payload)
    ensures Prepare(m.Wire(), style, prompt, IntToString(d), aspectRatio, x) == Err(KeyError(m.Wire()))
  {
    StripIdempotent(prompt);
    TextToVideoLookupGap(m, d);
  }
}

=== FILE: timing_to_audio.dfy ===
/** The timing-to-audio screen: `create_timing_to_audio_task`. What `json.loads` makes of the
    typed text is an oracle: `None` when the text is not JSON. */
module TimingScreen {
  import opened Wrappers
  import opened Text
  import opened Protocol
  import opened Dispatch
  import opened Submissions
  import opened Tracking
  import opened Shaping

  /** The screen's duration range, in seconds. */
  const MinSeconds := 2.0
  const MaxSeconds := 10.0

  /** The screen's checks, in order: some JSON text; a duration in [2, 10]; text that decodes
      to a JSON array; then each event in turn, against the chosen duration. A fault the
      checks report is a refusal; a time or prompt of the wrong kind raises. Otherwise the
      events, as decoded, are what the client gets. */
  function Gather(text: string, duration: real, parsed: Option<Json>): (r: Result<seq<Json>, Report>)
    ensures IsBlank(text) ==> r == Err(Refused(NoTimingInput))
    ensures !IsBlank(text) && (duration < MinSeconds || duration > MaxSeconds) ==> r == Err(Refused(BadAudioDuration))
    ensures !IsBlank(text) && MinSeconds <= duration <= MaxSeconds && parsed.None? ==> r == Err(Refused(TimingNotJson))
    ensures !IsBlank(text) && MinSeconds <= duration <= MaxSeconds && parsed.Some? && !parsed.value.Arr? ==>
      r == Err(Refused(TimingNotArray))
    ensures r.Ok? <==> (!IsBlank(text) && MinSeconds <= duration <= MaxSeconds && parsed.Some? && parsed.value.Arr? &&
      forall i :: 0 <= i < |parsed.value.items| ==> WellTimed(parsed.value.items[i], duration))
    ensures r.Ok? ==> r.value == parsed.value.items
    ensures r.Err? && r.error.Refused? && r.error.why.BadEvent? ==>
      (parsed.Some? && parsed.value.Arr? && var why := r.error.why.why;
       && (why.EventNotObject? || why.EventMissing? || why.EventOutOfRange? || why.EventNotOrdered? || why.EventPromptTooLong?)
       && 1 <= why.index <= |parsed.value.items|)
  {
    if IsBlank(text) then Err(Refused(NoTimingInput))
    else if duration < MinSeconds || duration > MaxSeconds then Err(Refused(BadAudioDuration))
    else if parsed.None? then Err(Refused(TimingNotJson))
    else if !parsed.value.Arr? then Err(Refused(TimingNotArray))
    else
      var items := parsed.value.items;
      EventsCheckedOneByOne(items, duration);
      match FirstEventFault(items, duration, 0)
      case Some(e) => if e.ValueError? then Err(Refused(BadEvent(e.why))) else Err(Crashed(e))
      case None => Ok(items)
  }

  /** `create_timing_to_audio_task`: the screen's checks, then the client call with the chosen
      duration and the seed unless zero, then the poll loop, which shows the audio link. */
  function Screen(model: string, duration: real, text: string, parsed: Option<Json>, seed: int,
                  submitted: Option<Reply>, answers: seq<Option<Reply>>): (r: Report)
    ensures Gather(text, duration, parsed).Err? ==> r == Gather(text, duration, parsed).error
    ensures Gather(text, duration, parsed).Ok? ==>
      r == Launch(TimingToAudioRequest(model, Gather(text, duration, parsed).value, Some(duration), SeedOrNone(seed), None, None),
                  submitted, answers, AudioOnly)
  {
    match Gather(text, duration, parsed)
    case Err(report) => report
    case Ok(events) =>
      Launch(TimingToAudioRequest(model, events, Some(duration), SeedOrNone(seed), None, None), submitted, answers, AudioOnly)
  }

  /** The screen runs the client's event checks itself, against the same bound, so a
      non-empty list it lets through the client accepts, with the events and duration as
      chosen. */
  lemma ScreenCheckedEventsAccepted(model: string, duration: real, text: string, parsed: Option<Json>, seed: int)
    requires Gather(text, duration, parsed).Ok? && Gather(text, duration, parsed).value != []
    ensures var r := TimingToAudioRequest(model, Gather(text, duration, parsed).value, Some(duration), SeedOrNone(seed), None, None);
      && r.Ok?
      && r.value.body[TimingPromptsKey] == Arr(parsed.value.items)
      && r.value.body[DurationKey] == Real(duration)
  {
    TimeBoundOfCheckedDuration(Some(duration));
  }

  /** The screen has no check for an empty list: `[]` reaches the client, which refuses it. */
  lemma EmptyListReachesClient(model: string, duration: real, text: string, seed: int,
                               submitted: Option<Reply>, answers: seq<Option<Reply>>)
    requires !IsBlank(text) && MinSeconds <= duration <= MaxSeconds
    ensures Screen(model, duration, text, Some(Arr([])), seed, submitted, answers) == Crashed(ValueError(NoEvents))
  {
  }

  /** An event whose time is not a number gets past the screen's own event checks by raising:
      the report is the `TypeError`, not a refusal. */
  lemma NonNumericTimeRaises(duration: real, text: string, prompt: string)
    requires !IsBlank(text) && MinSeconds <= duration <= MaxSeconds
    ensures var e := Obj(map["from" := Str("0"), "to" := Real(1.0), "prompt" := Str(prompt)]);
      Gather(text, duration, Some(Arr([e]))) == Err(Crashed(TypeError))
  {
    var e := Obj(map["from" := Str("0"), "to" := Real(1.0), "prompt" := Str(prompt)]);
    assert CheckEvent(e, 1, duration) == Some(TypeError);
  }
}

=== FILE: tracking.dfy ===
/** What the eight feature screens share once their arguments are shaped: the submission,
    the poll loop over `query_task` with its four-way classification of states, and the
    report each screen renders. The rendering itself (HTML) is left out; a report keeps the
    facts the text is made from. */
module Tracking {
  import opened Wrappers
  import opened Text
  import opened Protocol
  import opened ErrorCodes
  import opened Dispatch
  import opened Tasks

  /** How a screen reads a polled state: finished, failed, still running (one of the three
      known in-flight states), or anything else. */
  datatype Phase = Finished | Broken | Running | Unrecognised

  function Classify(state: Option<string>): (p: Phase)
    ensures p == Finished <==> IsSuccess(state)
    ensures p == Broken <==> state == Some(Tasks.Failed)
    ensures p == Running <==> state in {Some(Tasks.Created), Some(Tasks.Queueing), Some(Tasks.Processing)}
  {
    if state == Some(Tasks.Success) then Finished
    else if state == Some(Tasks.Failed) then Broken
    else if state == Some(Tasks.Created) || state == Some(Tasks.Queueing) || state == Some(Tasks.Processing) then Running
    else Unrecognised
  }

  /** The screens stop on exactly the states `wait_for_completion` stops on, and also on any
      state they do not know, where `wait_for_completion` keeps polling. */
  lemma ClassifyAgainstWait(state: Option<string>)
    ensures Classify(state) in {Finished, Broken} <==> IsTerminal(state)
    ensures Classify(state) == Unrecognised ==> !IsTerminal(state)
    ensures Classify(state) == Running ==> !IsTerminal(state)
  {
  }

  /** A download link a screen lists. */
  datatype Link = VideoLink(url: string) | CoverLink(url: string) | AudioLink(url: string)

  /** Which links a screen lists for a finished task: video and cover links of every creation
      (the four video screens), video links only (lip-sync and upscaling), or the single audio
      link (the two audio screens). */
  datatype LinkStyle = VideoAndCover | VideoOnly | AudioOnly

  /** The links of the creations, in order: the non-empty `url` of each, followed by its
      non-empty `cover_url` when covers are listed. */
  function CreationLinks(cs: seq<Creation>, covers: bool): (r: seq<Link>)
    ensures |r| <= 2 * |cs|
    ensures !covers ==> forall l :: l in r ==> l.VideoLink?
    ensures forall l :: l in r ==> !l.AudioLink?
  {
    if cs == [] then []
    else
      var c := cs[0];
      (if Given(c.url) then [VideoLink(c.url.value)] else []) +
      (if covers && Given(c.coverUrl) then [CoverLink(c.coverUrl.value)] else []) +
      CreationLinks(cs[1..], covers)
  }

  /** Every listed video link is the `url` of one of the creations. */
  lemma {:induction false} VideoLinksComeFromCreations(cs: seq<Creation>, covers: bool, l: Link)
    requires l in CreationLinks(cs, covers) && l.VideoLink?
    ensures exists i :: 0 <= i < |cs| && cs[i].url == Some(l.url)
  {
    var c := cs[0];
    var head := (if Given(c.url) then [VideoLink(c.url.value)] else []) +
                (if covers && Given(c.coverUrl) then [CoverLink(c.coverUrl.value)] else []);
    assert CreationLinks(cs, covers) == head + CreationLinks(cs[1..], covers);
    if l !in head {
      VideoLinksComeFromCreations(cs[1..], covers, l);
      var i :| 0 <= i < |cs[1..]| && cs[1..][i].url == Some(l.url);
      assert cs[i + 1] == cs[1..][i];
    }
  }

  /** The links of one creation: its video link when it has a non-empty `url`, then its cover
      link when covers are listed and it has a non-empty `cover_url`. */
  lemma OneCreationLinks(c: Creation, covers: bool)
    ensures CreationLinks([c], covers) ==
      (if Given(c.url) then [VideoLink(c.url.value)] else []) +
      (if covers && Given(c.coverUrl) then [CoverLink(c.coverUrl.value)] else [])
  {
    assert [c][1..] == [];
  }

  /** The links of two runs of creations are the links of the first run, then those of the
      second: the listing keeps the order of the creations. */
  lemma {:induction false} CreationLinksAppend(a: seq<Creation>, b: seq<Creation>, covers: bool)
    ensures CreationLinks(a + b, covers) == CreationLinks(a, covers) + CreationLinks(b, covers)
  {
    if a == [] {
      assert a + b == b;
    } else {
      assert (a + b)[0] == a[0];
      assert (a + b)[1..] == a[1..] + b;
      CreationLinksAppend(a[1..], b, covers);
    }
  }

  /** Conversely to `VideoLinksComeFromCreations`, every creation's non-empty `url` is listed,
      and so is its non-empty `cover_url` when covers are listed. */
  lemma CreationLinksListed(cs: seq<Creation>, covers: bool, i: nat)
    requires i < |cs|
    ensures Given(cs[i].url) ==> VideoLink(cs[i].url.value) in CreationLinks(cs, covers)
    ensures covers && Given(cs[i].coverUrl) ==> CoverLink(cs[i].coverUrl.value) in CreationLinks(cs, covers)
  {
    assert cs == cs[..i] + [cs[i]] + cs[i + 1..];
    CreationLinksAppend(cs[..i] + [cs[i]], cs[i + 1..], covers);
    CreationLinksAppend(cs[..i], [cs[i]], covers);
    OneCreationLinks(cs[i], covers);
  }

  function Links(info: Reply, style: LinkStyle): seq<Link> {
    match style
    case VideoAndCover => CreationLinks(GetCreations(info), true)
    case VideoOnly => CreationLinks(GetCreations(info), false)
    case AudioOnly => if Given(AudioUrl(info)) then [AudioLink(AudioUrl(info).value)] else []
  }

  /** How the poll loop of a screen ended. */
  datatype Outcome =
    | Completed(links: seq<Link>)
    | TaskFailed(message: string)
    | UnknownState(state: Option<string>)
    | StillRunning

  /** The message shown for a failed task: `err_code` (defaulting to `未知错误`) through the
      error table. */
  const MissingErrCode := "未知错误"

  function FailureMessage(info: Reply): string {
    GetErrorMessage(info.errCode.GetOr(MissingErrCode))
  }

  /** The poll loop of a screen over the answers to successive `query_task` calls: a query
      that raises ends the screen with that error; a finished task lists its links; a failed
      one shows its error message; a known in-flight state waits a second and polls again;
      anything else is reported as an unknown state. There is no deadline. */
  function Watch(answers: seq<Option<Reply>>, style: LinkStyle): (r: Result<Outcome, ClientError>)
    ensures r == Ok(StillRunning) <==> forall i :: 0 <= i < |answers| ==>
      MakeRequest(answers[i]).Ok? && Classify(MakeRequest(answers[i]).value.state) == Running
    ensures r.Err? ==> (exists i :: 0 <= i < |answers| && MakeRequest(answers[i]) == Err(r.error))
  {
    if answers == [] then Ok(StillRunning)
    else match MakeRequest(answers[0])
      case Err(e) => Err(e)
      case Ok(info) =>
        match Classify(info.state)
        case Finished => Ok(Completed(Links(info, style)))
        case Broken => Ok(TaskFailed(FailureMessage(info)))
        case Unrecognised => Ok(UnknownState(info.state))
        case Running =>
          var rest := Watch(answers[1..], style);
          assert forall i :: 1 <= i < |answers| ==> answers[i] == answers[1..][i - 1];
          rest
  }

  /** On a run where every state is known, a screen and `wait_for_completion` (whose deadline
      never fires) end on the same poll: the screen lists the links of, or reports the
      failure of, exactly the info `wait_for_completion` returns. */
  lemma {:induction false} WatchAgreesWithWait(taskId: string, timeout: real, trace: seq<Poll>, style: LinkStyle, k: nat)
    requires k <= |trace|
    requires forall j :: 0 <= j < |trace| ==> trace[j].elapsed <= timeout
    requires forall j :: 0 <= j < |trace| && MakeRequest(trace[j].answer).Ok? ==>
      Classify(MakeRequest(trace[j].answer).value.state) != Unrecognised
    ensures WaitFrom(taskId, timeout, trace, k).Settled? ==>
      Watch(Answers(trace)[k..], style) == (
        var info := WaitFrom(taskId, timeout, trace, k).info;
        if IsSuccess(info.state) then Ok(Completed(Links(info, style))) else Ok(TaskFailed(FailureMessage(info))))
    ensures WaitFrom(taskId, timeout, trace, k).Raised? ==>
      Watch(Answers(trace)[k..], style) == Err(WaitFrom(taskId, timeout, trace, k).error)
    ensures WaitFrom(taskId, timeout, trace, k).Unsettled? ==> Watch(Answers(trace)[k..], style) == Ok(StillRunning)
    decreases |trace| - k
  {
    var rest := Answers(trace)[k..];
    if k < |trace| {
      assert rest[0] == trace[k].answer;
      assert rest[1..] == Answers(trace)[k + 1..];
      WatchAgreesWithWait(taskId, timeout, trace, style, k + 1);
    }
  }

  /** The query answers of a trace. */
  function Answers(trace: seq<Poll>): (r: seq<Option<Reply>>)
    ensures |r| == |trace|
    ensures forall i :: 0 <= i < |trace| ==> r[i] == trace[i].answer
  {
    seq(|trace|, i requires 0 <= i < |trace| => trace[i].answer)
  }

  /** The reasons a screen gives for not calling the client at all. `BadEvent` carries the
      reason the timing screen found in an event, with the event's 1-based position. */
  datatype Refusal =
    | NoImage
    | NoReferenceImage
    | NeedTwoImages
    | NoPrompt
    | NoVideoFile
    | NoAudioFile
    | NoText
    | TextTooShort
    | TextTooLong
    | VideoUploadFailed
    | AudioUploadFailed
    | NoVideoSource
    | NoTimingInput
    | BadAudioDuration
    | TimingNotJson
    | TimingNotArray
    | BadEvent(why: Invalid)

  /** What a screen reports: a refusal of its own before anything is sent, an exception raised
      on the way (shown as a creation failure), a submission answer without `task_id`, or
      the task id with how its poll loop ended. */
  datatype Report =
    | Refused(why: Refusal)
    | Crashed(error: ClientError)
    | NoTaskId
    | Tracked(taskId: string, outcome: Outcome)

  /** A screen after its own checks passed: the client call with its submission answer, then
      the poll loop over the query answers. */
  function Launch(prepared: Result<Request, ClientError>, submitted: Option<Reply>,
                     answers: seq<Option<Reply>>, style: LinkStyle): (r: Report)
    ensures prepared.Err? ==> r == Crashed(prepared.error)
    ensures r.Tracked? ==> (prepared.Ok? && MakeRequest(submitted).Ok? && MakeRequest(submitted).value.taskId == Some(r.taskId) &&
      Watch(answers, style) == Ok(r.outcome))
    ensures r.NoTaskId? <==> prepared.Ok? && MakeRequest(submitted).Ok? && MakeRequest(submitted).value.taskId.None?
    ensures !r.Refused?
    ensures prepared.Ok? && MakeRequest(submitted).Err? ==> r == Crashed(MakeRequest(submitted).error)
    ensures prepared.Ok? && MakeRequest(submitted).Ok? && MakeRequest(submitted).value.taskId.Some? ==>
      r == if Watch(answers, style).Ok?
           then Tracked(MakeRequest(submitted).value.taskId.value, Watch(answers, style).value)
           else Crashed(Watch(answers, style).error)
  {
    match Call(prepared, submitted).result
    case Err(e) => Crashed(e)
    case Ok(resp) =>
      match resp.taskId
      case None => NoTaskId
      case Some(id) =>
        match Watch(answers, style)
        case Err(e) => Crashed(e)
        case Ok(o) => Tracked(id, o)
  }

  /** A screen whose request the client refuses never polls: the answers it would have seen
      make no difference. */
  lemma RefusedCallNeverPolls(prepared: Result<Request, ClientError>, submitted: Option<Reply>,
                                 a: seq<Option<Reply>>, b: seq<Option<Reply>>, style: LinkStyle)
    requires prepared.Err?
    ensures Launch(prepared, submitted, a, style) == Launch(prepared, submitted, b, style)
  {
  }
}

=== FILE: upscale_pro.dfy ===
/** The upscale screen: `create_upscale_pro_task`. A saved upload is an `Upload` whose content
    is the URL the saved file is served under. */
module UpscaleScreen {
  import opened Wrappers
  import opened Text
  import opened Protocol
  import opened Dispatch
  import opened Submissions
  import opened Tracking
  import opened Shaping

  /** The target resolutions the screen's drop-down lists. */
  const Offered: seq<string> := ["1080p", "2K", "4K", "8K"]

  /** The creation id as sent: stripped, and left out when blank. */
  function CreationId(id: string): (r: Option<string>)
    ensures r.None? <==> IsBlank(id)
    ensures r.Some? ==> r.value == Strip(id) && Given(r)
  {
    if IsBlank(id) then None else Some(Strip(id))
  }

  /** `create_upscale_pro_task`: neither a file nor a creation id is refused; a chosen file is
      saved first (a failed save is refused); the client gets the saved file's URL when there
      is one, the creation id when not blank, and the resolution; the poll loop then shows the
      video links. */
  function Screen(video: Upload, creationId: string, resolution: string,
                  submitted: Option<Reply>, answers: seq<Option<Reply>>): (r: Report)
    ensures video == NoFile && IsBlank(creationId) ==> r == Refused(Refusal.NoVideoSource)
    ensures video == File(None) ==> r == Refused(VideoUploadFailed)
    ensures r.Refused? <==> (video == NoFile && IsBlank(creationId)) || video == File(None)
    ensures !r.Refused? ==>
      r == Launch(UpscaleProRequest(if video.File? then video.content else None, CreationId(creationId), Some(resolution), None, None),
                  submitted, answers, VideoOnly)
  {
    if video == NoFile && IsBlank(creationId) then Refused(Refusal.NoVideoSource)
    else if video == File(None) then Refused(VideoUploadFailed)
    else
      var url := if video.File? then video.content else None;
      Launch(UpscaleProRequest(url, CreationId(creationId), Some(resolution), None, None), submitted, answers, VideoOnly)
  }

  /** With a saved file or a creation id, a resolution the drop-down lists is accepted by the
      client, and each source the screen has is sent. */
  lemma OfferedChoiceAccepted(url: string, creationId: string, resolution: string)
    requires url != [] || !IsBlank(creationId)
    requires resolution in Offered
    ensures var r := UpscaleProRequest(if url != [] then Some(url) else None, CreationId(creationId), Some(resolution), None, None);
      && r.Ok?
      && (VideoUrlKey in r.value.body <==> url != [])
      && (VideoCreationIdKey in r.value.body <==> !IsBlank(creationId))
      && (!IsBlank(creationId) ==> r.value.body[VideoCreationIdKey] == Str(Strip(creationId)))
  {
    assert UpscaleResolution(resolution) && Given(Some(resolution)) by {
      assert resolution == Offered[0] || resolution == Offered[1] || resolution == Offered[2] || resolution == Offered[3];
    }
    var url' := if url != [] then Some(url) else None;
    assert Given(url') <==> url != [];
    assert Given(url') || Given(CreationId(creationId));
  }

  /** A resolution outside the four the client knows is refused by the client, not the
      screen. */
  lemma UnknownResolutionReachesClient(video: Upload, creationId: string, resolution: string,
                                       submitted: Option<Reply>, answers: seq<Option<Reply>>)
    requires video.File? && video.content.Some? && video.content.value != []
    requires resolution != [] && resolution !in Offered
    ensures Screen(video, creationId, resolution, submitted, answers) == Crashed(ValueError(BadUpscaleResolution))
  {
    assert !UpscaleResolution(resolution) by {
      assert resolution != Offered[0] && resolution != Offered[1] && resolution != Offered[2] && resolution != Offered[3];
    }
    var url := if video.File? then video.content else None;
    assert url == video.content;
    var p := UpscaleProRequest(url, CreationId(creationId), Some(resolution), None, None);
    BadResolutionRefused(url, CreationId(creationId), resolution);
    assert Screen(video, creationId, resolution, submitted, answers) == Launch(p, submitted, answers, VideoOnly);
  }

  /** With a video URL, a resolution the client does not know is refused whatever the id. */
  lemma BadResolutionRefused(url: Option<string>, id: Option<string>, resolution: string)
    requires Given(url) && resolution != [] && !UpscaleResolution(resolution)
    ensures UpscaleProRequest(url, id, Some(resolution), None, None) == Err(ValueError(BadUpscaleResolution))
  {
  }
}

=== FILE: utils.dfy ===
/** The helpers the feature screens share: the movement-amplitude labels, the duration choices
    offered for a model, and the voice-character lookups over the voice table. */
module Utils {
  import opened Wrappers
  import opened Text
  import ErrorCodes
  import opened Durations

  /** The values `movement_amplitude` accepts. */
  predicate MovementValue(v: string) {
    v == "auto" || v == "small" || v == "medium" || v == "large"
  }

  /** The screen label of each movement value. */
  function MovementLabel(v: string): (choice: string)
    requires MovementValue(v)
  {
    if v == "auto" then "自动" else if v == "small" then "小幅度" else if v == "medium" then "中幅度" else "大幅度"
  }

  /** `convert_movement_amplitude`: a screen label to the value sent; anything that is not one
      of the three sized labels means `auto`. */
  function ConvertMovementAmplitude(choice: string): (v: string)
    ensures MovementValue(v)
    ensures v != "auto" <==> choice == "小幅度" || choice == "中幅度" || choice == "大幅度"
  {
    if choice == "小幅度" then "small"
    else if choice == "中幅度" then "medium"
    else if choice == "大幅度" then "large"
    else "auto"
  }

  /** The four labels and the four values correspond one to one. */
  lemma MovementLabelsRoundTrip(v: string)
    requires MovementValue(v)
    ensures ConvertMovementAmplitude(MovementLabel(v)) == v
  {
  }

  /** The decimal strings of a list of durations, as `[str(d) for d in durations]`. */
  function DurationStrings(ds: seq<int>): (r: seq<string>)
    ensures |r| == |ds|
  {
    if ds == [] then [] else [IntToString(ds[0])] + DurationStrings(ds[1..])
  }

  /** `int()` reads each choice back as the duration it was written from. */
  lemma DurationStringsRead(ds: seq<int>, i: nat)
    requires i < |ds|
    ensures ParseInt(DurationStrings(ds)[i]) == Some(ds[i])
  {
    DurationStringsAt(ds, i);
  }

  /** The string at position `i` is `str(ds[i])`. */
  lemma {:induction false} DurationStringsAt(ds: seq<int>, i: nat)
    requires i < |ds|
    ensures DurationStrings(ds)[i] == IntToString(ds[i])
  {
    if i > 0 {
      DurationStringsAt(ds[1..], i - 1);
      assert DurationStrings(ds)[i] == DurationStrings(ds[1..])[i - 1];
    }
  }

  /** `DurationStringsRead` at every position. */
  lemma DurationStringsAllRead(ds: seq<int>)
    ensures forall i :: 0 <= i < |ds| ==> ParseInt(DurationStrings(ds)[i]) == Some(ds[i])
  {
    forall i | 0 <= i < |ds|
      ensures ParseInt(DurationStrings(ds)[i]) == Some(ds[i])
    {
      DurationStringsRead(ds, i);
    }
  }

  /** The durations an operation's table lists for a known model as strings, and `["4"]` for a
      name that is not a model. */
  function DurationChoices(op: VideoOp, model: string): (r: seq<string>)
    requires ParseModel(model).Some? ==> Limits(op, ParseModel(model).value).Some?
    ensures ParseModel(model).None? ==> r == ["4"]
    ensures ParseModel(model).Some? ==> |r| == |Limits(op, ParseModel(model).value).value|
    ensures ParseModel(model).Some? ==> forall i :: 0 <= i < |r| ==>
      ParseInt(r[i]) == Some(Limits(op, ParseModel(model).value).value[i])
    ensures r != []
  {
    match ParseModel(model)
    case None => ["4"]
    case Some(m) =>
      var ds := Limits(op, m).value;
      DurationStringsAllRead(ds);
      DurationStrings(ds)
  }

  /** Every duration a known model's choices offer is read back by `int()` into a duration the
      operation's check accepts, and the first choice, the one a screen preselects, is the
      model's default. */
  lemma DurationChoicesAccepted(op: VideoOp, model: string, i: nat)
    requires ParseModel(model).Some? && Limits(op, ParseModel(model).value).Some?
    requires i < |DurationChoices(op, model)|
    ensures ParseInt(DurationChoices(op, model)[i]).Some?
    ensures ValidateDuration(op, model, ParseInt(DurationChoices(op, model)[i])).Ok?
    ensures ParseInt(DurationChoices(op, model)[0]) == Some(DefaultDuration(ParseModel(model).value))
  {
    var m := ParseModel(model).value;
    var ds := Limits(op, m).value;
    var choices := DurationStrings(ds);
    assert DurationChoices(op, model) == choices;
    DurationStringsRead(ds, i);
    DurationStringsRead(ds, 0);
    DefaultListedFirst(op, m);
    ListedDurationAccepted(op, model, ds[i]);
  }

  /** `update_duration_options`: the image-to-video durations of a known model as strings, and
      `["4"]` for a name that is not a model. */
  function UpdateDurationOptions(model: string): (r: seq<string>)
    ensures r == DurationChoices(ImageToVideo, model)
    ensures ParseModel(model).None? ==> r == ["4"]
    ensures ParseModel(model).Some? ==> |r| == |Limits(ImageToVideo, ParseModel(model).value).value|
    ensures ParseModel(model).Some? ==> forall i :: 0 <= i < |r| ==>
      ParseInt(r[i]) == Some(Limits(ImageToVideo, ParseModel(model).value).value[i])
  {
    DurationChoices(ImageToVideo, model)
  }

  /** The image-to-video instance: every choice offered is accepted by the image-to-video
      check, and the preselected first choice is the default. */
  lemma DurationOptionsAccepted(model: string, i: nat)
    requires ParseModel(model).Some? && i < |UpdateDurationOptions(model)|
    ensures ParseInt(UpdateDurationOptions(model)[i]).Some?
    ensures ValidateDuration(ImageToVideo, model, ParseInt(UpdateDurationOptions(model)[i])).Ok?
    ensures ParseInt(UpdateDurationOptions(model)[0]) == Some(DefaultDuration(ParseModel(model).value))
  {
    DurationChoicesAccepted(ImageToVideo, model, i);
  }

  /** `get_error_message` of the utilities delegates to the error table. */
  function GetErrorMessage(code: string): (r: string)
    ensures ErrorCodes.FromWire(code).Some? ==> r == ErrorCodes.FromWire(code).value.Message()
    ensures ErrorCodes.FromWire(code).None? ==> r == ErrorCodes.UnknownPrefix + code
  {
    ErrorCodes.GetErrorMessage(code)
  }

  /** One entry of the voice table: the name shown and the character id sent. */
  datatype Voice = Voice(name: string, id: string)

  /** How a voice is offered in the drop-down: `name (id)`. */
  function Display(v: Voice): string {
    v.name + " (" + v.id + ")"
  }

  /** `get_voice_character_choices`: one display string per voice, in table order. */
  function VoiceChoices(table: seq<Voice>): (r: seq<string>)
    ensures |r| == |table|
    ensures forall i :: 0 <= i < |table| ==> StartsWith(r[i], table[i].name)
    ensures forall i :: 0 <= i < |table| ==> r[i] == table[i].name + " (" + table[i].id + ")"
  {
    seq(|table|, i requires 0 <= i < |table| => Display(table[i]))
  }

  /** The position of the first voice whose name begins `display`. */
  function FirstNamed(table: seq<Voice>, display: string): (r: Option<nat>)
    ensures r.Some? ==> r.value < |table| && StartsWith(display, table[r.value].name)
    ensures r.Some? ==> forall j :: 0 <= j < r.value ==> !StartsWith(display, table[j].name)
    ensures r.None? ==> forall j :: 0 <= j < |table| ==> !StartsWith(display, table[j].name)
  {
    if table == [] then None
    else if StartsWith(display, table[0].name) then Some(0)
    else match FirstNamed(table[1..], display)
      case None => None
      case Some(k) => Some(k + 1)
  }

  /** `get_voice_character_id`: the id of the first voice whose name begins the display
      string, or `""`. */
  function VoiceId(table: seq<Voice>, display: string): (r: string)
    ensures FirstNamed(table, display).None? ==> r == ""
    ensures FirstNamed(table, display).Some? ==> r == table[FirstNamed(table, display).value].id
  {
    match FirstNamed(table, display)
    case None => ""
    case Some(i) => table[i].id
  }

  /** The position of the first voice with the given id. */
  function FirstWithId(table: seq<Voice>, id: string): (r: Option<nat>)
    ensures r.Some? ==> r.value < |table| && table[r.value].id == id
    ensures r.Some? ==> forall j :: 0 <= j < r.value ==> table[j].id != id
    ensures r.None? ==> forall j :: 0 <= j < |table| ==> table[j].id != id
  {
    if table == [] then None
    else if table[0].id == id then Some(0)
    else match FirstWithId(table[1..], id)
      case None => None
      case Some(k) => Some(k + 1)
  }

  /** `get_voice_character_name`: the name of the first voice with that id, or the id itself. */
  function VoiceName(table: seq<Voice>, id: string): (r: string)
    ensures FirstWithId(table, id).None? ==> r == id
    ensures FirstWithId(table, id).Some? ==> r == table[FirstWithId(table, id).value].name
  {
    match FirstWithId(table, id)
    case None => id
    case Some(i) => table[i].name
  }

  /** Choosing a voice in the drop-down sends its id, unless an earlier voice's name also
      begins its display string; and an id maps back to the voice's name unless an earlier
      voice has the same id. */
  lemma ChoiceRoundTrip(table: seq<Voice>, i: nat)
    requires i < |table|
    requires forall j :: 0 <= j < i ==> !StartsWith(Display(table[i]), table[j].name)
    requires forall j :: 0 <= j < i ==> table[j].id != table[i].id
    ensures VoiceId(table, VoiceChoices(table)[i]) == table[i].id
    ensures VoiceName(table, VoiceId(table, VoiceChoices(table)[i])) == table[i].name
  {
    var d := VoiceChoices(table)[i];
    assert StartsWith(d, table[i].name);
    var k := FirstNamed(table, d);
    assert k == Some(i);
    assert FirstWithId(table, table[i].id) == Some(i);
  }

  /** A display string no voice name begins selects no voice, and an id no voice has is shown
      as itself. */
  lemma UnknownVoice(table: seq<Voice>, display: string, id: string)
    requires forall j :: 0 <= j < |table| ==> !StartsWith(display, table[j].name) && table[j].id != id
    ensures VoiceId(table, display) == ""
    ensures VoiceName(table, id) == id
  {
  }
}

=== FILE: wrappers.dfy ===
/** Failure-compatible Option and Result datatypes used throughout the model:
    Python's `None` and raised exceptions become values here. */
module Wrappers {

  /** A value that may be absent (Python `None`). */
  datatype Option<+T> = None | Some(value: T) {

    /** The value, or `default` when absent (Python `x if x is not None else default`). */
    function GetOr(default: T): T {
      match this
      case Some(v) => v
      case None => default
    }
  }

  /** Either a computed value or the exception that would have been raised. */
  datatype Result<+T, +E> = Ok(value: T) | Err(error: E) {

    predicate IsFailure() {
      Err?
    }

    function PropagateFailure<U>(): Result<U, E>
      requires Err?
    {
      Err(error)
    }

    function Extract(): T
      requires Ok?
    {
      value
    }
  }
}
